=== FILE: README.md ===
# Receipt analyzer core in Dafny

This project models the core of a receipt and bill analyzer: the rule-based
field extractor that reads vendor, date, amount, currency and category out of
OCR text (`parse_receipt_text`), and the record store with its queries over the
`receipts` table (create with date normalisation, get, list, update, delete,
search, sort, and the five aggregations: total spend, mean/median/mode,
vendor frequency, monthly trend, spend per category).

Modules, one file each:

- `Common` (`common.dfy`): `Option`, `Result`, and `FirstWhere`, the leftmost
  hit that both `re.search` and a `for ... break` loop pick.
- `Text` (`text.dfy`): the Python string primitives the code uses.
  - `str.isspace`/`\s`, `str.splitlines`, `str.strip` and ASCII `lower()`.
  - `sub in s`.
  - The fields `strptime` reads between separators. The model cuts the text at each separator, which is sound because no `%Y`, `%m` or `%d` field can contain one.
  - Decimal digit strings.
  - Code-point text order, which is SQLite's BINARY collation.
- `Dates` (`dates.dfy`): calendar dates, `strptime` with `%Y-%m-%d` and
  `%m/%d/%Y`, `date.fromisoformat`, and the date normalisation of
  `create_receipt`.
- `Sql` (`sql.dfy`): `OFFSET`/`LIMIT` paging and SQLite's `LIKE`.
- `Sorting` (`sorting.dfy`): a stable sort by a total preorder.
- `Grouping` (`grouping.dfy`): distinct keys in order of first appearance,
  counts, per-key totals, and sums that are independent of order.
- `Extract` (`extract.dfy`): `parse_receipt_text`, with each regular
  expression written out as a matcher. Each matcher is proved to find the
  leftmost match, and each greedy quantifier to take the longest run.
- `Store` (`store.dfy`): the table as a sequence of rows in rowid order, and
  the record operations.
- `Query` (`query.dfy`): `search_receipts` and `sort_receipts`.
- `Aggregate` (`aggregate.dfy`): the aggregation functions.
- `Pipeline` (`pipeline.dfy`): the upload path (extract, then create) as
  written, the corrected extractor, and the upload path built on it.
- `Samples` (`samples.dfy`): worked examples, each computed against the
  model.

Behaviour of the code that the model keeps as it is:

- **The extractor can raise.** `parse_receipt_text` raises
  `UnboundLocalError` on `Store:A` and on every text where the vendor label
  matches and no currency amount does (see Findings). The upload endpoint
  calls it outside any handler, so such an upload stores nothing
  (`Pipeline.Ingest`).
- **Ids are reused.** The primary key is a plain `INTEGER PRIMARY KEY`, so
  SQLite hands out the largest id + 1, and the id of a deleted newest row
  comes back (`Store.NewestIdReused`).
- **NULLs sort as SQLite sorts them.** The code issues plain `ASC`/`DESC`,
  so rows with a NULL in the column come first ascending and last
  descending. The id fallback is ascending whatever `sort_order` says.
- **Search patterns are `LIKE` patterns.** The keyword and vendor-pattern
  filters wrap the user's text in `%...%` without escaping, so `%` and `_`
  in it act as wildcards.
  - `Query.KeywordMatchContains` proves that the filter is a substring test
    when there are no wildcards.
  - `Query.UnderscoreKeywordMatchesAll` shows that the keyword `_` matches
    every row.
- **The mode is the first most common amount.** The code takes the first
  amount reaching the top count in `Counter` order, which is the order of
  first appearance in table order.

## Model

| member | source | states |
|---|---|---|
| Common.FirstWhere | backend/core/ocr.py:114-119 | the first position in a range where a test holds, with the test false at every earlier position, or none when it fails everywhere |
| Text.SplitLines | backend/core/ocr.py:113 | `splitlines()`: no line contains a break, and the empty text has no lines |
| Text.SplitLinesOneLine | backend/core/ocr.py:113 | a non-empty text without a break is a single line, itself |
| Text.LineFromIsSlice | backend/core/ocr.py:113 | every line is an unaltered stretch of the text |
| Text.LinesFromLayout | backend/core/ocr.py:113 | the lines sit in the text in order: the first starts at the start, each ends at a break and the next starts just past it (`\r\n` is one break), and the last ends at the end of the text or at a final break |
| Text.LayoutIsLinesFrom | backend/core/ocr.py:113 | any list of break-free stretches laid out that way is the list of lines, so no line is dropped, added or reordered |
| Text.SplitLinesLayout | backend/core/ocr.py:113 | `ls` is `text.splitlines()` exactly when its lines can be laid out in the text that way from the start |
| Text.Strip | backend/core/ocr.py:110 | `strip()`: the result neither starts nor ends with whitespace, the input is the result padded only with whitespace, and the result is empty exactly when the input is all whitespace |
| Text.Contains | backend/core/ocr.py:135 | `sub in s` holds exactly when `sub` occurs at some position of `s` |
| Text.SplitOn | backend/db/crud.py:30-32 | the pieces contain no separator and, joined with it, give the input back |
| Text.PadDigitsLe | backend/db/crud.py:238-243 | zero-padded numbers of one width compare as text exactly as they compare as numbers, and are equal exactly when the numbers are |
| Text.LexLeTotal | backend/db/crud.py:171-175 | text order is total, so ordering by a text column is well defined |
| Dates.FromIsoFormat | backend/db/crud.py:75 | `date.fromisoformat` accepts a text only when it is the `YYYY-MM-DD` printing of a real date |
| Dates.FromIsoFormatRoundTrip | backend/db/crud.py:75 | every real date printed as `YYYY-MM-DD` is read back as itself |
| Dates.YearField | backend/db/crud.py:30 | `%Y` reads a field only as the four-digit printing of the value it returns |
| Dates.YearFieldExact | backend/db/crud.py:30 | `%Y` reads a field as a year exactly when the field is that year's four-digit printing |
| Dates.MonthFieldExact | backend/db/crud.py:30 | `%m` reads a field as a month exactly when the month is 1 to 12 and the field is its two-digit or, below ten, one-digit printing |
| Dates.DayFieldExact | backend/db/crud.py:30 | `%d` reads a field as a day exactly when the day is 1 to 31 and the field is its two-digit printing or, below ten, its digit with or without one space before it |
| Dates.StrptimeYmd | backend/db/crud.py:30 | `strptime(t, '%Y-%m-%d')` returns only real dates that `t` prints field by field, year first |
| Dates.StrptimeMdy | backend/db/crud.py:32 | `strptime(t, '%m/%d/%Y')` returns only real dates that `t` prints field by field, month first |
| Dates.StrptimeYmdAccepts | backend/db/crud.py:30 | every `%Y-%m-%d` printing of a real date, padded or not, is read as that date |
| Dates.StrptimeMdyAccepts | backend/db/crud.py:32 | every `%m/%d/%Y` printing of a real date, padded or not, is read as that date |
| Dates.NormalizeDate | backend/db/crud.py:22-36 | a normalised date is always a real date; there is no date without a token containing `-` or `/`; a token with `-` is read only year first, and one with only `/` only month first |
| Dates.NormalizeDateExact | backend/db/crud.py:22-36 | a token normalises to a date exactly when the date is real and the token prints it as `%Y-%m-%d` or as `%m/%d/%Y`, so out-of-range fields, other widths, and swapped or mixed separators give no date |
| Dates.NormalizeAcceptsYmd | backend/db/crud.py:28-30 | any `%Y-%m-%d` printing of a real date normalises to it |
| Dates.NormalizeAcceptsMdy | backend/db/crud.py:31-32 | any `%m/%d/%Y` printing of a real date normalises to it |
| Dates.NormalizeIsoRoundTrip | backend/db/crud.py:29-30 | a real date printed `YYYY-MM-DD` normalises back to itself |
| Dates.NormalizeUsRoundTrip | backend/db/crud.py:31-32 | a real date printed `MM/DD/YYYY` normalises back to itself |
| Dates.DateLeTotalOrder | backend/db/crud.py:131-134 | date order is total, antisymmetric and transitive |
| Dates.DateLeIsIsoTextOrder | backend/db/crud.py:131-134 | for real dates, calendar order is the text order of the stored `YYYY-MM-DD` form, which SQLite compares in the date-range filters |
| Sql.Window | backend/db/crud.py:57 | `OFFSET`/`LIMIT`: the page is the run of rows starting at the offset (negative offsets count as 0), at most `limit` long, with no limit when it is negative |
| Sql.WindowPages | backend/db/crud.py:57 | reading one page after another gives the rows of the combined page |
| Sql.Like | backend/db/crud.py:121-123 | SQLite's `LIKE` with `%` and `_` wildcards, no escape, ASCII case folding; the reference definition, pinned by `Sql.LikeContains`, `Sql.LikePrefix` and `Sql.UnderscoreMatchesAnyText` |
| Sql.LikeContains | backend/db/crud.py:119-123 | `lower(col) LIKE '%kw%'` with a wildcard-free keyword holds exactly when the lower-cased column contains the lower-cased keyword |
| Sql.LikePrefix | backend/db/crud.py:144 | a wildcard-free pattern followed by `%` matches exactly the texts it begins, ignoring ASCII case |
| Sql.UnderscoreMatchesAnyText | backend/db/crud.py:119 | the pattern `%_%` matches every non-empty text |
| Sorting.SortBy | backend/db/crud.py:199 | `sorted`: the result is ordered and is a permutation of the input |
| Sorting.SortBySorted | backend/db/crud.py:178 | sorting an already ordered sequence changes nothing |
| Grouping.Distinct | backend/db/crud.py:208 | `Counter` keys: no repeats, the same elements as the input, in order of first appearance |
| Grouping.SumOfPermutation | backend/db/crud.py:186 | a sum does not depend on the order of its terms |
| Grouping.GroupTotals | backend/db/crud.py:237-243 | `GROUP BY` with `SUM`: distinct keys, exactly the keys present, each with the total of its rows |
| Grouping.GroupTotalsPartition | backend/db/crud.py:253-258 | the group totals add up to the grand total |
| Extract.LabelAt | backend/core/ocr.py:108 | the vendor pattern at one position: the reported group is one way the pattern matches, and it runs to the end of its line |
| Extract.LabelAtComplete | backend/core/ocr.py:108 | every way the vendor pattern can match at a position is found, and the greedy `\s*` makes the reported group start no earlier |
| Extract.GroupStart | backend/core/ocr.py:108 | the captured group starts after the separator's spaces at a character other than `\n`, and at or after every other position where `\s*(.+)` could start it |
| Extract.FindLabel | backend/core/ocr.py:108 | `re.search` for the vendor label: a position where the pattern matches, with no match at any earlier position; none only when it matches nowhere |
| Extract.FindLabelLeftmost | backend/core/ocr.py:108 | `re.search` reports a match no later than any position where the pattern can match |
| Extract.FindLabelExact | backend/core/ocr.py:108-109 | the vendor search succeeds exactly when the pattern can match somewhere |
| Extract.LabelledVendor | backend/core/ocr.py:108-110 | the vendor is the stripped group of the leftmost label match, present exactly when a label matches |
| Extract.FallbackVendor | backend/core/ocr.py:111-119 | the first stripped line that is not only digits and non-word characters, with every earlier line rejected; none exactly when every line is rejected |
| Extract.VendorCandidateHasLetter | backend/core/ocr.py:117 | a stripped line qualifies exactly when it holds an ASCII letter or `_` |
| Extract.DateToken | backend/core/ocr.py:121-123 | the leftmost ten characters of either date shape, verbatim; none exactly when no position has either shape |
| Extract.NumberAt | backend/core/ocr.py:125 | `\d+[.,]?\d*` at a position: one way it matches, present exactly when the position holds a digit |
| Extract.NumberAtLongest | backend/core/ocr.py:125 | the reported number match is the longest one |
| Extract.AmountAtComplete | backend/core/ocr.py:125 | every currency-amount match at a position is found, with its number starting where reported and ending no later |
| Extract.FindAmount | backend/core/ocr.py:125 | `re.search` for the currency amount: a position where the pattern matches, with no match at any earlier position; none only when it matches nowhere |
| Extract.FindAmountExact | backend/core/ocr.py:125-126 | the amount search succeeds exactly when the pattern can match somewhere |
| Extract.CurrencyAmountShape | backend/core/ocr.py:127-131 | at a currency match, the float conversion cannot fail, and the currency left after deleting digits, separators and spaces is the symbol alone |
| Extract.NumberValue | backend/core/ocr.py:128-139 | a matched number always parses, both with commas dropped and with non-digits dropped: a dot separates the decimals, and a comma joins the digits into one integer |
| Extract.ParseDecimal | backend/core/ocr.py:128 | `float` of digits and dots: never negative, and a digit string reads as its integer value |
| Extract.TotalLineIndex | backend/core/ocr.py:134-135 | the first line whose lower-cased text contains "total" |
| Extract.TotalLineAmount | backend/core/ocr.py:136-141 | an amount exactly when the "total" line holds a digit; it is the value of its first number |
| Extract.TotalLineCurrency | backend/core/ocr.py:142-144 | a currency exactly when the line holds a symbol; it is the first symbol |
| Extract.TotalFallback | backend/core/ocr.py:132-145 | the fields of the first "total" line, or none without one |
| Extract.CategoryOf | backend/core/ocr.py:147-151 | "Utilities" exactly when the vendor names a utility word, "Groceries" exactly when it names a grocery word and no utility word, and nothing for a missing or empty vendor |
| Extract.ParseReceiptText | backend/core/ocr.py:98-159 | the extractor raises exactly when a label matches and no currency amount does; otherwise the vendor is the stripped text after the first label, or else the first candidate line when no label matches; the amount is the first currency-prefixed number with commas dropped and the currency is its symbol, or else both come from the first "total" line; the date is the date token and the category follows the vendor |
| Extract.ParseFailsExactly | backend/core/ocr.py:108-134 | the extractor raises exactly on texts where the vendor pattern matches somewhere and the currency-amount pattern nowhere |
| Extract.BlankTextParsesToNothing | backend/core/ocr.py:102-159 | a blank text yields all five fields empty |
| Store.MaxId | backend/db/models.py:11 | the largest id present, 0 for an empty table |
| Store.NextId | backend/db/models.py:11 | a new id is fresh, greater than every id present, and one more than the largest |
| Store.Create | backend/db/crud.py:9-51 | the row is appended under a fresh id, with the normalised date, the extracted fields as given, and today as `created_at`; a valid table stays valid |
| Store.IndexOfId | backend/db/crud.py:63 | the first row with the id, none exactly when no row has it |
| Store.Get | backend/db/crud.py:59-63 | a row with the id, taken from the table, none exactly when no row has it |
| Store.GetUnique | backend/db/crud.py:63 | in a valid table `get` returns the one row carrying the id |
| Store.List | backend/db/crud.py:53-57 | the page holds the rows from position `skip` on (from the start when it is negative), in table order, as many as remain or `limit`, whichever is fewer (all that remain when `limit` is negative) |
| Store.ListPages | backend/db/crud.py:57 | reading one page and then the next gives the rows of the combined page |
| Store.ApplyDate | backend/db/crud.py:72-77 | a date text replaces the date only when `fromisoformat` reads it, and otherwise leaves it |
| Store.Apply | backend/db/crud.py:71-79 | a key present in the update gives the column its value, and an absent key leaves the old value |
| Store.Patched | backend/db/crud.py:71-79 | each of the nine writable columns takes the update's value when its key is given and keeps its old value otherwise; the date goes through the date-text rule; the id never changes |
| Store.PatchedIdempotent | backend/db/crud.py:71-79 | applying an update's keys twice is applying them once |
| Store.EmptyPatchKeeps | backend/db/crud.py:71-79 | an update without keys changes nothing |
| Store.UpdateKeepsDateOnBadText | backend/db/crud.py:72-77 | a date text that is not ISO leaves the date, while the other keys still apply |
| Store.UpdateOnlyAmount | backend/db/crud.py:65-83 | an update of the amount alone changes the amount and nothing else |
| Store.PatchRows | backend/db/crud.py:71-81 | the row with the id becomes its patched version; every other row, and the order of the rows, stays |
| Store.Update | backend/db/crud.py:65-83 | none, with the table unchanged, exactly when no row has the id; otherwise the patched row, with every other row and every id unchanged |
| Store.UpdateThenGet | backend/db/crud.py:80-82 | reading the row back after an update returns what the update returned |
| Store.UpdateIdempotent | backend/db/crud.py:65-83 | updating twice with the same keys is updating once |
| Store.RemoveAtKeeps | backend/db/crud.py:91 | removing a row keeps every other row and the id order, and its id is gone |
| Store.Delete | backend/db/crud.py:85-94 | true exactly when a row has the id; then one row fewer, no row with the id, all others kept; otherwise the table is unchanged |
| Store.CreateThenGet | backend/db/crud.py:48-51 | a created row is read back unchanged by its id |
| Store.CreateThenDelete | backend/db/crud.py:85-94 | deleting the row just created restores the table |
| Store.NewestIdReused | backend/db/models.py:11 | after deleting the newest row, the next insert reuses its id |
| Query.Matches | backend/db/crud.py:117-144 | the conjunction of the keyword, amount-range, date-range and vendor-pattern filters, each applied only when given; the reference definition, pinned by `Query.Select`, `Query.ColumnLikeContains` and `Query.KeywordMatchContains` |
| Query.Select | backend/db/crud.py:115-144 | exactly the rows passing every given filter, in table order |
| Query.Search | backend/db/crud.py:98-146 | the page holds the matching rows, in table order, from position `skip` of the matches on, as many as remain or `limit`; without offset and limit, exactly the matching rows |
| Query.SearchPages | backend/db/crud.py:146 | reading one page of results and then the next gives the results of the combined page |
| Query.SearchNoCriteria | backend/db/crud.py:115-146 | a search without criteria is the plain listing |
| Query.ColumnLikeContains | backend/db/crud.py:121-123 | on a NULL column the filter fails; otherwise it is a case-insensitive substring test for wildcard-free keywords |
| Query.KeywordMatchContains | backend/db/crud.py:117-124 | the keyword filter holds exactly when filename, vendor or category contains the keyword |
| Query.UnderscoreKeywordMatchesAll | backend/db/crud.py:119 | the keyword `_` matches every row with a non-empty filename |
| Query.OrderIsPreorder | backend/db/crud.py:161-178 | every order the code can ask for is total and transitive |
| Query.SortedRows | backend/db/crud.py:161-178 | the table in the chosen `ORDER BY`: ordered by the column and direction, and a permutation of the rows |
| Query.Sort | backend/db/crud.py:149-180 | the page holds the rows of the sorted table from position `skip` on, as many as remain or `limit`; it is ordered by the chosen column and direction; without offset and limit it is a permutation of the table |
| Query.SortAscNullsFirst | backend/db/crud.py:163-175 | ascending, rows with a NULL in the column come first |
| Query.SortDescNullsLast | backend/db/crud.py:163-175 | descending, rows with a NULL in the column come last |
| Query.SortByAmountOrdersAmounts | backend/db/crud.py:161-165 | present amounts come out non-decreasing, or non-increasing with `desc` |
| Query.SortFallbackIsListing | backend/db/crud.py:176-178 | an unknown `sort_by` orders by id ascending, whatever the order argument; on a valid table that is the listing |
| Aggregate.Project | backend/db/crud.py:191 | the column values of the rows passing the NULL filter, exactly those |
| Aggregate.TotalSpend | backend/db/crud.py:184-187 | 0.0 when no row has an amount |
| Aggregate.TotalSpendConcat | backend/db/crud.py:186 | the total over two tables is the sum of their totals |
| Aggregate.TotalSpendWithoutAmounts | backend/db/crud.py:187 | a table with no amounts totals 0.0 |
| Aggregate.TotalSpendAfterCreate | backend/db/crud.py:186 | creating a receipt adds its amount, if any, to the total |
| Aggregate.TotalSpendAfterDelete | backend/db/crud.py:186 | deleting a receipt takes its amount off the total |
| Aggregate.Mode | backend/db/crud.py:206-214 | the mode is an amount, no amount is more common, and every amount first seen before it is strictly less common |
| Aggregate.Mean | backend/db/crud.py:196 | the mean taken once per amount makes up their sum |
| Aggregate.Median | backend/db/crud.py:198-204 | the middle of the sorted amounts, or the average of the two middle ones for an even count; the reference definition, pinned by `Aggregate.SortedAmountsUnique` and `Aggregate.MedianWithinBounds` |
| Aggregate.SpendStatistics | backend/db/crud.py:189-216 | all three are NULL exactly when no row has an amount; otherwise the mean, median and mode of the amounts |
| Aggregate.MeanWithinBounds | backend/db/crud.py:196 | the mean lies within any bounds of the amounts |
| Aggregate.MedianWithinBounds | backend/db/crud.py:198-204 | the median lies within any bounds of the amounts |
| Aggregate.SortedAmountsUnique | backend/db/crud.py:199 | any sorted rearrangement of the amounts is the one `sorted` gives, so the median is well defined |
| Aggregate.VendorFrequency | backend/db/crud.py:219-226 | one entry per non-NULL vendor with its receipt count, at least 1, counts non-increasing |
| Aggregate.VendorCountsAddUp | backend/db/crud.py:221-225 | the counts add up to the number of receipts naming a vendor |
| Aggregate.MonthKey | backend/db/crud.py:238 | `strftime('%Y-%m', …)`: the four-digit year, a dash and the two-digit month; the reference definition, pinned by `Aggregate.MonthKeyLe` and `Aggregate.MonthKeyEq` |
| Aggregate.MonthKeyLe | backend/db/crud.py:238-243 | for real dates, month keys compare as text as their months compare in the calendar |
| Aggregate.MonthKeyEq | backend/db/crud.py:238-242 | for real dates, two month keys are equal exactly when the dates fall in the same month |
| Aggregate.MonthlyTrend | backend/db/crud.py:228-247 | one entry per month with dated amounts, each with that month's total, months strictly ascending |
| Aggregate.MonthlyTrendAddsUp | backend/db/crud.py:237-244 | the monthly totals add up to the spend on dated receipts |
| Aggregate.SpendByCategory | backend/db/crud.py:249-262 | one entry per category with amounts, each with its total, largest total first |
| Aggregate.CategorySpendAddsUp | backend/db/crud.py:253-260 | the category totals add up to the spend on categorised receipts |
| Pipeline.ParseReceiptTextFixed | backend/core/ocr.py:98-159 | the extractor with `lines` bound first never raises: the vendor is the labelled one when a label matches and the first candidate line otherwise; amount and currency are the first currency-prefixed number and its symbol, or else the "total" line fields; the date is the date token and the category follows the vendor |
| Pipeline.FixedAgreesWithOriginal | backend/core/ocr.py:98-159 | wherever the code returns, the corrected extractor returns the same fields |
| Pipeline.FixedCoversLabelledTotal | backend/core/ocr.py:108-145 | where the code raises, the corrected extractor keeps the labelled vendor and reads the "total" line |
| Pipeline.OriginalRaisesOnLabelWithoutPrice | backend/core/ocr.py:108-134 | the text `Store:A` makes the code raise |
| Pipeline.Ingest | backend/api/upload.py:84-93 | the upload fails, storing nothing, exactly when a label matches and no currency amount does; otherwise it stores what the corrected upload path stores |
| Pipeline.IngestFailsOnLabelWithoutPrice | backend/api/upload.py:84 | uploading the text `Store:A` fails |
| Pipeline.IngestFixed | backend/db/crud.py:9-51 | the upload with the corrected extractor appends one row with a fresh id carrying the extracted vendor, amount, category and currency, the normalised date token, the given filename, content type and saved path, and today as its creation time |
| Pipeline.IngestedDateIsValid | backend/db/crud.py:22-36 | on the corrected upload path, a stored transaction date is always a real date |
| Pipeline.IngestKeepsIsoDate | backend/db/crud.py:29-30 | on the corrected upload path, a leftmost date token printed `YYYY-MM-DD` is stored as that date |
| Pipeline.IngestKeepsUsDate | backend/db/crud.py:31-32 | on the corrected upload path, a leftmost date token printed `MM/DD/YYYY` is stored as that date |
| Pipeline.IngestWithoutDateToken | backend/db/crud.py:24 | on the corrected upload path, a text without a date-shaped token is stored without a date |
| Pipeline.IngestThenGet | backend/db/crud.py:48-51 | on the corrected upload path, an ingested receipt is read back unchanged by its id |
| Samples.NormalizeIsoSample | backend/db/crud.py:29-30 | `2024-03-05` normalises to March 5, 2024 |
| Samples.NormalizeUsSample | backend/db/crud.py:31-32 | `03/05/2024` normalises to March 5, 2024 |
| Samples.NormalizeRejectsMonth13 | backend/db/crud.py:34-36 | `2024-13-40` normalises to no date |
| Samples.NormalizeShortUsSample | backend/db/crud.py:31-32 | `1/5/2024`, without zero padding, normalises to January 5, 2024 |
| Samples.NormalizeRejectsYearFirstSlashes | backend/db/crud.py:31-36 | `2024/03/05` normalises to no date, since with slashes the month comes first |
| Samples.WorkedExample | backend/core/ocr.py:98-159 | `Vendor: Walmart\nTotal: $45.67\n2024-01-15` extracts Walmart, 2024-01-15, 45.67, Groceries, `$` |
| Samples.StatisticsSample | backend/db/crud.py:189-216 | amounts 10, 20, 30, 30 give mean 22.5, median 25.0, mode 30 |
| Samples.TotalSpendSample | backend/db/crud.py:184-187 | amounts 10, NULL, 20, 30 total 60 |
| Samples.SearchAmountRangeSample | backend/db/crud.py:126-129 | an amount range of 20 to 40 keeps the rows of 25 and 35, in table order |

## Left out

- OCR, file reading and saving, the HTTP layer and the front end are not part of this model. The model starts from the OCR text and ends at the table.
- Sessions, commits and transactions are left out. Each operation is a pure function from table to table. Storage failures and `IntegrityError` are not modelled.
- The debug and warning `print` calls are left out.
- `created_at` uses today's date, which the model takes as a parameter (`today`) instead of reading a clock.
- Regular expressions are modelled with ASCII `\d`, ASCII `\w`/`\W` and ASCII-only `re.IGNORECASE`, while Python 3 would match any Unicode digit or letter. `lower()` on the keyword and the vendor is modelled on ASCII letters only. `\s`, `strip` and `splitlines` follow Python's full whitespace and line-break sets.
- Dates.FromIsoFormat: accepts only `YYYY-MM-DD`. It does not model the extra forms that Python 3.11 and later also accept, such as `YYYYMMDD` or week dates.
- Extract.ParseDecimal: models `float` only on strings of digits and dots, which is every string the extractor passes to it. Binary rounding of floats, infinities and NaN are not modelled: amounts are exact reals.
- Aggregate.MonthKey: clamps negative years and months to 0 before padding. That case cannot arise for a stored date, which is always a real date.
- Store.Update: does not model the `id` key, unknown keys, or values of the wrong type. The model's update carries one optional entry per writable column, and a `transaction_date` is given as a date, NULL, or text. A `setattr` of the id or of a non-column attribute is not modelled.
- Query.Sort: rows with equal sort keys keep their table order. SQLite leaves that order unspecified, so the model's order is one of the orders SQLite may return.
- Aggregate.VendorFrequency: ties in the count keep order of first appearance, and SQLite leaves that order unspecified. The result is a sequence of pairs standing for the returned dict, in the dict's insertion order.
- Aggregate.SpendByCategory: ties in the total keep order of first appearance, and SQLite leaves that order unspecified.
- Aggregate.MonthlyTrend: each month key is the `YYYY-MM` text of the stored date. SQLite's `strftime` is not modelled on anything other than a valid date.

## Findings

| source | as written | input that shows it | evidently intended | confidence | as-written member | corrected member |
|---|---|---|---|---|---|---|
| backend/core/ocr.py:108-134 | `lines = text.splitlines()` is bound only in the `else` branch of the vendor search, yet the "total" fallback iterates `lines` whenever no currency-prefixed amount matches | `Store:A`: the label matches and there is no amount, so the fallback reads an unbound `lines` and raises `UnboundLocalError` | bind `lines` before the vendor search, so the extractor never raises and a labelled receipt still gets its amount from the "total" line | not executed | Extract.ParseReceiptText, Pipeline.OriginalRaisesOnLabelWithoutPrice | Pipeline.ParseReceiptTextFixed, Pipeline.FixedCoversLabelledTotal |

=== FILE: aggregate.dfy ===
/**
 * The aggregation queries over the table: total spend, mean / median /
 * mode of the amounts, vendor frequencies, the monthly spend trend and the
 * spend per category.
 */
module Aggregate {
  import opened Common
  import opened Text
  import opened Dates
  import opened Sql
  import opened Sorting
  import opened Grouping
  import opened Store

  // ---------------------------------------------------------------------------
  // get_total_spend

  /**
   * One column of the rows passing an `IS NOT NULL` filter, in table order:
   * `f` gives the row's value, or `None` when the row is filtered out.
   */
  function Project<T(==,!new)>(rows: Table, f: Receipt -> Option<T>): (xs: seq<T>)
    ensures |xs| <= |rows|
    ensures forall x :: x in xs <==> exists k :: 0 <= k < |rows| && f(rows[k]) == Some(x)
  {
    if |rows| == 0 then []
    else
      var rest := Project(rows[1..], f);
      assert forall k :: 1 <= k < |rows| ==> rows[1..][k - 1] == rows[k];
      assert forall x :: (exists k :: 0 <= k < |rows[1..]| && f(rows[1..][k]) == Some(x))
                    ==> (exists k :: 1 <= k < |rows| && f(rows[k]) == Some(x)) by {
        forall x | exists k :: 0 <= k < |rows[1..]| && f(rows[1..][k]) == Some(x)
          ensures exists k :: 1 <= k < |rows| && f(rows[k]) == Some(x)
        {
          var k :| 0 <= k < |rows[1..]| && f(rows[1..][k]) == Some(x);
          assert f(rows[k + 1]) == Some(x);
        }
      }
      (if f(rows[0]).Some? then [f(rows[0]).value] else []) + rest
  }

  lemma {:induction false} ProjectConcat<T(!new)>(a: Table, b: Table, f: Receipt -> Option<T>)
    ensures Project(a + b, f) == Project(a, f) + Project(b, f)
  {
    if |a| > 0 {
      ProjectConcat(a[1..], b, f);
      assert (a + b)[1..] == a[1..] + b;
    } else {
      assert a + b == b;
    }
  }

  lemma {:induction false} ProjectNone<T(!new)>(rows: Table, f: Receipt -> Option<T>)
    requires forall k :: 0 <= k < |rows| ==> f(rows[k]).None?
    ensures Project(rows, f) == []
  {
    if |rows| > 0 {
      ProjectNone(rows[1..], f);
    }
  }

  function AmountOf(r: Receipt): Option<real> {
    r.amount
  }

  /** The non-NULL amounts in table order. */
  function Amounts(rows: Table): (xs: seq<real>)
    ensures forall x :: x in xs <==> exists k :: 0 <= k < |rows| && rows[k].amount == Some(x)
  {
    Project(rows, AmountOf)
  }


  function Value(x: real): real {
    x
  }

  /** `get_total_spend`: `SUM(amount)`, and 0.0 where SQL gives NULL for no amounts. */
  function TotalSpend(rows: Table): (t: real)
    ensures Amounts(rows) == [] ==> t == 0.0
  {
    SumOf(Amounts(rows), Value)
  }

  function AmountOrZero(r: Receipt): real {
    if r.amount.Some? then r.amount.value else 0.0
  }

  /** The total over two tables is the sum of their totals. */
  lemma TotalSpendConcat(a: Table, b: Table)
    ensures TotalSpend(a + b) == TotalSpend(a) + TotalSpend(b)
  {
    ProjectConcat(a, b, AmountOf);
    SumOfConcat(Amounts(a), Amounts(b), Value);
  }

  /** A table whose amounts are all NULL spends 0.0. */
  lemma TotalSpendWithoutAmounts(rows: Table)
    requires forall k :: 0 <= k < |rows| ==> rows[k].amount.None?
    ensures TotalSpend(rows) == 0.0
  {
    ProjectNone(rows, AmountOf);
  }

  lemma TotalSpendOne(r: Receipt)
    ensures TotalSpend([r]) == AmountOrZero(r)
  {
    assert [r][1..] == [];
    assert Project([r][1..], AmountOf) == [];
    var xs := Amounts([r]);
    assert xs == (if r.amount.Some? then [r.amount.value] else []);
    if r.amount.Some? {
      assert SumOf(xs, Value) == r.amount.value + SumOf(xs[1..], Value);
      assert xs[1..] == [];
    }
  }

  /** Creating a receipt adds its amount to the total, if it has one. */
  lemma TotalSpendAfterCreate(rows: Table, filename: string, contentType: string, savedPath: string,
                              parsed: Extract.Parsed, today: Date)
    ensures var res := Create(rows, filename, contentType, savedPath, parsed, today);
            TotalSpend(res.0) == TotalSpend(rows) + AmountOrZero(res.1)
  {
    var res := Create(rows, filename, contentType, savedPath, parsed, today);
    var r := res.1;
    assert res.0 == rows + [r];
    TotalSpendConcat(rows, [r]);
    TotalSpendOne(r);
  }

  /** Taking one row out of a table takes its amount off the total. */
  lemma TotalSpendWithout(before: Table, r: Receipt, after: Table)
    ensures TotalSpend(before + [r] + after) == TotalSpend(before + after) + AmountOrZero(r)
  {
    TotalSpendConcat(before + [r], after);
    TotalSpendConcat(before, [r]);
    TotalSpendConcat(before, after);
    TotalSpendOne(r);
  }

  /** Deleting a receipt takes its amount off the total. */
  lemma TotalSpendAfterDelete(rows: Table, id: int)
    requires HasId(rows, id)
    ensures TotalSpend(rows) == TotalSpend(Delete(rows, id).0) + AmountOrZero(Get(rows, id).value)
  {
    var k := IndexOfId(rows, id).value;
    assert rows == rows[..k] + [rows[k]] + rows[k + 1..];
    TotalSpendWithout(rows[..k], rows[k], rows[k + 1..]);
  }

  // ---------------------------------------------------------------------------
  // get_spend_statistics

  datatype Stats = Stats(mean: Option<real>, median: Option<real>, mode: Option<real>)

  /** `sum(amounts) / len(amounts)`: the value that, taken once per amount, makes up their sum. */
  function Mean(xs: seq<real>): (m: real)
    requires |xs| > 0
    ensures m * (|xs| as real) == SumOf(xs, Value)
  {
    SumOf(xs, Value) / (|xs| as real)
  }

  /** The middle of the sorted amounts, or the average of the two middle ones. */
  function Median(xs: seq<real>): real
    requires |xs| > 0
  {
    var s := SortBy(xs, RealLe);
    var n := |s|;
    if n % 2 == 0 then (s[n / 2 - 1] + s[n / 2]) / 2.0 else s[n / 2]
  }

  /** The largest count among the keys. */
  function MaxCount(xs: seq<real>, ks: seq<real>): (m: nat)
    ensures forall i :: 0 <= i < |ks| ==> CountOf(xs, ks[i]) <= m
    ensures |ks| > 0 ==> exists i :: 0 <= i < |ks| && CountOf(xs, ks[i]) == m
  {
    if |ks| == 0 then 0
    else
      var rest := MaxCount(xs, ks[1..]);
      assert forall i :: 1 <= i < |ks| ==> ks[i] == ks[1..][i - 1];
      if CountOf(xs, ks[0]) >= rest then CountOf(xs, ks[0]) else rest
  }

  /** The first key, in key order, whose count reaches `top`. */
  function FirstWithCount(xs: seq<real>, ks: seq<real>, top: nat): (q: nat)
    requires exists i :: 0 <= i < |ks| && CountOf(xs, ks[i]) == top
    ensures q < |ks| && CountOf(xs, ks[q]) == top
    ensures forall p :: 0 <= p < q ==> CountOf(xs, ks[p]) != top
  {
    var hit := (i: nat) => i < |ks| && CountOf(xs, ks[i]) == top;
    assert forall i: nat :: hit(i) == (i < |ks| && CountOf(xs, ks[i]) == top);
    FirstWhere(hit, 0, |ks|).value
  }

  /**
   * The mode as `Counter(xs)` yields it: among the most common amounts, the
   * one seen first.
   */
  function Mode(xs: seq<real>): (m: real)
    requires |xs| > 0
    ensures m in xs
    ensures forall x :: x in xs ==> CountOf(xs, x) <= CountOf(xs, m)
    ensures forall j :: 0 <= j < FirstIndex(xs, m) ==> CountOf(xs, xs[j]) < CountOf(xs, m)
  {
    var ks := Distinct(xs);
    assert xs[0] in ks;
    var top := MaxCount(xs, ks);
    var q := FirstWithCount(xs, ks, top);
    ModeIsFirstMostCommon(xs, ks, top, q);
    ks[q]
  }

  lemma ModeIsFirstMostCommon(xs: seq<real>, ks: seq<real>, top: nat, q: nat)
    requires ks == Distinct(xs) && top == MaxCount(xs, ks)
    requires q < |ks| && CountOf(xs, ks[q]) == top
    requires forall p :: 0 <= p < q ==> CountOf(xs, ks[p]) != top
    ensures forall x :: x in xs ==> CountOf(xs, x) <= top
    ensures forall j :: 0 <= j < FirstIndex(xs, ks[q]) ==> CountOf(xs, xs[j]) < top
  {
    MaxCountBoundsAll(xs, ks, top);
    forall j | 0 <= j < FirstIndex(xs, ks[q]) ensures CountOf(xs, xs[j]) < top {
      EarlierKey(xs, ks, q, j);
    }
  }

  lemma MaxCountBoundsAll(xs: seq<real>, ks: seq<real>, top: nat)
    requires forall x :: x in xs ==> x in ks
    requires top == MaxCount(xs, ks)
    ensures forall x :: x in xs ==> CountOf(xs, x) <= top
  {
    forall x | x in xs ensures CountOf(xs, x) <= top {
      var p :| 0 <= p < |ks| && ks[p] == x;
    }
  }

  /** An amount seen before the first occurrence of key `q` is one of the keys before `q`. */
  lemma EarlierKey(xs: seq<real>, ks: seq<real>, q: nat, j: nat)
    requires ks == Distinct(xs) && q < |ks|
    requires j < FirstIndex(xs, ks[q])
    ensures exists p :: 0 <= p < q && ks[p] == xs[j]
  {
    assert xs[j] in ks;
    var p :| 0 <= p < |ks| && ks[p] == xs[j];
    assert FirstIndex(xs, xs[j]) <= j;
    assert p < q;
  }

  /** `get_spend_statistics`: all three are NULL exactly when there is no amount. */
  function SpendStatistics(rows: Table): (st: Stats)
    ensures st.mean.None? <==> Amounts(rows) == []
    ensures st.median.None? <==> Amounts(rows) == []
    ensures st.mode.None? <==> Amounts(rows) == []
    ensures st.mean.Some? ==> st.mean.value == Mean(Amounts(rows))
    ensures st.median.Some? ==> st.median.value == Median(Amounts(rows))
    ensures st.mode.Some? ==> st.mode.value == Mode(Amounts(rows))
  {
    var xs := Amounts(rows);
    if |xs| == 0 then Stats(None, None, None)
    else Stats(Some(Mean(xs)), Some(Median(xs)), Some(Mode(xs)))
  }

  lemma {:induction false} SumBetween(xs: seq<real>, lo: real, hi: real)
    requires forall i :: 0 <= i < |xs| ==> lo <= xs[i] <= hi
    ensures lo * (|xs| as real) <= SumOf(xs, Value) <= hi * (|xs| as real)
  {
    if |xs| > 0 {
      SumBetween(xs[1..], lo, hi);
      assert lo * (|xs| as real) == lo + lo * (|xs[1..]| as real);
      assert hi * (|xs| as real) == hi + hi * (|xs[1..]| as real);
    }
  }

  /** The mean lies between any lower and upper bound of the amounts. */
  lemma MeanWithinBounds(xs: seq<real>, lo: real, hi: real)
    requires |xs| > 0
    requires forall i :: 0 <= i < |xs| ==> lo <= xs[i] <= hi
    ensures lo <= Mean(xs) <= hi
  {
    SumBetween(xs, lo, hi);
    var n := |xs| as real;
    var sum := SumOf(xs, Value);
    assert Mean(xs) == sum / n;
    assert lo * n / n == lo && hi * n / n == hi;
  }

  /** The median lies between any lower and upper bound of the amounts. */
  lemma MedianWithinBounds(xs: seq<real>, lo: real, hi: real)
    requires |xs| > 0
    requires forall i :: 0 <= i < |xs| ==> lo <= xs[i] <= hi
    ensures lo <= Median(xs) <= hi
  {
    var s := SortBy(xs, RealLe);
    forall i | 0 <= i < |s| ensures lo <= s[i] <= hi {
      assert s[i] in multiset(xs);
    }
  }

  /**
   * Sorted amounts are unique: any sorted rearrangement is the one `sorted`
   * returns, so the median does not depend on how they were sorted.
   */
  lemma {:induction false} SortedAmountsUnique(xs: seq<real>, s: seq<real>)
    requires SortedBy(s, RealLe) && multiset(s) == multiset(xs)
    ensures SortBy(xs, RealLe) == s
  {
    SortedUnique(SortBy(xs, RealLe), s);
  }

  lemma SortedHeadIsLeast(s: seq<real>, x: real)
    requires SortedBy(s, RealLe) && x in multiset(s)
    ensures |s| > 0 && s[0] <= x
  {
    var i :| 0 <= i < |s| && s[i] == x;
    if i > 0 {
      assert RealLe(s[0], s[i]);
    }
  }

  lemma SortedTail(s: seq<real>)
    requires SortedBy(s, RealLe) && |s| > 0
    ensures SortedBy(s[1..], RealLe)
    ensures multiset(s[1..]) == multiset(s) - multiset{s[0]}
  {
    forall i, j | 0 <= i < j < |s| - 1 ensures RealLe(s[1..][i], s[1..][j]) {
      assert RealLe(s[i + 1], s[j + 1]);
    }
    assert s == [s[0]] + s[1..];
  }

  /** Two sorted rearrangements of one multiset start alike and continue as such. */
  lemma SortedHeads(s: seq<real>, t: seq<real>)
    requires SortedBy(s, RealLe) && SortedBy(t, RealLe) && multiset(s) == multiset(t) && |s| > 0
    ensures |t| > 0 && s[0] == t[0]
    ensures SortedBy(s[1..], RealLe) && SortedBy(t[1..], RealLe) && multiset(s[1..]) == multiset(t[1..])
  {
    assert s[0] in multiset(s);
    SortedHeadIsLeast(t, s[0]);
    assert t[0] in multiset(t);
    SortedHeadIsLeast(s, t[0]);
    SortedTail(s);
    SortedTail(t);
  }

  lemma {:induction false} SortedUnique(s: seq<real>, t: seq<real>)
    requires SortedBy(s, RealLe) && SortedBy(t, RealLe) && multiset(s) == multiset(t)
    ensures s == t
    decreases |s|
  {
    if |s| > 0 {
      SortedHeads(s, t);
      SortedUnique(s[1..], t[1..]);
      assert s == [s[0]] + s[1..] && t == [t[0]] + t[1..];
    } else {
      assert |t| == |multiset(t)|;
    }
  }

  // ---------------------------------------------------------------------------
  // get_vendor_frequency

  /** A vendor and how many receipts name it. */
  type Tally = (string, nat)

  function VendorOf(r: Receipt): Option<string> {
    r.vendor
  }

  /** The non-NULL vendors in table order. */
  function Vendors(rows: Table): (vs: seq<string>)
    ensures forall v :: v in vs <==> exists k :: 0 <= k < |rows| && rows[k].vendor == Some(v)
  {
    Project(rows, VendorOf)
  }

  function TalliesFor(ks: seq<string>, vs: seq<string>): (ts: seq<Tally>)
    ensures |ts| == |ks|
    ensures forall i :: 0 <= i < |ks| ==> ts[i] == (ks[i], CountOf(vs, ks[i]))
  {
    if |ks| == 0 then [] else [(ks[0], CountOf(vs, ks[0]))] + TalliesFor(ks[1..], vs)
  }

  predicate CountAtLeast(a: Tally, b: Tally) {
    a.1 >= b.1
  }

  lemma CountAtLeastIsPreorder()
    ensures TotalPreorder(CountAtLeast)
  {
  }

  /** Tallies reordered by count still carry each vendor's own count. */
  lemma ReorderedTallies(vs: seq<string>, ks: seq<string>, ts: seq<Tally>, r: seq<Tally>)
    requires NoDup(ks) && forall k :: k in ks <==> k in vs
    requires ts == TalliesFor(ks, vs)
    requires multiset(r) == multiset(ts)
    ensures NoDup(KeysOf(r))
    ensures forall v :: v in KeysOf(r) <==> v in vs
    ensures forall i :: 0 <= i < |r| ==> r[i].1 == CountOf(vs, r[i].0) && r[i].1 >= 1
  {
    assert KeysOf(ts) == ks;
    ReorderedKeys(ts, r);
    forall i | 0 <= i < |r| ensures r[i].1 == CountOf(vs, r[i].0) && r[i].1 >= 1 {
      TallyOfListed(vs, ks, r[i]);
    }
  }

  lemma TallyOfListed(vs: seq<string>, ks: seq<string>, x: Tally)
    requires forall k :: k in ks ==> k in vs
    requires x in TalliesFor(ks, vs)
    ensures x.1 == CountOf(vs, x.0) && x.1 >= 1
  {
    var ts := TalliesFor(ks, vs);
    var p :| 0 <= p < |ts| && ts[p] == x;
    assert ks[p] in vs;
  }

  /**
   * `get_vendor_frequency`: one entry per vendor with its receipt count,
   * most frequent first.
   */
  function VendorFrequency(rows: Table): (r: seq<Tally>)
    ensures NoDup(KeysOf(r))
    ensures forall v :: v in KeysOf(r) <==> v in Vendors(rows)
    ensures forall i :: 0 <= i < |r| ==> r[i].1 == CountOf(Vendors(rows), r[i].0) && r[i].1 >= 1
    ensures forall i, j :: 0 <= i < j < |r| ==> r[i].1 >= r[j].1
  {
    var vs := Vendors(rows);
    var ks := Distinct(vs);
    var ts := TalliesFor(ks, vs);
    CountAtLeastIsPreorder();
    var r := SortBy(ts, CountAtLeast);
    ReorderedTallies(vs, ks, ts, r);
    r
  }

  function TallyCount(t: Tally): real {
    t.1 as real
  }

  /** A vendor's receipts weighed one each. */
  function Ones(vs: seq<string>): (ps: seq<Keyed>)
    ensures |ps| == |vs|
    ensures forall i :: 0 <= i < |vs| ==> ps[i] == (vs[i], 1.0)
  {
    seq(|vs|, i requires 0 <= i < |vs| => (vs[i], 1.0))
  }

  lemma {:induction false} CountIsTotalOfOnes(vs: seq<string>, k: string)
    ensures CountOf(vs, k) as real == KeyTotal(Ones(vs), k)
  {
    if |vs| > 0 {
      CountIsTotalOfOnes(vs[1..], k);
      assert Ones(vs)[1..] == Ones(vs[1..]);
    }
  }

  lemma {:induction false} TalliesAreTotals(ks: seq<string>, vs: seq<string>)
    ensures SumOf(TalliesFor(ks, vs), TallyCount) == SumOf(TotalsFor(ks, Ones(vs)), Weight)
  {
    if |ks| > 0 {
      TalliesAreTotals(ks[1..], vs);
      CountIsTotalOfOnes(vs, ks[0]);
    }
  }

  lemma {:induction false} OnesSum(vs: seq<string>)
    ensures SumOf(Ones(vs), Weight) == |vs| as real
  {
    if |vs| > 0 {
      OnesSum(vs[1..]);
      assert Ones(vs)[1..] == Ones(vs[1..]);
    }
  }

  /** The vendor counts add up to the number of receipts that name a vendor. */
  lemma VendorCountsAddUp(rows: Table)
    ensures SumOf(VendorFrequency(rows), TallyCount) == |Vendors(rows)| as real
  {
    var vs := Vendors(rows);
    var ks := Distinct(vs);
    var ts := TalliesFor(ks, vs);
    CountAtLeastIsPreorder();
    SumOfPermutation(ts, VendorFrequency(rows), TallyCount);
    TalliesAreTotals(ks, vs);
    assert forall i :: 0 <= i < |Ones(vs)| ==> Ones(vs)[i].0 in ks;
    TotalsForPartition(ks, Ones(vs));
    OnesSum(vs);
  }

  // ---------------------------------------------------------------------------
  // get_monthly_spend_trend

  /** `strftime('%Y-%m', date)`: the zero-padded year and month. */
  function MonthKey(d: Date): string {
    PadDigits(Max0(d.year), 4) + "-" + PadDigits(Max0(d.month), 2)
  }

  /** A month key is the padded year, a dash and the padded month. */
  lemma MonthKeyParts(d: Date)
    requires ValidDate(d)
    ensures MonthKey(d) == PadDigits(d.year, 4) + ("-" + PadDigits(d.month, 2))
    ensures MonthKey(d)[..4] == PadDigits(d.year, 4) && MonthKey(d)[5..] == PadDigits(d.month, 2)
  {
    var y, m := PadDigits(d.year, 4), PadDigits(d.month, 2);
    assert MonthKey(d) == y + ("-" + m);
    assert (y + ("-" + m))[..4] == y;
    assert (y + ("-" + m))[5..] == m;
  }

  /** For real dates, `ORDER BY month_year` puts months in calendar order. */
  lemma MonthKeyLe(a: Date, b: Date)
    requires ValidDate(a) && ValidDate(b)
    ensures LexLe(MonthKey(a), MonthKey(b)) <==> a.year < b.year || (a.year == b.year && a.month <= b.month)
  {
    var ya, yb := PadDigits(a.year, 4), PadDigits(b.year, 4);
    var ma, mb := PadDigits(a.month, 2), PadDigits(b.month, 2);
    MonthKeyParts(a);
    MonthKeyParts(b);
    PadDigitsLe(a.year, b.year, 4);
    PadDigitsLe(a.month, b.month, 2);
    LexLeConcat(ya, "-" + ma, yb, "-" + mb);
    LexLeConcat("-", ma, "-", mb);
  }

  /** For real dates, `GROUP BY month_year` puts two dates together exactly when they share a month. */
  lemma MonthKeyEq(a: Date, b: Date)
    requires ValidDate(a) && ValidDate(b)
    ensures MonthKey(a) == MonthKey(b) <==> a.year == b.year && a.month == b.month
  {
    MonthKeyParts(a);
    MonthKeyParts(b);
    PadDigitsLe(a.year, b.year, 4);
    PadDigitsLe(a.month, b.month, 2);
  }

  function DatedAmount(r: Receipt): Option<Keyed> {
    if r.transactionDate.Some? && r.amount.Some? then Some((MonthKey(r.transactionDate.value), r.amount.value))
    else None
  }

  /** `(month, amount)` for every row with both a date and an amount, in table order. */
  function DatedAmounts(rows: Table): seq<Keyed> {
    Project(rows, DatedAmount)
  }

  predicate KeyLe(a: Keyed, b: Keyed) {
    LexLe(a.0, b.0)
  }

  lemma KeyLeIsPreorder()
    ensures TotalPreorder(KeyLe)
  {
    forall a: Keyed, b: Keyed ensures KeyLe(a, b) || KeyLe(b, a) {
      LexLeTotal(a.0, b.0);
    }
    forall a: Keyed, b: Keyed, c: Keyed | KeyLe(a, b) && KeyLe(b, c) ensures KeyLe(a, c) {
      LexLeTransitive(a.0, b.0, c.0);
    }
  }

  /**
   * `get_monthly_spend_trend`: one `(month_year, total_spend)` per month with
   * dated amounts, months in ascending text order.
   */
  function MonthlyTrend(rows: Table): (r: seq<Keyed>)
    ensures NoDup(KeysOf(r))
    ensures forall k :: k in KeysOf(r) <==> k in KeysOf(DatedAmounts(rows))
    ensures forall i :: 0 <= i < |r| ==> r[i].1 == KeyTotal(DatedAmounts(rows), r[i].0)
    ensures forall i, j :: 0 <= i < j < |r| ==> LexLe(r[i].0, r[j].0) && r[i].0 != r[j].0
  {
    var gs := GroupTotals(DatedAmounts(rows));
    KeyLeIsPreorder();
    var r := SortBy(gs, KeyLe);
    ReorderedTotals(DatedAmounts(rows), gs, r);
    r
  }

  /** The monthly totals add up to the spend on dated receipts. */
  lemma MonthlyTrendAddsUp(rows: Table)
    ensures SumOf(MonthlyTrend(rows), Weight) == SumOf(DatedAmounts(rows), Weight)
  {
    var gs := GroupTotals(DatedAmounts(rows));
    KeyLeIsPreorder();
    SumOfPermutation(gs, MonthlyTrend(rows), Weight);
    GroupTotalsPartition(DatedAmounts(rows));
  }

  // ---------------------------------------------------------------------------
  // get_spend_by_category

  function CategoryAmount(r: Receipt): Option<Keyed> {
    if r.category.Some? && r.amount.Some? then Some((r.category.value, r.amount.value)) else None
  }

  /** `(category, amount)` for every row with both, in table order. */
  function CategoryAmounts(rows: Table): seq<Keyed> {
    Project(rows, CategoryAmount)
  }

  predicate SpendAtLeast(a: Keyed, b: Keyed) {
    a.1 >= b.1
  }

  lemma SpendAtLeastIsPreorder()
    ensures TotalPreorder(SpendAtLeast)
  {
  }

  /** Group totals in any order still carry each key's own total. */
  lemma ReorderedTotals(pairs: seq<Keyed>, gs: seq<Keyed>, r: seq<Keyed>)
    requires gs == GroupTotals(pairs) && multiset(r) == multiset(gs)
    ensures NoDup(KeysOf(r))
    ensures forall k :: k in KeysOf(r) <==> k in KeysOf(pairs)
    ensures forall i :: 0 <= i < |r| ==> r[i].1 == KeyTotal(pairs, r[i].0)
    ensures forall i, j :: 0 <= i < j < |r| ==> r[i].0 != r[j].0
  {
    ReorderedKeys(gs, r);
    forall i | 0 <= i < |r| ensures r[i].1 == KeyTotal(pairs, r[i].0) {
      var p :| 0 <= p < |gs| && gs[p] == r[i];
    }
    forall i, j | 0 <= i < j < |r| ensures r[i].0 != r[j].0 {
      assert KeysOf(r)[i] == r[i].0 && KeysOf(r)[j] == r[j].0;
    }
  }

  /**
   * `get_spend_by_category`: one `(category, total_spend)` per category with
   * amounts, largest total first.
   */
  function SpendByCategory(rows: Table): (r: seq<Keyed>)
    ensures NoDup(KeysOf(r))
    ensures forall k :: k in KeysOf(r) <==> k in KeysOf(CategoryAmounts(rows))
    ensures forall i :: 0 <= i < |r| ==> r[i].1 == KeyTotal(CategoryAmounts(rows), r[i].0)
    ensures forall i, j :: 0 <= i < j < |r| ==> r[i].1 >= r[j].1
  {
    var gs := GroupTotals(CategoryAmounts(rows));
    SpendAtLeastIsPreorder();
    var r := SortBy(gs, SpendAtLeast);
    ReorderedTotals(CategoryAmounts(rows), gs, r);
    r
  }

  /** The category totals add up to the spend on categorised receipts. */
  lemma CategorySpendAddsUp(rows: Table)
    ensures SumOf(SpendByCategory(rows), Weight) == SumOf(CategoryAmounts(rows), Weight)
  {
    var gs := GroupTotals(CategoryAmounts(rows));
    SpendAtLeastIsPreorder();
    SumOfPermutation(gs, SpendByCategory(rows), Weight);
    GroupTotalsPartition(CategoryAmounts(rows));
  }
}

=== FILE: common.dfy ===
/** Optional values and failure-carrying results used across the model. */
module Common {

  /** A value that may be absent: Python's `None` or a SQL NULL. */
  datatype Option<+T> = None | Some(value: T)

  /** Either a value or the error that an operation raised instead. */
  datatype Result<+R, +E> = Success(value: R) | Failure(error: E)

  /**
   * The least position in `[lo, hi)` where `p` holds: how `re.search` and a
   * `for ... break` loop pick the leftmost hit.
   */
  function FirstWhere(p: nat -> bool, lo: nat, hi: nat): (r: Option<nat>)
    requires lo <= hi
    ensures r.Some? ==> lo <= r.value < hi && p(r.value)
    ensures r.Some? ==> forall j :: lo <= j < r.value ==> !p(j)
    ensures r.None? ==> forall j :: lo <= j < hi ==> !p(j)
    decreases hi - lo
  {
    if lo == hi then None
    else if p(lo) then Some(lo)
    else FirstWhere(p, lo + 1, hi)
  }
}

=== FILE: dates.dfy ===
/**
 * Calendar dates and the two date parsers of the record store:
 * `NormalizeDate`, the token normalisation `create_receipt` performs with
 * `datetime.strptime`, and `FromIsoFormat`, the `date.fromisoformat` call
 * `update_receipt` makes on string dates.
 */
module Dates {
  import opened Common
  import opened Text

  datatype Date = Date(year: int, month: int, day: int)

  predicate IsLeapYear(y: int) {
    y % 4 == 0 && (y % 100 != 0 || y % 400 == 0)
  }

  function DaysInMonth(y: int, m: int): int
    requires 1 <= m <= 12
  {
    if m == 2 then (if IsLeapYear(y) then 29 else 28)
    else if m == 4 || m == 6 || m == 9 || m == 11 then 30
    else 31
  }

  /** The dates `datetime.date(year, month, day)` accepts (years 1 to 9999). */
  predicate ValidDate(d: Date) {
    && 1 <= d.year <= 9999
    && 1 <= d.month <= 12
    && 1 <= d.day <= DaysInMonth(d.year, d.month)
  }

  /** Chronological order; for valid dates also the order of their stored `YYYY-MM-DD` text. */
  predicate DateLe(a: Date, b: Date) {
    || a.year < b.year
    || (a.year == b.year && (a.month < b.month || (a.month == b.month && a.day <= b.day)))
  }

  lemma DateLeTotalOrder(a: Date, b: Date, c: Date)
    ensures DateLe(a, a)
    ensures DateLe(a, b) || DateLe(b, a)
    ensures DateLe(a, b) && DateLe(b, a) ==> a == b
    ensures DateLe(a, b) && DateLe(b, c) ==> DateLe(a, c)
  {
  }

  /** `YYYY-MM-DD`, the form SQLite stores and `date.isoformat()` prints. */
  function FormatIso(d: Date): string
    requires ValidDate(d)
  {
    PadDigits(d.year, 4) + "-" + PadDigits(d.month, 2) + "-" + PadDigits(d.day, 2)
  }

  /** `MM/DD/YYYY`, the second form `create_receipt` accepts. */
  function FormatUs(d: Date): string
    requires ValidDate(d)
  {
    PadDigits(d.month, 2) + "/" + PadDigits(d.day, 2) + "/" + PadDigits(d.year, 4)
  }

  // ---------------------------------------------------------------------------
  // strptime directives, each matched against a whole field

  /** The texts `%Y` reads as the year `v`: exactly four digits. */
  predicate YearText(f: string, v: int) {
    0 <= v < 10000 && f == PadDigits(v, 4)
  }

  /**
   * The texts `%m` (`1[0-2]|0[1-9]|[1-9]`) reads as the month `v`: the month
   * zero-padded to two digits or, below ten, its single digit.
   */
  predicate MonthText(f: string, v: int) {
    1 <= v <= 12 && (f == PadDigits(v, 2) || (v <= 9 && f == PadDigits(v, 1)))
  }

  /**
   * The texts `%d` (`3[01]|[12]\d|0[1-9]|[1-9]| [1-9]`) reads as the day `v`:
   * the day zero-padded to two digits or, below ten, its single digit with or
   * without one space before it.
   */
  predicate DayText(f: string, v: int) {
    1 <= v <= 31 && (f == PadDigits(v, 2) || (v <= 9 && (f == PadDigits(v, 1) || f == " " + PadDigits(v, 1))))
  }

  /** `%Y`: exactly four digits. */
  function YearField(f: string): (r: Option<int>)
    ensures r.Some? ==> YearText(f, r.value)
  {
    if |f| == 4 && AllDigits(f) then
      PadDigitsValue(f);
      Some(DigitsValue(f))
    else None
  }

  /** `%m`: two digits worth 1 to 12, or one digit worth 1 to 9. */
  function MonthField(f: string): (r: Option<int>)
    ensures r.Some? ==> MonthText(f, r.value)
  {
    if |f| == 2 && AllDigits(f) && 1 <= DigitsValue(f) <= 12 then
      PadDigitsValue(f);
      Some(DigitsValue(f))
    else if |f| == 1 && '1' <= f[0] <= '9' then
      OneDigit(f);
      Some(DigitValue(f[0]))
    else None
  }

  /** `%d`: two digits worth 1 to 31, or one digit worth 1 to 9, with or without one space before it. */
  function DayField(f: string): (r: Option<int>)
    ensures r.Some? ==> DayText(f, r.value)
  {
    if |f| == 2 && AllDigits(f) && 1 <= DigitsValue(f) <= 31 then
      PadDigitsValue(f);
      Some(DigitsValue(f))
    else if |f| == 2 && f[0] == ' ' && '1' <= f[1] <= '9' then
      OneDigit(f[1..]);
      assert f == " " + f[1..];
      Some(DigitValue(f[1]))
    else if |f| == 1 && '1' <= f[0] <= '9' then
      OneDigit(f);
      Some(DigitValue(f[0]))
    else None
  }

  /** A single non-zero digit is the one-digit printing of its value. */
  lemma OneDigit(f: string)
    requires |f| == 1 && '1' <= f[0] <= '9'
    ensures 1 <= DigitValue(f[0]) <= 9 && f == PadDigits(DigitValue(f[0]), 1)
  {
    PadDigitsValue(f);
  }

  /** A one- or two-digit printing of a value in range reads back as that value. */
  lemma PaddedIsDigits(v: int, f: string)
    requires 1 <= v <= 31
    ensures f == PadDigits(v, 2) ==> |f| == 2 && AllDigits(f) && DigitsValue(f) == v
    ensures v <= 9 && f == PadDigits(v, 1) ==> |f| == 1 && '1' <= f[0] <= '9' && DigitValue(f[0]) == v
  {
    assert Pow10(2) == 100;
    if v <= 9 && f == PadDigits(v, 1) {
      assert f == [DigitChar(v)];
    }
  }

  /** `%Y` reads a field exactly when it is the four-digit printing of the year. */
  lemma YearFieldExact(f: string, v: int)
    ensures YearField(f) == Some(v) <==> YearText(f, v)
  {
    if YearText(f, v) {
      assert Pow10(4) == 10000;
    }
  }

  /** `%m` reads a field exactly when it is one of the printings of the month. */
  lemma MonthFieldExact(f: string, v: int)
    ensures MonthField(f) == Some(v) <==> MonthText(f, v)
  {
    if MonthText(f, v) {
      PaddedIsDigits(v, f);
    }
  }

  /** `%d` reads a field exactly when it is one of the printings of the day. */
  lemma DayFieldExact(f: string, v: int)
    ensures DayField(f) == Some(v) <==> DayText(f, v)
  {
    if DayText(f, v) {
      PaddedIsDigits(v, f);
      if f == " " + PadDigits(v, 1) {
        assert f[1..] == PadDigits(v, 1);
        PaddedIsDigits(v, f[1..]);
        assert !IsDigit(f[0]);
      }
    }
  }

  /** A calendar check on parsed fields, as the `date` constructor performs it. */
  function MakeDate(y: Option<int>, m: Option<int>, d: Option<int>): (r: Option<Date>)
    ensures r.Some? ==> ValidDate(r.value)
    ensures r.Some? <==> y.Some? && m.Some? && d.Some? && ValidDate(Date(y.value, m.value, d.value))
  {
    if y.Some? && m.Some? && d.Some? && 1 <= m.value <= 12 && ValidDate(Date(y.value, m.value, d.value)) then
      Some(Date(y.value, m.value, d.value))
    else None
  }

  /** `t` is `d` written with the directives `%Y-%m-%d`. */
  ghost predicate PrintsYmd(t: string, d: Date) {
    exists y, m, dd :: t == y + "-" + m + "-" + dd && YearText(y, d.year) && MonthText(m, d.month) && DayText(dd, d.day)
  }

  /** `t` is `d` written with the directives `%m/%d/%Y`. */
  ghost predicate PrintsMdy(t: string, d: Date) {
    exists m, dd, y :: t == m + "/" + dd + "/" + y && YearText(y, d.year) && MonthText(m, d.month) && DayText(dd, d.day)
  }

  /**
   * `datetime.strptime(t, '%Y-%m-%d').date()`. Because no directive matches a
   * `-`, the match succeeds exactly when `t` splits on `-` into three fields
   * each wholly matched by its directive, and the date is a real one.
   */
  function StrptimeYmd(t: string): (r: Option<Date>)
    ensures r.Some? ==> ValidDate(r.value) && PrintsYmd(t, r.value)
  {
    var ps := SplitOn(t, '-');
    if |ps| == 3 then
      var r := MakeDate(YearField(ps[0]), MonthField(ps[1]), DayField(ps[2]));
      if r.Some? then
        JoinThree(ps, '-');
        assert t == ps[0] + "-" + ps[1] + "-" + ps[2];
        r
      else r
    else None
  }

  /** `datetime.strptime(t, '%m/%d/%Y').date()`. */
  function StrptimeMdy(t: string): (r: Option<Date>)
    ensures r.Some? ==> ValidDate(r.value) && PrintsMdy(t, r.value)
  {
    var ps := SplitOn(t, '/');
    if |ps| == 3 then
      var r := MakeDate(YearField(ps[2]), MonthField(ps[0]), DayField(ps[1]));
      if r.Some? then
        JoinThree(ps, '/');
        assert t == ps[0] + "/" + ps[1] + "/" + ps[2];
        r
      else r
    else None
  }

  lemma JoinThree(ps: seq<string>, sep: char)
    requires |ps| == 3
    ensures Join(ps, sep) == ps[0] + [sep] + ps[1] + [sep] + ps[2]
  {
    assert ps[1..][1..] == ps[2..] && ps[2..] == [ps[2]];
    assert Join(ps[1..], sep) == ps[1] + [sep] + ps[2];
  }

  /**
   * The date normalisation of `create_receipt`: no token or an empty token
   * gives no date; a token containing `-` is read only as year-month-day,
   * otherwise one containing `/` only as month/day/year; any failure, and a
   * token with neither separator, gives no date. It never raises.
   */
  function NormalizeDate(token: Option<string>): (r: Option<Date>)
    ensures r.Some? ==> ValidDate(r.value)
    ensures r.Some? ==> token.Some? && ('-' in token.value || '/' in token.value)
    ensures token.Some? && '-' in token.value ==> r == StrptimeYmd(token.value)
    ensures token.Some? && '-' !in token.value && '/' in token.value ==> r == StrptimeMdy(token.value)
  {
    match token
    case None => None
    case Some(t) =>
      if |t| == 0 then None
      else if '-' in t then StrptimeYmd(t)
      else if '/' in t then StrptimeMdy(t)
      else None
  }

  /** The fields of a printed date hold neither separator. */
  lemma FieldTextsHaveNoSeparator(y: string, m: string, dd: string, d: Date)
    requires YearText(y, d.year) && MonthText(m, d.month) && DayText(dd, d.day)
    ensures '-' !in y && '/' !in y && '-' !in m && '/' !in m && '-' !in dd && '/' !in dd
  {
    DigitsHaveNoSeparator(y);
    DigitsHaveNoSeparator(m);
    if dd == " " + PadDigits(d.day, 1) {
      assert dd[1..] == PadDigits(d.day, 1);
      DigitsHaveNoSeparator(dd[1..]);
      assert dd == [' '] + dd[1..];
    } else {
      DigitsHaveNoSeparator(dd);
    }
  }

  /** Every `%Y-%m-%d` printing of a real date is read as that date. */
  lemma StrptimeYmdAccepts(d: Date, y: string, m: string, dd: string)
    requires ValidDate(d) && YearText(y, d.year) && MonthText(m, d.month) && DayText(dd, d.day)
    ensures StrptimeYmd(y + "-" + m + "-" + dd) == Some(d)
  {
    FieldTextsHaveNoSeparator(y, m, dd, d);
    SplitThree(y, m, dd, '-');
    YearFieldExact(y, d.year);
    MonthFieldExact(m, d.month);
    DayFieldExact(dd, d.day);
  }

  /** Every `%m/%d/%Y` printing of a real date is read as that date. */
  lemma StrptimeMdyAccepts(d: Date, y: string, m: string, dd: string)
    requires ValidDate(d) && YearText(y, d.year) && MonthText(m, d.month) && DayText(dd, d.day)
    ensures StrptimeMdy(m + "/" + dd + "/" + y) == Some(d)
  {
    FieldTextsHaveNoSeparator(y, m, dd, d);
    SplitThree(m, dd, y, '/');
    YearFieldExact(y, d.year);
    MonthFieldExact(m, d.month);
    DayFieldExact(dd, d.day);
  }

  /** A `%Y-%m-%d` printing of a real date normalises to it. */
  lemma NormalizeAcceptsYmd(d: Date, y: string, m: string, dd: string)
    requires ValidDate(d) && YearText(y, d.year) && MonthText(m, d.month) && DayText(dd, d.day)
    ensures NormalizeDate(Some(y + "-" + m + "-" + dd)) == Some(d)
  {
    var t := y + "-" + m + "-" + dd;
    assert t[|y|] == '-';
    StrptimeYmdAccepts(d, y, m, dd);
  }

  /** A `%m/%d/%Y` printing of a real date normalises to it. */
  lemma NormalizeAcceptsMdy(d: Date, y: string, m: string, dd: string)
    requires ValidDate(d) && YearText(y, d.year) && MonthText(m, d.month) && DayText(dd, d.day)
    ensures NormalizeDate(Some(m + "/" + dd + "/" + y)) == Some(d)
  {
    var t := m + "/" + dd + "/" + y;
    FieldTextsHaveNoSeparator(y, m, dd, d);
    assert t[|m|] == '/';
    NoDashBetweenSlashes(m, dd, y);
    StrptimeMdyAccepts(d, y, m, dd);
  }

  lemma NoDashBetweenSlashes(m: string, dd: string, y: string)
    requires '-' !in m && '-' !in dd && '-' !in y
    ensures '-' !in m + "/" + dd + "/" + y
  {
    assert m + "/" + dd + "/" + y == m + ("/" + (dd + ("/" + y)));
    NotInConcat(m, "/" + (dd + ("/" + y)), '-');
    NotInConcat("/", dd + ("/" + y), '-');
    NotInConcat(dd, "/" + y, '-');
    NotInConcat("/", y, '-');
  }

  lemma NotInConcat(a: string, b: string, c: char)
    ensures c in a + b <==> c in a || c in b
  {
    assert forall k :: 0 <= k < |a| ==> (a + b)[k] == a[k];
    assert forall k :: 0 <= k < |b| ==> (a + b)[|a| + k] == b[k];
  }

  /** Whatever normalises to a date is one of its two printings. */
  lemma NormalizeSound(t: string, d: Date)
    requires NormalizeDate(Some(t)) == Some(d)
    ensures ValidDate(d) && (PrintsYmd(t, d) || PrintsMdy(t, d))
  {
  }

  /**
   * A token normalises to `d` exactly when `d` is a real date and the token
   * prints it as `%Y-%m-%d` or as `%m/%d/%Y`: out-of-range fields, other
   * field widths, swapped or mixed separators all give no date.
   */
  lemma NormalizeDateExact(t: string, d: Date)
    ensures NormalizeDate(Some(t)) == Some(d) <==> ValidDate(d) && (PrintsYmd(t, d) || PrintsMdy(t, d))
  {
    if NormalizeDate(Some(t)) == Some(d) {
      NormalizeSound(t, d);
    } else if ValidDate(d) && PrintsYmd(t, d) {
      var y, m, dd :| t == y + "-" + m + "-" + dd && YearText(y, d.year) && MonthText(m, d.month) && DayText(dd, d.day);
      NormalizeAcceptsYmd(d, y, m, dd);
    } else if ValidDate(d) && PrintsMdy(t, d) {
      var m, dd, y :| t == m + "/" + dd + "/" + y && YearText(y, d.year) && MonthText(m, d.month) && DayText(dd, d.day);
      NormalizeAcceptsMdy(d, y, m, dd);
    }
  }

  /**
   * `date.fromisoformat(t)` as the 3.7 to 3.10 interpreters implement it: exactly
   * `YYYY-MM-DD` with ASCII digits, naming a real date.
   */
  function FromIsoFormat(t: string): (r: Option<Date>)
    ensures r.Some? ==> ValidDate(r.value) && t == FormatIso(r.value)
  {
    if |t| == 10 && t[4] == '-' && t[7] == '-'
       && AllDigits(t[..4]) && AllDigits(t[5..7]) && AllDigits(t[8..])
       && ValidDate(Date(DigitsValue(t[..4]), DigitsValue(t[5..7]), DigitsValue(t[8..])))
    then
      IsoTextIsFormat(t);
      Some(Date(DigitsValue(t[..4]), DigitsValue(t[5..7]), DigitsValue(t[8..])))
    else None
  }

  lemma IsoTextIsFormat(t: string)
    requires |t| == 10 && t[4] == '-' && t[7] == '-'
    requires AllDigits(t[..4]) && AllDigits(t[5..7]) && AllDigits(t[8..])
    requires ValidDate(Date(DigitsValue(t[..4]), DigitsValue(t[5..7]), DigitsValue(t[8..])))
    ensures t == FormatIso(Date(DigitsValue(t[..4]), DigitsValue(t[5..7]), DigitsValue(t[8..])))
  {
    var y, m, d := t[..4], t[5..7], t[8..];
    PadDigitsValue(y);
    PadDigitsValue(m);
    PadDigitsValue(d);
    IsoSlices(t);
    FormatIsoOfPrints(Date(DigitsValue(y), DigitsValue(m), DigitsValue(d)), y, m, d);
  }

  lemma FormatIsoOfPrints(d: Date, y: string, m: string, dd: string)
    requires ValidDate(d)
    requires PadDigits(d.year, 4) == y && PadDigits(d.month, 2) == m && PadDigits(d.day, 2) == dd
    ensures FormatIso(d) == y + "-" + m + "-" + dd
  {
  }

  lemma IsoSlices(t: string)
    requires |t| == 10 && t[4] == '-' && t[7] == '-'
    ensures t == t[..4] + "-" + t[5..7] + "-" + t[8..]
  {
  }

  // ---------------------------------------------------------------------------
  // Round trips

  /** Reading a digit string and printing it back at the same width is the identity. */
  lemma {:induction false} PadDigitsValue(s: string)
    requires AllDigits(s)
    ensures PadDigits(DigitsValue(s), |s|) == s
    decreases |s|
  {
    if |s| > 0 {
      var init := s[..|s| - 1];
      var v := DigitsValue(s);
      assert AllDigits(init);
      PadDigitsValue(init);
      assert v / 10 == DigitsValue(init);
      assert v % 10 == DigitValue(s[|s| - 1]);
      assert DigitChar(v % 10) == s[|s| - 1];
      assert s == init + [s[|s| - 1]];
    }
  }

  /** Every valid date printed as `YYYY-MM-DD` parses back to itself. */
  lemma FromIsoFormatRoundTrip(d: Date)
    requires ValidDate(d)
    ensures FromIsoFormat(FormatIso(d)) == Some(d)
  {
    var t := FormatIso(d);
    var y, m, dd := PadDigits(d.year, 4), PadDigits(d.month, 2), PadDigits(d.day, 2);
    assert t[..4] == y;
    assert t[5..7] == m;
    assert t[8..] == dd;
  }

  lemma SplitThree(a: string, b: string, c: string, sep: char)
    requires sep !in a && sep !in b && sep !in c
    ensures SplitOn(a + [sep] + b + [sep] + c, sep) == [a, b, c]
  {
    assert a + [sep] + b + [sep] + c == a + [sep] + (b + [sep] + c);
    SplitOnCons(a, sep, b + [sep] + c);
    SplitOnCons(b, sep, c);
    SplitOnNone(c, sep);
  }

  /** A valid date printed as `YYYY-MM-DD` normalises back to itself. */
  lemma NormalizeIsoRoundTrip(d: Date)
    requires ValidDate(d)
    ensures NormalizeDate(Some(FormatIso(d))) == Some(d)
  {
    assert Pow10(4) == 10000;
    NormalizeAcceptsYmd(d, PadDigits(d.year, 4), PadDigits(d.month, 2), PadDigits(d.day, 2));
  }

  /** A valid date printed as `MM/DD/YYYY` normalises back to itself. */
  lemma NormalizeUsRoundTrip(d: Date)
    requires ValidDate(d)
    ensures NormalizeDate(Some(FormatUs(d))) == Some(d)
  {
    assert Pow10(4) == 10000;
    NormalizeAcceptsMdy(d, PadDigits(d.year, 4), PadDigits(d.month, 2), PadDigits(d.day, 2));
  }

  // ---------------------------------------------------------------------------
  // Stored text order

  lemma IsoParts(d: Date)
    requires ValidDate(d)
    ensures FormatIso(d) == PadDigits(d.year, 4) + ("-" + (PadDigits(d.month, 2) + ("-" + PadDigits(d.day, 2))))
  {
  }

  lemma DashLe(x: string, y: string)
    ensures LexLe("-" + x, "-" + y) <==> LexLe(x, y)
  {
    LexLeConcat("-", x, "-", y);
  }

  /** Below the year, month-then-day text order is the order of month and day. */
  lemma MonthDayTextOrder(a: Date, b: Date)
    requires ValidDate(a) && ValidDate(b)
    ensures var ra := PadDigits(a.month, 2) + ("-" + PadDigits(a.day, 2));
            var rb := PadDigits(b.month, 2) + ("-" + PadDigits(b.day, 2));
            && (LexLe(ra, rb) <==> a.month < b.month || (a.month == b.month && a.day <= b.day))
            && (ra == rb <==> a.month == b.month && a.day == b.day)
  {
    var ma, mb, da, db := PadDigits(a.month, 2), PadDigits(b.month, 2), PadDigits(a.day, 2), PadDigits(b.day, 2);
    assert Pow10(2) == 100;
    PadDigitsLe(a.month, b.month, 2);
    PadDigitsLe(a.day, b.day, 2);
    LexLeConcat(ma, "-" + da, mb, "-" + db);
    DashLe(da, db);
    DashJoinInjective(ma, da, mb, db);
  }

  lemma DashJoinInjective(a: string, x: string, b: string, y: string)
    requires |a| == |b|
    ensures a + ("-" + x) == b + ("-" + y) ==> a == b && x == y
  {
    if a + ("-" + x) == b + ("-" + y) {
      assert (a + ("-" + x))[..|a|] == a && (b + ("-" + y))[..|b|] == b;
      assert (a + ("-" + x))[|a| + 1..] == x && (b + ("-" + y))[|b| + 1..] == y;
    }
  }

  /**
   * For real dates, chronological order is the text order of their stored
   * `YYYY-MM-DD` form, which is what SQLite compares in a date-range filter.
   */
  lemma DateLeIsIsoTextOrder(a: Date, b: Date)
    requires ValidDate(a) && ValidDate(b)
    ensures DateLe(a, b) <==> LexLe(FormatIso(a), FormatIso(b))
  {
    var ya, yb := PadDigits(a.year, 4), PadDigits(b.year, 4);
    var ra := PadDigits(a.month, 2) + ("-" + PadDigits(a.day, 2));
    var rb := PadDigits(b.month, 2) + ("-" + PadDigits(b.day, 2));
    IsoParts(a);
    IsoParts(b);
    assert Pow10(4) == 10000;
    PadDigitsLe(a.year, b.year, 4);
    LexLeConcat(ya, "-" + ra, yb, "-" + rb);
    DashLe(ra, rb);
    MonthDayTextOrder(a, b);
  }

  lemma DigitsHaveNoSeparator(s: string)
    requires AllDigits(s)
    ensures '-' !in s && '/' !in s
  {
    assert forall k :: 0 <= k < |s| ==> s[k] != '-' && s[k] != '/';
  }
}

=== FILE: extract.dfy ===
/**
 * The receipt text extractor `parse_receipt_text`: five optional fields read
 * from raw OCR text by a fixed sequence of leftmost regular-expression
 * searches with ordered fallbacks. Each regular expression is written out as
 * a matcher at one position together with a declarative description of the
 * ways the pattern can match there; `re.search` is the leftmost position
 * with a match (`FirstWhere`).
 */
module Extract {
  import opened Common
  import opened Text

  /** The dictionary `parse_receipt_text` returns; `date` is the raw token. */
  datatype Parsed = Parsed(
    vendor: Option<string>,
    date: Option<string>,
    amount: Option<real>,
    category: Option<string>,
    currency: Option<string>)

  /**
   * The one way the extractor raises: the "total" fallback iterates `lines`,
   * which is bound only when the labelled-vendor search failed, so a text
   * with a vendor label and no currency-prefixed amount ends in
   * `UnboundLocalError`.
   */
  datatype ParseError = UnboundLines

  /** A half-open range `[start, end)` of positions in the text. */
  datatype Span = Span(start: nat, end: nat)

  predicate IsCurrencySymbol(c: char) {
    c == '\U{20B9}' || c == '$' || c == '\U{20AC}' || c == '\U{A3}'
  }

  predicate SpacesIn(t: string, a: nat, b: nat) {
    forall x :: a <= x < b ==> x < |t| && IsSpace(t[x])
  }

  predicate DigitsIn(t: string, a: nat, b: nat) {
    forall x :: a <= x < b ==> x < |t| && IsDigit(t[x])
  }

  predicate NoNewlineIn(t: string, a: nat, b: nat) {
    forall x :: a <= x < b ==> x < |t| && t[x] != '\n'
  }

  /** End of the whitespace run starting at `j` (greedy `\s*`). */
  function SpaceEnd(t: string, j: nat): (k: nat)
    requires j <= |t|
    ensures j <= k <= |t| && SpacesIn(t, j, k)
    ensures k < |t| ==> !IsSpace(t[k])
    decreases |t| - j
  {
    if j < |t| && IsSpace(t[j]) then SpaceEnd(t, j + 1) else j
  }

  /** End of the digit run starting at `j` (greedy `\d*`). */
  function DigitEnd(t: string, j: nat): (k: nat)
    requires j <= |t|
    ensures j <= k <= |t| && DigitsIn(t, j, k)
    ensures k < |t| ==> !IsDigit(t[k])
    decreases |t| - j
  {
    if j < |t| && IsDigit(t[j]) then DigitEnd(t, j + 1) else j
  }

  /** End of the run of non-`\n` characters starting at `j` (greedy `.*`). */
  function LineEnd(t: string, j: nat): (k: nat)
    requires j <= |t|
    ensures j <= k <= |t| && NoNewlineIn(t, j, k)
    ensures k < |t| ==> t[k] == '\n'
    decreases |t| - j
  {
    if j < |t| && t[j] != '\n' then LineEnd(t, j + 1) else j
  }

  /** The last position in `[lo, hi)` that does not hold `\n`. */
  function LastNonNewline(t: string, lo: nat, hi: nat): (r: Option<nat>)
    requires lo <= hi <= |t|
    ensures r.Some? ==> lo <= r.value < hi && t[r.value] != '\n'
    ensures r.Some? ==> forall x :: r.value < x < hi ==> t[x] == '\n'
    ensures r.None? ==> forall x :: lo <= x < hi ==> t[x] == '\n'
    decreases hi - lo
  {
    if lo == hi then None
    else if t[hi - 1] != '\n' then Some(hi - 1)
    else LastNonNewline(t, lo, hi - 1)
  }

  // ---------------------------------------------------------------------------
  // Vendor: `(?:Vendor|Biller|Store|Payee)\s*[:\-]\s*(.+)`, ignoring case

  const LabelWords: seq<string> := ["vendor", "biller", "store", "payee"]

  /** The lower-case word `w` occurs at `i`, ignoring ASCII case. */
  predicate WordAt(t: string, i: nat, w: string) {
    i + |w| <= |t| && Lower(t[i..i + |w|]) == w
  }

  lemma WordAtFirst(t: string, i: nat, w: string)
    requires WordAt(t, i, w) && |w| > 0
    ensures AsciiLower(t[i]) == w[0]
  {
    assert Lower(t[i..i + |w|])[0] == AsciiLower(t[i..i + |w|][0]);
  }

  /** The label word at `i`; the four words start with different letters, so at most one fits. */
  function LabelWordAt(t: string, i: nat): (r: Option<string>)
    ensures r.Some? ==> r.value in LabelWords && WordAt(t, i, r.value)
    ensures forall w :: w in LabelWords && WordAt(t, i, w) ==> r == Some(w)
  {
    assert forall w :: w in LabelWords && WordAt(t, i, w) ==> AsciiLower(t[i]) == w[0] by {
      forall w | w in LabelWords && WordAt(t, i, w) ensures AsciiLower(t[i]) == w[0] {
        WordAtFirst(t, i, w);
      }
    }
    if WordAt(t, i, "vendor") then Some("vendor")
    else if WordAt(t, i, "biller") then Some("biller")
    else if WordAt(t, i, "store") then Some("store")
    else if WordAt(t, i, "payee") then Some("payee")
    else None
  }

  /**
   * One way the vendor pattern can match at `i`: the label word `w`, optional
   * whitespace, the separator `:` or `-` at `k`, optional whitespace up to
   * `m`, and the captured group `t[m..e]` of one or more non-`\n` characters.
   */
  ghost predicate LabelParse(t: string, i: nat, w: string, k: nat, m: nat, e: nat) {
    && w in LabelWords && WordAt(t, i, w)
    && i + |w| <= k < m < e <= |t|
    && SpacesIn(t, i + |w|, k) && (t[k] == ':' || t[k] == '-')
    && SpacesIn(t, k + 1, m) && NoNewlineIn(t, m, e)
  }

  /**
   * The match the regex engine reports at `i`, as the span of the captured
   * group: the first `\s*` is forced to end at the separator, the second
   * `\s*` keeps as much as still leaves a non-`\n` character for the group,
   * and `(.+)` runs to the end of its line.
   */
  function LabelAt(t: string, i: nat): (r: Option<Span>)
    ensures r.Some? ==> exists w, k :: LabelParse(t, i, w, k, r.value.start, r.value.end)
    ensures r.Some? ==> r.value.end == |t| || t[r.value.end] == '\n'
  {
    match LabelWordAt(t, i)
    case None => None
    case Some(w) =>
      var k := SpaceEnd(t, i + |w|);
      if k == |t| || !(t[k] == ':' || t[k] == '-') then None
      else
        match GroupStart(t, k)
        case None => None
        case Some(m) =>
          var e := LineEnd(t, m);
          assert LabelParse(t, i, w, k, m, e);
          Some(Span(m, e))
  }

  /**
   * Where `(.+)` starts after the separator at `k`: the second `\s*` takes
   * every space it can while a non-`\n` character is still left for the group.
   */
  function GroupStart(t: string, k: nat): (r: Option<nat>)
    requires k < |t|
    ensures r.Some? ==> k < r.value < |t| && SpacesIn(t, k + 1, r.value) && t[r.value] != '\n'
    ensures forall m :: k < m < |t| && SpacesIn(t, k + 1, m) && t[m] != '\n' ==> r.Some? && m <= r.value
  {
    var m0 := SpaceEnd(t, k + 1);
    if m0 < |t| then
      assert forall m :: k < m < |t| && SpacesIn(t, k + 1, m) && t[m] != '\n' ==> m <= m0 by {
        forall m | k < m < |t| && SpacesIn(t, k + 1, m) && t[m] != '\n' ensures m <= m0 {
          SpaceEndGreedy(t, k + 1, m);
        }
      }
      Some(m0)
    else
      var r := LastNonNewline(t, k + 1, |t|);
      assert forall m :: k < m < |t| && t[m] != '\n' ==> r.Some? && m <= r.value by {
        forall m | k < m < |t| && t[m] != '\n' ensures r.Some? && m <= r.value {
          LastNonNewlineGreedy(t, k + 1, |t|, m);
        }
      }
      r
  }

  /**
   * Every way the pattern can match at `i` is found by `LabelAt`, and its
   * group starts no later than the reported one: the reported match is the
   * greedy one.
   */
  lemma LabelAtComplete(t: string, i: nat, w: string, k: nat, m: nat, e: nat)
    requires LabelParse(t, i, w, k, m, e)
    ensures LabelAt(t, i).Some? && m <= LabelAt(t, i).value.start
  {
    assert LabelWordAt(t, i) == Some(w);
    SpaceEndExact(t, i + |w|, k);
    assert t[m] != '\n';
  }

  /** `\s*` stops exactly at the first non-space. */
  lemma SpaceEndExact(t: string, j: nat, k: nat)
    requires j <= k < |t| && SpacesIn(t, j, k) && !IsSpace(t[k])
    ensures SpaceEnd(t, j) == k
    decreases k - j
  {
    if j < k {
      SpaceEndExact(t, j + 1, k);
    }
  }

  /** `\s*` runs at least as far as any run of spaces. */
  lemma SpaceEndGreedy(t: string, j: nat, m: nat)
    requires j <= m <= |t| && SpacesIn(t, j, m)
    ensures m <= SpaceEnd(t, j)
    decreases m - j
  {
    if j < m {
      SpaceEndGreedy(t, j + 1, m);
    }
  }

  lemma LastNonNewlineGreedy(t: string, lo: nat, hi: nat, m: nat)
    requires lo <= m < hi <= |t| && t[m] != '\n'
    ensures LastNonNewline(t, lo, hi).Some? && m <= LastNonNewline(t, lo, hi).value
  {
  }

  /** `re.search` for the vendor pattern: the leftmost position with a match. */
  function FindLabel(t: string): (r: Option<nat>)
    ensures r.Some? ==> LabelAt(t, r.value).Some?
    ensures forall j: nat :: (r.None? || j < r.value) ==> LabelAt(t, j).None?
  {
    var p := (i: nat) => LabelAt(t, i).Some?;
    assert forall i: nat :: p(i) == LabelAt(t, i).Some?;
    var r := FirstWhere(p, 0, |t| + 1);
    assert forall j: nat :: j > |t| ==> LabelWordAt(t, j).None?;
    r
  }

  /** The vendor pattern matches somewhere in `t`. */
  ghost predicate HasLabel(t: string) {
    exists i, w, k, m, e :: LabelParse(t, i, w, k, m, e)
  }

  /**
   * The search is exact: it reports a position only where the pattern
   * matches, and wherever the pattern can match it reports that position or
   * an earlier one.
   */
  lemma FindLabelLeftmost(t: string, j: nat, w: string, k: nat, m: nat, e: nat)
    requires LabelParse(t, j, w, k, m, e)
    ensures FindLabel(t).Some? && FindLabel(t).value <= j
  {
    LabelAtComplete(t, j, w, k, m, e);
  }

  /** `vendor_match.group(1).strip()` for the leftmost label match. */
  function LabelledVendor(t: string): (r: Option<string>)
    ensures r.Some? <==> FindLabel(t).Some?
    ensures r.Some? ==> exists sp :: LabelAt(t, FindLabel(t).value) == Some(sp)
                                     && sp.start <= sp.end <= |t| && r.value == Strip(t[sp.start..sp.end])
  {
    match FindLabel(t)
    case None => None
    case Some(i) =>
      var sp := LabelAt(t, i).value;
      Some(Strip(t[sp.start..sp.end]))
  }

  // ---------------------------------------------------------------------------
  // Vendor fallback: first stripped line that is not only digits and non-word characters

  /** `re.match(r'^[\d\W]+$', s)`: `s` is non-empty and made only of digits and non-word characters. */
  predicate OnlyDigitsOrNonWord(s: string) {
    |s| > 0 && forall k :: 0 <= k < |s| ==> IsDigit(s[k]) || !IsWordChar(s[k])
  }

  /** The fallback's test on a stripped line: non-empty and not rejected by the pattern above. */
  predicate IsVendorCandidate(s: string) {
    |s| > 0 && !OnlyDigitsOrNonWord(s)
  }

  /** A line qualifies exactly when it contains an ASCII letter or an underscore. */
  lemma VendorCandidateHasLetter(s: string)
    ensures IsVendorCandidate(s) <==> exists k :: 0 <= k < |s| && (IsAsciiLetter(s[k]) || s[k] == '_')
  {
  }

  /** The first line, stripped, that qualifies as a vendor name. */
  function FallbackVendor(lines: seq<string>): (r: Option<string>)
    ensures r.Some? ==> IsVendorCandidate(r.value)
    ensures r.Some? ==> exists k :: 0 <= k < |lines| && r.value == Strip(lines[k])
                                    && forall j :: 0 <= j < k ==> !IsVendorCandidate(Strip(lines[j]))
    ensures r.None? <==> forall k :: 0 <= k < |lines| ==> !IsVendorCandidate(Strip(lines[k]))
  {
    match FirstVendorLine(lines)
    case None => None
    case Some(k) => Some(Strip(lines[k]))
  }

  /** Index of the first line that qualifies once stripped: where the fallback loop breaks. */
  function FirstVendorLine(lines: seq<string>): (r: Option<nat>)
    ensures r.Some? ==> r.value < |lines| && IsVendorCandidate(Strip(lines[r.value]))
    ensures forall j :: 0 <= j < |lines| && (r.None? || j < r.value) ==> !IsVendorCandidate(Strip(lines[j]))
  {
    var p := (k: nat) => k < |lines| && IsVendorCandidate(Strip(lines[k]));
    assert forall k: nat :: p(k) == (k < |lines| && IsVendorCandidate(Strip(lines[k])));
    FirstWhere(p, 0, |lines|)
  }

  // ---------------------------------------------------------------------------
  // Date token: `\d{4}[/-]\d{2}[/-]\d{2}|\d{2}[/-]\d{2}[/-]\d{4}`

  predicate IsDateSep(c: char) {
    c == '-' || c == '/'
  }

  /** Either alternative of the date pattern matches the ten characters at `i`. */
  predicate DateShapeAt(t: string, i: nat) {
    && i + 10 <= |t|
    && (|| (DigitsIn(t, i, i + 4) && IsDateSep(t[i + 4]) && DigitsIn(t, i + 5, i + 7)
            && IsDateSep(t[i + 7]) && DigitsIn(t, i + 8, i + 10))
        || (DigitsIn(t, i, i + 2) && IsDateSep(t[i + 2]) && DigitsIn(t, i + 3, i + 5)
            && IsDateSep(t[i + 5]) && DigitsIn(t, i + 6, i + 10)))
  }

  /** The leftmost date-shaped token, verbatim; no calendar check happens here. */
  function DateToken(t: string): (r: Option<string>)
    ensures r.Some? ==> exists i: nat :: DateShapeAt(t, i) && r.value == t[i..i + 10]
                                         && forall j: nat :: j < i ==> !DateShapeAt(t, j)
    ensures r.None? <==> forall i: nat :: !DateShapeAt(t, i)
  {
    var p := (i: nat) => DateShapeAt(t, i);
    assert forall i: nat :: p(i) == DateShapeAt(t, i);
    match FirstWhere(p, 0, |t| + 1)
    case None => None
    case Some(i) =>
      assert DateShapeAt(t, i) && forall j: nat :: j < i ==> !DateShapeAt(t, j);
      Some(t[i..i + 10])
  }

  // ---------------------------------------------------------------------------
  // Numbers: `\d+[.,]?\d*`

  predicate IsNumberSep(c: char) {
    c == '.' || c == ','
  }

  /** One way `\d+[.,]?\d*` matches `t[j..e]`, its leading digit run ending at `p`. */
  ghost predicate NumberParse(t: string, j: nat, p: nat, e: nat) {
    && j < p <= e <= |t| && DigitsIn(t, j, p)
    && (p == e || (IsNumberSep(t[p]) && DigitsIn(t, p + 1, e)))
  }

  /** End of the match of `\d+[.,]?\d*` at `j`, which greediness makes the longest one. */
  function NumberAt(t: string, j: nat): (r: Option<nat>)
    ensures r.Some? ==> j < r.value <= |t| && NumberParse(t, j, DigitEnd(t, j), r.value)
    ensures r.None? <==> !(j < |t| && IsDigit(t[j]))
  {
    if j >= |t| || !IsDigit(t[j]) then None
    else
      var p := DigitEnd(t, j);
      if p < |t| && IsNumberSep(t[p]) then
        var e := DigitEnd(t, p + 1);
        assert NumberParse(t, j, p, e);
        Some(e)
      else
        assert NumberParse(t, j, p, p);
        Some(p)
  }

  lemma NumberAtLongest(t: string, j: nat, p: nat, e: nat)
    requires NumberParse(t, j, p, e)
    ensures NumberAt(t, j).Some? && e <= NumberAt(t, j).value
  {
  }

  // ---------------------------------------------------------------------------
  // Currency-prefixed amount: `[₹$€£]\s?\d+[.,]?\d*`

  /** One way the amount pattern matches `t[i..e]`, the number starting at `d`. */
  ghost predicate AmountParse(t: string, i: nat, d: nat, p: nat, e: nat) {
    && i < |t| && IsCurrencySymbol(t[i])
    && (d == i + 1 || (d == i + 2 && i + 1 < |t| && IsSpace(t[i + 1])))
    && NumberParse(t, d, p, e)
  }

  /** The match at `i`: the span of its number, from its first digit to the end of the match. */
  function AmountAt(t: string, i: nat): (r: Option<Span>)
    ensures r.Some? ==> NumberAt(t, r.value.start) == Some(r.value.end)
    ensures r.Some? ==> r.value.start < |t| && AmountParse(t, i, r.value.start, DigitEnd(t, r.value.start), r.value.end)
  {
    if i < |t| && IsCurrencySymbol(t[i]) then
      var d := if i + 1 < |t| && IsSpace(t[i + 1]) then i + 2 else i + 1;
      match NumberAt(t, d)
      case None => None
      case Some(e) => Some(Span(d, e))
    else None
  }

  /** Every match at `i` starts its number where `AmountAt` says and ends no later. */
  lemma AmountAtComplete(t: string, i: nat, d: nat, p: nat, e: nat)
    requires AmountParse(t, i, d, p, e)
    ensures AmountAt(t, i).Some? && AmountAt(t, i).value.start == d && e <= AmountAt(t, i).value.end
  {
    if d == i + 1 {
      assert IsDigit(t[i + 1]);
    }
    NumberAtLongest(t, d, p, e);
  }

  /** The text `t[j..e]` of the number matched at `j`. */
  function NumberText(t: string, j: nat): string
    requires NumberAt(t, j).Some?
  {
    t[j..NumberAt(t, j).value]
  }

  /** `re.search` for the amount pattern. */
  function FindAmount(t: string): (r: Option<nat>)
    ensures r.Some? ==> AmountAt(t, r.value).Some?
    ensures forall j: nat :: (r.None? || j < r.value) ==> AmountAt(t, j).None?
  {
    var p := (i: nat) => AmountAt(t, i).Some?;
    assert forall i: nat :: p(i) == AmountAt(t, i).Some?;
    FirstWhere(p, 0, |t| + 1)
  }

  // ---------------------------------------------------------------------------
  // From matched text to values

  predicate IsDigitOrDot(c: char) {
    IsDigit(c) || c == '.'
  }

  predicate IsNotNumberChar(c: char) {
    !(IsDigit(c) || c == '.' || c == ',' || IsSpace(c))
  }

  predicate IsNotComma(c: char) {
    c != ','
  }

  /** `re.sub(r'[^\d.]', '', s)`. */
  function KeepDigitsAndDots(s: string): string {
    Filter(s, IsDigitOrDot)
  }

  /** `re.sub(r'[\d.,\s]', '', s)`. */
  function DropNumberChars(s: string): string {
    Filter(s, IsNotNumberChar)
  }

  /** `s.replace(',', '')`. */
  function DropCommas(s: string): string {
    Filter(s, IsNotComma)
  }

  /** The value of `ip.fp` in decimal. */
  function DecimalValue(ip: string, fp: string): (v: real)
    requires AllDigits(ip) && AllDigits(fp)
    ensures v >= DigitsValue(ip) as real
  {
    DigitsValue(ip) as real + DigitsValue(fp) as real / Pow10(|fp|) as real
  }

  /**
   * `float(s)` for a string of digits and dots: at least one digit and at most
   * one dot, else `ValueError` (`None`). Binary rounding is not modelled.
   */
  function ParseDecimal(s: string): (r: Option<real>)
    ensures r.Some? ==> r.value >= 0.0
    ensures AllDigits(s) && |s| > 0 ==> r == Some(DigitsValue(s) as real)
  {
    var ps := SplitOn(s, '.');
    if |ps| == 1 && |s| > 0 && AllDigits(s) then Some(DigitsValue(s) as real)
    else if |ps| == 2 && |ps[0]| + |ps[1]| > 0 && AllDigits(ps[0]) && AllDigits(ps[1]) then
      Some(DecimalValue(ps[0], ps[1]))
    else
      assert AllDigits(s) && |s| > 0 ==> '.' !in s;
      None
  }

  /** Amount and currency of the match starting at `i`, as the source computes them from `group(1)`. */
  function AmountFields(t: string, i: nat): (r: (Option<real>, string))
    requires AmountAt(t, i).Some?
  {
    var g := t[i..AmountAt(t, i).value.end];
    (ParseDecimal(KeepDigitsAndDots(g)), DropNumberChars(g))
  }

  // ---------------------------------------------------------------------------
  // Fallback: the first line containing "total"

  /** Index of the first line whose lower-cased text contains "total". */
  function TotalLineIndex(lines: seq<string>): (r: Option<nat>)
    ensures r.Some? ==> r.value < |lines| && Contains(Lower(lines[r.value]), "total")
    ensures forall k :: 0 <= k < |lines| && (r.None? || k < r.value) ==> !Contains(Lower(lines[k]), "total")
  {
    var p := (k: nat) => k < |lines| && Contains(Lower(lines[k]), "total");
    assert forall k: nat :: p(k) == (k < |lines| && Contains(Lower(lines[k]), "total"));
    FirstWhere(p, 0, |lines|)
  }

  /** Position of the first currency symbol in `line`. */
  function FirstSymbol(line: string): (r: Option<nat>)
    ensures r.Some? ==> r.value < |line| && IsCurrencySymbol(line[r.value])
    ensures forall j :: 0 <= j < |line| && (r.None? || j < r.value) ==> !IsCurrencySymbol(line[j])
  {
    var p := (j: nat) => j < |line| && IsCurrencySymbol(line[j]);
    assert forall j: nat :: p(j) == (j < |line| && IsCurrencySymbol(line[j]));
    FirstWhere(p, 0, |line|)
  }

  /** Position of the first digit in `line`, where `re.search(r'(\d+[.,]?\d*)', line)` matches. */
  function FirstNumber(line: string): (r: Option<nat>)
    ensures r.Some? ==> NumberAt(line, r.value).Some?
    ensures forall j: nat :: j < |line| && (r.None? || j < r.value) ==> !IsDigit(line[j])
  {
    var p := (j: nat) => NumberAt(line, j).Some?;
    assert forall j: nat :: p(j) == NumberAt(line, j).Some?;
    assert forall j: nat :: NumberAt(line, j).Some? <==> j < |line| && IsDigit(line[j]);
    FirstWhere(p, 0, |line| + 1)
  }

  /**
   * The amount read from a "total" line: the first number in it, commas
   * dropped, as a float; `None` when the line has no digit. The conversion
   * cannot fail, because the number always has a digit and at most one dot.
   */
  function TotalLineAmount(line: string): (r: Option<real>)
    ensures r.Some? <==> exists j :: 0 <= j < |line| && IsDigit(line[j])
    ensures r.Some? ==> r == ParseDecimal(KeepDigitsAndDots(NumberText(line, FirstNumber(line).value)))
  {
    match FirstNumber(line)
    case None => None
    case Some(j) =>
      var e := NumberAt(line, j).value;
      NumberValue(line, j, DigitEnd(line, j), e);
      ParseDecimal(DropCommas(line[j..e]))
  }

  /** The currency read from a "total" line: its first currency symbol, if any. */
  function TotalLineCurrency(line: string): (r: Option<string>)
    ensures r.Some? <==> exists j :: 0 <= j < |line| && IsCurrencySymbol(line[j])
    ensures r.Some? ==> |r.value| == 1 && IsCurrencySymbol(r.value[0])
    ensures r.Some? ==> r.value == [line[FirstSymbol(line).value]]
  {
    match FirstSymbol(line)
    case None => None
    case Some(j) => Some([line[j]])
  }

  /** The fallback loop: the fields of the first "total" line, or nothing. */
  function TotalFallback(lines: seq<string>): (r: (Option<real>, Option<string>))
    ensures TotalLineIndex(lines).None? ==> r == (None, None)
    ensures TotalLineIndex(lines).Some? ==>
      var line := lines[TotalLineIndex(lines).value];
      r == (TotalLineAmount(line), TotalLineCurrency(line))
  {
    match TotalLineIndex(lines)
    case None => (None, None)
    case Some(k) => (TotalLineAmount(lines[k]), TotalLineCurrency(lines[k]))
  }

  /**
   * The number matched at `t[j..e]`, with commas dropped, always parses: its
   * value is the digits before the separator and after it, read as one
   * integer when the separator is a comma and as a decimal when it is a dot.
   */
  lemma NumberValue(t: string, j: nat, p: nat, e: nat)
    requires NumberParse(t, j, p, e)
    ensures AllDigits(t[j..p]) && AllDigits(t[p..e][if p < e then 1 else 0..])
    ensures var ip, fp := t[j..p], t[p..e][if p < e then 1 else 0..];
            ParseDecimal(DropCommas(t[j..e])) == ParseDecimal(KeepDigitsAndDots(t[j..e]))
            == Some(if p < e && t[p] == '.' then DecimalValue(ip, fp) else DigitsValue(ip + fp) as real)
  {
    var ip := t[j..p];
    var fp := t[p..e][if p < e then 1 else 0..];
    assert AllDigits(ip);
    assert AllDigits(fp);
    if p == e {
      assert t[j..e] == ip && fp == "" && ip + fp == ip;
      DigitsKept(ip);
    } else {
      assert t[j..e] == ip + [t[p]] + fp;
      if t[p] == '.' {
        DotNumber(ip, fp);
      } else {
        CommaNumber(ip, fp);
      }
    }
  }

  /** Digit strings pass through both filters unchanged. */
  lemma DigitsKept(s: string)
    requires AllDigits(s)
    ensures KeepDigitsAndDots(s) == s && DropCommas(s) == s
  {
    FilterAll(s, IsDigitOrDot);
    FilterAll(s, IsNotComma);
  }

  /** Both filters keep the characters they accept around one separator. */
  lemma FiltersAroundSep(ip: string, c: char, fp: string)
    requires AllDigits(ip) && AllDigits(fp)
    ensures KeepDigitsAndDots(ip + [c] + fp) == ip + Filter([c], IsDigitOrDot) + fp
    ensures DropCommas(ip + [c] + fp) == ip + Filter([c], IsNotComma) + fp
  {
    DigitsKept(ip);
    DigitsKept(fp);
    FilterAppend(ip + [c], fp, IsDigitOrDot);
    FilterAppend(ip, [c], IsDigitOrDot);
    FilterAppend(ip + [c], fp, IsNotComma);
    FilterAppend(ip, [c], IsNotComma);
  }

  lemma DotSplit(ip: string, fp: string)
    requires AllDigits(ip) && AllDigits(fp)
    ensures SplitOn(ip + ['.'] + fp, '.') == [ip, fp]
  {
    DigitsNoDot(ip);
    DigitsNoDot(fp);
    SplitOnCons(ip, '.', fp);
    SplitOnNone(fp, '.');
  }

  lemma DotNumber(ip: string, fp: string)
    requires AllDigits(ip) && AllDigits(fp) && |ip| > 0
    ensures var n := ip + ['.'] + fp;
            KeepDigitsAndDots(n) == n && DropCommas(n) == n && ParseDecimal(n) == Some(DecimalValue(ip, fp))
  {
    FiltersAroundSep(ip, '.', fp);
    assert Filter(['.'], IsDigitOrDot) == ['.'];
    assert Filter(['.'], IsNotComma) == ['.'];
    DotSplit(ip, fp);
  }

  lemma CommaNumber(ip: string, fp: string)
    requires AllDigits(ip) && AllDigits(fp) && |ip| > 0
    ensures var n := ip + [','] + fp;
            KeepDigitsAndDots(n) == ip + fp && DropCommas(n) == ip + fp
            && AllDigits(ip + fp) && ParseDecimal(ip + fp) == Some(DigitsValue(ip + fp) as real)
  {
    FiltersAroundSep(ip, ',', fp);
    assert Filter([','], IsDigitOrDot) == "";
    assert Filter([','], IsNotComma) == "";
    assert ip + "" == ip;
    assert AllDigits(ip + fp);
  }

  lemma DigitsNoDot(s: string)
    requires AllDigits(s)
    ensures '.' !in s
  {
    assert forall k :: 0 <= k < |s| ==> s[k] != '.';
  }

  // ---------------------------------------------------------------------------
  // Category

  const UtilityWords: seq<string> := ["electricity", "power", "energy"]
  const GroceryWords: seq<string> := ["grocery", "mart", "food", "whole foods", "walmart"]

  /** `any(word in s for word in words)`. */
  predicate MentionsAny(s: string, words: seq<string>) {
    exists w :: w in words && Contains(s, w)
  }

  /**
   * The category rule: no category for a missing or empty vendor; otherwise
   * "Utilities" if the lower-cased vendor names a utility word, checked
   * first, else "Groceries" if it names a grocery word, else none.
   */
  function CategoryOf(vendor: Option<string>): (r: Option<string>)
    ensures r.Some? ==> vendor.Some? && vendor.value != ""
    ensures r.Some? ==> r.value == "Utilities" || r.value == "Groceries"
    ensures r == Some("Utilities") <==>
      vendor.Some? && vendor.value != "" && MentionsAny(Lower(vendor.value), UtilityWords)
    ensures r == Some("Groceries") <==>
      && vendor.Some? && vendor.value != ""
      && !MentionsAny(Lower(vendor.value), UtilityWords) && MentionsAny(Lower(vendor.value), GroceryWords)
  {
    match vendor
    case None => None
    case Some(v) =>
      if v == "" then None
      else if MentionsAny(Lower(v), UtilityWords) then Some("Utilities")
      else if MentionsAny(Lower(v), GroceryWords) then Some("Groceries")
      else None
  }

  // ---------------------------------------------------------------------------
  // parse_receipt_text

  /**
   * The extractor. It fails exactly when a vendor label is present and no
   * currency-prefixed amount is; otherwise the vendor comes from the label or
   * the line fallback, the date token from the date search, amount and
   * currency from the currency-prefixed amount or else the "total" line,
   * and the category from the vendor.
   */
  function ParseReceiptText(text: string): (r: Result<Parsed, ParseError>)
    ensures r.Failure? <==> FindLabel(text).Some? && FindAmount(text).None?
    ensures r.Success? ==> r.value.date == DateToken(text)
    ensures r.Success? ==> r.value.category == CategoryOf(r.value.vendor)
    ensures r.Success? && r.value.currency.Some? ==>
      |r.value.currency.value| == 1 && IsCurrencySymbol(r.value.currency.value[0])
    ensures r.Success? && FindAmount(text).Some? ==> r.value.amount.Some? && r.value.currency.Some?
    ensures r.Success? && FindLabel(text).Some? ==> r.value.vendor == LabelledVendor(text)
    ensures r.Success? && FindLabel(text).None? ==> r.value.vendor == FallbackVendor(SplitLines(text))
    ensures r.Success? && FindAmount(text).Some? ==>
      var i := FindAmount(text).value;
      && r.value.amount == ParseDecimal(KeepDigitsAndDots(NumberText(text, AmountAt(text, i).value.start)))
      && r.value.currency == Some([text[i]])
    ensures r.Success? && FindAmount(text).None? ==> (r.value.amount, r.value.currency) == TotalFallback(SplitLines(text))
  {
    var labelled := LabelledVendor(text);
    var found := FindAmount(text);
    if labelled.Some? && found.None? then Failure(UnboundLines)
    else
      var vendor := if labelled.Some? then labelled else FallbackVendor(SplitLines(text));
      var fields: (Option<real>, Option<string>) :=
        if found.Some? then CurrencyMatchFields(text, found.value) else TotalFallback(SplitLines(text));
      Success(Parsed(vendor, DateToken(text), fields.0, CategoryOf(vendor), fields.1))
  }

  /** Amount and currency of the currency-prefixed match at `i`. */
  function CurrencyMatchFields(t: string, i: nat): (r: (Option<real>, Option<string>))
    requires AmountAt(t, i).Some?
    ensures r.0.Some? && r.1 == Some([t[i]]) && IsCurrencySymbol(t[i])
    ensures r.0 == ParseDecimal(KeepDigitsAndDots(NumberText(t, AmountAt(t, i).value.start)))
  {
    CurrencyAmountShape(t, i);
    (AmountFields(t, i).0, Some(AmountFields(t, i).1))
  }

  /**
   * At a currency match, the amount is the matched number (commas dropped,
   * dot kept) and the currency is exactly the symbol.
   */
  lemma CurrencyAmountShape(t: string, i: nat)
    requires AmountAt(t, i).Some?
    ensures AmountFields(t, i).0.Some?
    ensures AmountFields(t, i).1 == [t[i]]
    ensures IsCurrencySymbol(t[i])
    ensures var sp := AmountAt(t, i).value;
            AmountFields(t, i).0 == ParseDecimal(KeepDigitsAndDots(t[sp.start..sp.end]))
  {
    AmountOfMatch(t, i);
    CurrencyOfMatch(t, i);
  }

  lemma AmountOfMatch(t: string, i: nat)
    requires AmountAt(t, i).Some?
    ensures var sp := AmountAt(t, i).value;
            && AmountFields(t, i).0 == ParseDecimal(KeepDigitsAndDots(t[sp.start..sp.end]))
            && AmountFields(t, i).0.Some?
  {
    var sp := AmountAt(t, i).value;
    var d, e := sp.start, sp.end;
    var pre, n := t[i..d], t[d..e];
    assert t[i..e] == pre + n;
    SymbolPrefix(t, i, d);
    FilterAppend(pre, n, IsDigitOrDot);
    assert "" + KeepDigitsAndDots(n) == KeepDigitsAndDots(n);
    NumberValue(t, d, DigitEnd(t, d), e);
  }

  lemma CurrencyOfMatch(t: string, i: nat)
    requires AmountAt(t, i).Some?
    ensures AmountFields(t, i).1 == [t[i]] && IsCurrencySymbol(t[i])
  {
    var sp := AmountAt(t, i).value;
    var d, e := sp.start, sp.end;
    var pre, n := t[i..d], t[d..e];
    assert t[i..e] == pre + n;
    SymbolPrefix(t, i, d);
    NumberResidue(t, d, DigitEnd(t, d), e);
    FilterAppend(pre, n, IsNotNumberChar);
    assert [t[i]] + "" == [t[i]];
  }

  /** The symbol and the optional space before the number leave only the symbol behind. */
  lemma SymbolPrefix(t: string, i: nat, d: nat)
    requires i < |t| && IsCurrencySymbol(t[i])
    requires d == i + 1 || (d == i + 2 && i + 1 < |t| && IsSpace(t[i + 1]))
    ensures KeepDigitsAndDots(t[i..d]) == "" && DropNumberChars(t[i..d]) == [t[i]]
  {
    assert Filter([t[i]], IsDigitOrDot) == "";
    assert Filter([t[i]], IsNotNumberChar) == [t[i]];
    if d == i + 2 {
      assert t[i..d] == [t[i]] + [t[i + 1]];
      FilterAppend([t[i]], [t[i + 1]], IsDigitOrDot);
      FilterAppend([t[i]], [t[i + 1]], IsNotNumberChar);
      assert Filter([t[i + 1]], IsDigitOrDot) == "";
      assert Filter([t[i + 1]], IsNotNumberChar) == "";
    } else {
      assert t[i..d] == [t[i]];
    }
  }

  /** A matched number holds only digits and one separator, all of which the currency rewrite drops. */
  lemma NumberResidue(t: string, j: nat, p: nat, e: nat)
    requires NumberParse(t, j, p, e)
    ensures DropNumberChars(t[j..e]) == ""
  {
    forall x | 0 <= x < |t[j..e]| ensures !IsNotNumberChar(t[j..e][x]) {
      assert t[j..e][x] == t[j + x];
    }
    FilterNone(t[j..e], IsNotNumberChar);
  }

  // ---------------------------------------------------------------------------
  // Properties of the whole extractor

  /** The amount pattern matches somewhere in `t`. */
  ghost predicate HasCurrencyAmount(t: string) {
    exists i, d, p, e :: AmountParse(t, i, d, p, e)
  }

  /** The amount search finds a match exactly when the pattern can match somewhere. */
  lemma FindAmountExact(t: string)
    ensures FindAmount(t).Some? <==> HasCurrencyAmount(t)
  {
    if FindAmount(t).Some? {
      var sp := AmountAt(t, FindAmount(t).value).value;
      assert AmountParse(t, FindAmount(t).value, sp.start, DigitEnd(t, sp.start), sp.end);
    }
    if HasCurrencyAmount(t) {
      var i, d, p, e :| AmountParse(t, i, d, p, e);
      AmountAtComplete(t, i, d, p, e);
    }
  }

  /** The vendor search finds a match exactly when the pattern can match somewhere. */
  lemma FindLabelExact(t: string)
    ensures FindLabel(t).Some? <==> HasLabel(t)
  {
    if HasLabel(t) {
      var i, w, k, m, e :| LabelParse(t, i, w, k, m, e);
      FindLabelLeftmost(t, i, w, k, m, e);
    }
  }

  /**
   * The extractor raises exactly on texts where the vendor pattern matches
   * and the currency-amount pattern matches nowhere.
   */
  lemma ParseFailsExactly(text: string)
    ensures ParseReceiptText(text).Failure? <==> HasLabel(text) && !HasCurrencyAmount(text)
  {
    FindLabelExact(text);
    FindAmountExact(text);
  }

  /** A blank line neither names a vendor nor mentions "total". */
  lemma BlankLineIsSkipped(line: string)
    requires AllSpace(line)
    ensures Strip(line) == "" && !Contains(Lower(line), "total")
  {
    var low := Lower(line);
    forall i: nat ensures !OccursAt(low, "total", i) {
      if i + 5 <= |low| {
        assert low[i..i + 5][0] == low[i] != 't';
      }
    }
  }

  /** Blank text holds no vendor label, no currency amount and no date. */
  lemma BlankTextHasNoMatch(text: string)
    requires AllSpace(text)
    ensures FindLabel(text).None? && FindAmount(text).None? && DateToken(text).None?
  {
    forall i: nat ensures LabelAt(text, i).None? {
      if LabelWordAt(text, i).Some? {
        var w := LabelWordAt(text, i).value;
        WordAtFirst(text, i, w);
      }
    }
    assert forall i: nat :: AmountAt(text, i).None?;
    assert forall i: nat :: !DateShapeAt(text, i);
  }

  /** Neither fallback finds anything among blank lines. */
  lemma BlankLinesFallBackToNothing(text: string)
    requires AllSpace(text)
    ensures FallbackVendor(SplitLines(text)).None? && TotalLineIndex(SplitLines(text)).None?
  {
    var lines := SplitLines(text);
    BlankLines(text);
    forall k | 0 <= k < |lines| ensures Strip(lines[k]) == "" && !Contains(Lower(lines[k]), "total") {
      BlankLineIsSkipped(lines[k]);
    }
  }

  /** Empty or all-blank text yields all five fields empty. */
  lemma BlankTextParsesToNothing(text: string)
    requires AllSpace(text)
    ensures ParseReceiptText(text) == Success(Parsed(None, None, None, None, None))
  {
    BlankTextHasNoMatch(text);
    BlankLinesFallBackToNothing(text);
  }
}

=== FILE: grouping.dfy ===
/**
 * `GROUP BY` and `collections.Counter` in miniature: the distinct keys of a
 * sequence in order of first appearance, occurrence counts, per-key totals,
 * and sums that do not depend on the order rows are visited in.
 */
module Grouping {

  predicate NoDup<T(==)>(s: seq<T>) {
    forall i, j :: 0 <= i < j < |s| ==> s[i] != s[j]
  }

  /** Position of the first occurrence of `x`. */
  function FirstIndex<T(==)>(xs: seq<T>, x: T): (r: nat)
    requires x in xs
    ensures r < |xs| && xs[r] == x
    ensures forall j :: 0 <= j < r ==> xs[j] != x
  {
    if xs[0] == x then 0 else 1 + FirstIndex(xs[1..], x)
  }

  lemma FirstIndexOfPrefix<T>(xs: seq<T>, n: nat, x: T)
    requires n <= |xs| && x in xs[..n]
    ensures x in xs && FirstIndex(xs, x) == FirstIndex(xs[..n], x)
  {
    var k := FirstIndex(xs[..n], x);
    assert xs[k] == x;
    var m := FirstIndex(xs, x);
    assert forall j :: 0 <= j < k ==> xs[j] == xs[..n][j];
  }

  /** The distinct elements, in the order a `Counter` or a dict first sees them. */
  function Distinct<T(==,!new)>(xs: seq<T>): (ks: seq<T>)
    ensures NoDup(ks)
    ensures forall x :: x in ks <==> x in xs
    ensures forall i, j :: 0 <= i < j < |ks| ==> FirstIndex(xs, ks[i]) < FirstIndex(xs, ks[j])
    decreases |xs|
  {
    if |xs| == 0 then []
    else
      var n := |xs| - 1;
      var d := Distinct(xs[..n]);
      assert xs == xs[..n] + [xs[n]];
      assert forall i :: 0 <= i < |d| ==> FirstIndex(xs, d[i]) == FirstIndex(xs[..n], d[i]) by {
        forall i | 0 <= i < |d| ensures FirstIndex(xs, d[i]) == FirstIndex(xs[..n], d[i]) {
          FirstIndexOfPrefix(xs, n, d[i]);
        }
      }
      if xs[n] in d then d
      else
        assert FirstIndex(xs, xs[n]) == n;
        d + [xs[n]]
  }

  // ---------------------------------------------------------------------------
  // Sums

  function SumOf<T>(s: seq<T>, f: T -> real): real {
    if |s| == 0 then 0.0 else f(s[0]) + SumOf(s[1..], f)
  }

  lemma {:induction false} SumOfConcat<T>(a: seq<T>, b: seq<T>, f: T -> real)
    ensures SumOf(a + b, f) == SumOf(a, f) + SumOf(b, f)
  {
    if |a| > 0 {
      SumOfConcat(a[1..], b, f);
      assert (a + b)[1..] == a[1..] + b;
    } else {
      assert a + b == b;
    }
  }

  /** A sum is the same whatever order its terms come in. */
  lemma {:induction false} SumOfPermutation<T>(s: seq<T>, t: seq<T>, f: T -> real)
    requires multiset(s) == multiset(t)
    ensures SumOf(s, f) == SumOf(t, f)
    decreases |s|
  {
    if |s| > 0 {
      assert s[0] in multiset(t);
      var i :| 0 <= i < |t| && t[i] == s[0];
      var rest := t[..i] + t[i + 1..];
      assert t == t[..i] + ([t[i]] + t[i + 1..]);
      SumOfConcat(t[..i], [t[i]] + t[i + 1..], f);
      SumOfConcat(t[..i], t[i + 1..], f);
      assert ([t[i]] + t[i + 1..])[1..] == t[i + 1..];
      assert s == [s[0]] + s[1..];
      assert multiset(t) == multiset(t[..i]) + multiset([t[i]] + t[i + 1..]);
      assert multiset([t[i]] + t[i + 1..]) == multiset{t[i]} + multiset(t[i + 1..]);
      assert multiset(rest) == multiset(t[..i]) + multiset(t[i + 1..]);
      assert multiset(s) == multiset{s[0]} + multiset(s[1..]);
      assert multiset(s[1..]) == multiset(s) - multiset{s[0]};
      assert multiset(rest) == multiset(t) - multiset{t[i]};
      SumOfPermutation(s[1..], rest, f);
    }
  }

  lemma DuplicateCounted<T>(t: seq<T>, i: nat, j: nat)
    requires i < j < |t|
    ensures t[i] == t[j] ==> multiset(t)[t[i]] >= 2
  {
    if t[i] == t[j] {
      assert t == t[..i] + [t[i]] + t[i + 1..j] + [t[j]] + t[j + 1..];
    }
  }

  lemma {:induction false} NoDupCounted<T>(s: seq<T>)
    requires NoDup(s)
    ensures forall x :: multiset(s)[x] <= 1
  {
    if |s| > 0 {
      NoDupCounted(s[1..]);
      assert s == [s[0]] + s[1..];
      assert s[0] !in s[1..];
    }
  }

  /** Reordering a sequence without repeats leaves it without repeats. */
  lemma PermutationKeepsNoDup<T>(s: seq<T>, t: seq<T>)
    requires multiset(s) == multiset(t) && NoDup(s)
    ensures NoDup(t)
  {
    NoDupCounted(s);
    forall i, j | 0 <= i < j < |t| ensures t[i] != t[j] {
      DuplicateCounted(t, i, j);
    }
  }

  // ---------------------------------------------------------------------------
  // Counts and per-key totals

  /** Occurrences of `x`: `Counter(xs)[x]`, `COUNT(*)` of the group. */
  function CountOf<T(==)>(xs: seq<T>, x: T): (n: nat)
    ensures n == multiset(xs)[x]
  {
    if |xs| == 0 then 0
    else
      assert xs == [xs[0]] + xs[1..];
      (if xs[0] == x then 1 else 0) + CountOf(xs[1..], x)
  }

  /** A keyed amount: one row's group key and the value it adds to the group. */
  type Keyed = (string, real)

  function Weight(e: Keyed): real {
    e.1
  }

  /** `SUM(value)` over the rows of one group. */
  function KeyTotal(pairs: seq<Keyed>, k: string): real {
    if |pairs| == 0 then 0.0
    else (if pairs[0].0 == k then pairs[0].1 else 0.0) + KeyTotal(pairs[1..], k)
  }

  function KeysOf<V>(pairs: seq<(string, V)>): (ks: seq<string>)
    ensures |ks| == |pairs|
    ensures forall i :: 0 <= i < |pairs| ==> ks[i] == pairs[i].0
  {
    seq(|pairs|, i requires 0 <= i < |pairs| => pairs[i].0)
  }

  /** One `(key, total)` row per listed key. */
  function TotalsFor(ks: seq<string>, pairs: seq<Keyed>): (gs: seq<Keyed>)
    ensures |gs| == |ks|
    ensures forall i :: 0 <= i < |ks| ==> gs[i] == (ks[i], KeyTotal(pairs, ks[i]))
  {
    if |ks| == 0 then [] else [(ks[0], KeyTotal(pairs, ks[0]))] + TotalsFor(ks[1..], pairs)
  }

  /** The group totals, one per distinct key, in order of first appearance. */
  function GroupTotals(pairs: seq<Keyed>): (gs: seq<Keyed>)
    ensures NoDup(KeysOf(gs))
    ensures forall k :: k in KeysOf(gs) <==> k in KeysOf(pairs)
    ensures forall i :: 0 <= i < |gs| ==> gs[i].1 == KeyTotal(pairs, gs[i].0)
  {
    var ks := Distinct(KeysOf(pairs));
    var gs := TotalsFor(ks, pairs);
    assert KeysOf(gs) == ks;
    gs
  }

  /** One more row adds its value to the total of its own group and nowhere else. */
  lemma {:induction false} TotalsForCons(ks: seq<string>, p: Keyed, rest: seq<Keyed>)
    requires NoDup(ks)
    ensures SumOf(TotalsFor(ks, [p] + rest), Weight)
         == SumOf(TotalsFor(ks, rest), Weight) + (if p.0 in ks then p.1 else 0.0)
  {
    if |ks| > 0 {
      assert ([p] + rest)[1..] == rest;
      assert NoDup(ks[1..]);
      TotalsForCons(ks[1..], p, rest);
      assert p.0 in ks <==> p.0 == ks[0] || p.0 in ks[1..] by {
        assert ks == [ks[0]] + ks[1..];
      }
      assert !(p.0 == ks[0] && p.0 in ks[1..]);
    }
  }

  /** Totals over keys covering every row, each listed once, add up to the grand total. */
  lemma {:induction false} TotalsForPartition(ks: seq<string>, pairs: seq<Keyed>)
    requires NoDup(ks)
    requires forall i :: 0 <= i < |pairs| ==> pairs[i].0 in ks
    ensures SumOf(TotalsFor(ks, pairs), Weight) == SumOf(pairs, Weight)
  {
    if |pairs| == 0 {
      assert forall k :: KeyTotal(pairs, k) == 0.0;
      ZeroTotals(ks, pairs);
    } else {
      assert pairs == [pairs[0]] + pairs[1..];
      TotalsForPartition(ks, pairs[1..]);
      TotalsForCons(ks, pairs[0], pairs[1..]);
    }
  }

  lemma {:induction false} ZeroTotals(ks: seq<string>, pairs: seq<Keyed>)
    requires |pairs| == 0
    ensures SumOf(TotalsFor(ks, pairs), Weight) == 0.0
  {
    if |ks| > 0 {
      ZeroTotals(ks[1..], pairs);
    }
  }

  /** The group totals add up to the sum over all rows. */
  lemma GroupTotalsPartition(pairs: seq<Keyed>)
    ensures SumOf(GroupTotals(pairs), Weight) == SumOf(pairs, Weight)
  {
    var ks := Distinct(KeysOf(pairs));
    assert forall i :: 0 <= i < |pairs| ==> pairs[i].0 in ks by {
      forall i | 0 <= i < |pairs| ensures pairs[i].0 in ks {
        assert KeysOf(pairs)[i] == pairs[i].0;
      }
    }
    TotalsForPartition(ks, pairs);
  }

  /**
   * Reordering rows with distinct keys, as `ORDER BY` does to the groups,
   * keeps the keys distinct and each row as it was.
   */
  lemma ReorderedKeys<V>(gs: seq<(string, V)>, r: seq<(string, V)>)
    requires multiset(r) == multiset(gs) && NoDup(KeysOf(gs))
    ensures NoDup(KeysOf(r))
    ensures forall i :: 0 <= i < |r| ==> r[i] in gs
    ensures forall k :: k in KeysOf(r) <==> k in KeysOf(gs)
  {
    assert NoDup(gs) by {
      forall i, j | 0 <= i < j < |gs| ensures gs[i] != gs[j] {
        assert KeysOf(gs)[i] == gs[i].0 && KeysOf(gs)[j] == gs[j].0;
      }
    }
    PermutationKeepsNoDup(gs, r);
    assert forall x :: x in r <==> x in gs by {
      forall x ensures x in r <==> x in gs {
        assert x in r <==> x in multiset(r);
        assert x in gs <==> x in multiset(gs);
      }
    }
    forall i, j | 0 <= i < j < |r| ensures KeysOf(r)[i] != KeysOf(r)[j] {
      assert r[i] in r && r[j] in r;
      var p :| 0 <= p < |gs| && gs[p] == r[i];
      var q :| 0 <= q < |gs| && gs[q] == r[j];
      assert KeysOf(gs)[p] == r[i].0 && KeysOf(gs)[q] == r[j].0;
    }
    forall k ensures k in KeysOf(r) <==> k in KeysOf(gs) {
      if k in KeysOf(r) {
        var i :| 0 <= i < |r| && KeysOf(r)[i] == k;
        assert r[i] in r;
        var p :| 0 <= p < |gs| && gs[p] == r[i];
        assert KeysOf(gs)[p] == k;
      }
      if k in KeysOf(gs) {
        var p :| 0 <= p < |gs| && KeysOf(gs)[p] == k;
        assert gs[p] in gs;
        var i :| 0 <= i < |r| && r[i] == gs[p];
        assert KeysOf(r)[i] == k;
      }
    }
  }
}

=== FILE: pipeline.dfy ===
/**
 * The two cores put together: text extracted from a receipt becomes a stored
 * row. The upload path is modelled as written, failing wherever the
 * extractor raises, and again with the corrected extractor, which binds the
 * lines of the text before either fallback reads them.
 */
module Pipeline {
  import opened Common
  import opened Text
  import opened Dates
  import opened Extract
  import opened Store

  /**
   * `parse_receipt_text` with `lines = text.splitlines()` bound before the
   * vendor search, as the "total" fallback evidently expects: it never
   * raises, and a labelled vendor no longer stops the fallback.
   */
  function ParseReceiptTextFixed(text: string): (p: Parsed)
    ensures p.date == DateToken(text)
    ensures p.category == CategoryOf(p.vendor)
    ensures p.currency.Some? ==> |p.currency.value| == 1 && IsCurrencySymbol(p.currency.value[0])
    ensures FindAmount(text).Some? ==> p.amount.Some? && p.currency.Some?
    ensures FindLabel(text).Some? ==> p.vendor == LabelledVendor(text)
    ensures FindLabel(text).None? ==> p.vendor == FallbackVendor(SplitLines(text))
    ensures FindAmount(text).Some? ==>
      var i := FindAmount(text).value;
      && p.amount == ParseDecimal(KeepDigitsAndDots(NumberText(text, AmountAt(text, i).value.start)))
      && p.currency == Some([text[i]])
    ensures FindAmount(text).None? ==> (p.amount, p.currency) == TotalFallback(SplitLines(text))
  {
    var lines := SplitLines(text);
    var labelled := LabelledVendor(text);
    var vendor := if labelled.Some? then labelled else FallbackVendor(lines);
    var found := FindAmount(text);
    var fields: (Option<real>, Option<string>) :=
      if found.Some? then CurrencyMatchFields(text, found.value) else TotalFallback(lines);
    Parsed(vendor, DateToken(text), fields.0, CategoryOf(vendor), fields.1)
  }

  /** Wherever the original extractor returns, the corrected one returns the same fields. */
  lemma FixedAgreesWithOriginal(text: string)
    ensures ParseReceiptText(text).Success? ==> ParseReceiptText(text).value == ParseReceiptTextFixed(text)
  {
  }

  /**
   * Where the original raises, the corrected extractor keeps the labelled
   * vendor and reads amount and currency from the first "total" line.
   */
  lemma FixedCoversLabelledTotal(text: string)
    requires ParseReceiptText(text).Failure?
    ensures var p := ParseReceiptTextFixed(text);
            && p.vendor == LabelledVendor(text) && p.vendor.Some?
            && (p.amount, p.currency) == TotalFallback(SplitLines(text))
  {
  }

  lemma StoreLabelFound()
    ensures FindLabel("Store:A").Some?
  {
    var t := "Store:A";
    assert t[0] == 'S' && t[1] == 't' && t[2] == 'o' && t[3] == 'r' && t[4] == 'e' && t[5] == ':' && t[6] == 'A';
    assert Lower(t[0..5]) == "store";
    assert LabelParse(t, 0, "store", 5, 6, 7);
    FindLabelLeftmost(t, 0, "store", 5, 6, 7);
  }

  lemma StoreLabelUnpriced()
    ensures FindAmount("Store:A").None?
  {
    var t := "Store:A";
    forall i: nat ensures AmountAt(t, i).None? {
      if i < |t| {
        assert !IsCurrencySymbol(t[i]);
      }
    }
  }

  /** The smallest text the original rejects: a label and nothing priced. */
  lemma OriginalRaisesOnLabelWithoutPrice()
    ensures ParseReceiptText("Store:A").Failure?
  {
    StoreLabelFound();
    StoreLabelUnpriced();
  }

  // ---------------------------------------------------------------------------
  // Upload: extract, then create

  /**
   * The upload path as written: `parse_receipt_text` runs outside any
   * handler, so where it raises the request fails and the table is left as
   * it was; otherwise the extracted fields are stored as a new row.
   */
  function Ingest(rows: Table, filename: string, contentType: string, savedPath: string,
                  text: string, today: Date): (res: Result<(Table, Receipt), ParseError>)
    ensures res.Failure? <==> FindLabel(text).Some? && FindAmount(text).None?
    ensures res.Success? ==> res.value == IngestFixed(rows, filename, contentType, savedPath, text, today)
  {
    match ParseReceiptText(text)
    case Failure(e) => Failure(e)
    case Success(p) =>
      FixedAgreesWithOriginal(text);
      Success(Create(rows, filename, contentType, savedPath, p, today))
  }

  /** Uploading the text `Store:A` fails and stores nothing. */
  lemma IngestFailsOnLabelWithoutPrice(rows: Table, filename: string, contentType: string, savedPath: string,
                                       today: Date)
    ensures Ingest(rows, filename, contentType, savedPath, "Store:A", today).Failure?
  {
    OriginalRaisesOnLabelWithoutPrice();
  }

  /** The upload path with the corrected extractor: it always stores a row. */
  function IngestFixed(rows: Table, filename: string, contentType: string, savedPath: string,
                       text: string, today: Date): (res: (Table, Receipt))
    ensures res.0 == rows + [res.1] && !HasId(rows, res.1.id)
    ensures ValidTable(rows) ==> ValidTable(res.0)
    ensures res.1.transactionDate == NormalizeDate(DateToken(text))
    ensures res.1.vendor == ParseReceiptTextFixed(text).vendor
    ensures res.1.amount == ParseReceiptTextFixed(text).amount
    ensures res.1.category == ParseReceiptTextFixed(text).category
    ensures res.1.currency == ParseReceiptTextFixed(text).currency
    ensures res.1.filename == filename && res.1.contentType == contentType && res.1.savedPath == savedPath
    ensures res.1.createdAt == Some(today)
  {
    Create(rows, filename, contentType, savedPath, ParseReceiptTextFixed(text), today)
  }

  /** A stored transaction date is always a real calendar date. */
  lemma IngestedDateIsValid(rows: Table, filename: string, contentType: string, savedPath: string,
                            text: string, today: Date)
    ensures var r := IngestFixed(rows, filename, contentType, savedPath, text, today).1;
            r.transactionDate.Some? ==> ValidDate(r.transactionDate.value)
  {
  }

  /**
   * A date printed as `YYYY-MM-DD` as the leftmost date-shaped token of the
   * text is stored as that date.
   */
  lemma IngestKeepsIsoDate(rows: Table, filename: string, contentType: string, savedPath: string,
                           text: string, today: Date, d: Date)
    requires ValidDate(d) && DateToken(text) == Some(FormatIso(d))
    ensures IngestFixed(rows, filename, contentType, savedPath, text, today).1.transactionDate == Some(d)
  {
    NormalizeIsoRoundTrip(d);
  }

  /** Likewise for a date printed as `MM/DD/YYYY`. */
  lemma IngestKeepsUsDate(rows: Table, filename: string, contentType: string, savedPath: string,
                          text: string, today: Date, d: Date)
    requires ValidDate(d) && DateToken(text) == Some(FormatUs(d))
    ensures IngestFixed(rows, filename, contentType, savedPath, text, today).1.transactionDate == Some(d)
  {
    NormalizeUsRoundTrip(d);
  }

  /** A text without a date-shaped token is stored without a date. */
  lemma IngestWithoutDateToken(rows: Table, filename: string, contentType: string, savedPath: string,
                               text: string, today: Date)
    requires forall i: nat :: !DateShapeAt(text, i)
    ensures IngestFixed(rows, filename, contentType, savedPath, text, today).1.transactionDate == None
  {
  }

  /** An ingested receipt is read back unchanged by its id. */
  lemma IngestThenGet(rows: Table, filename: string, contentType: string, savedPath: string,
                      text: string, today: Date)
    ensures var res := IngestFixed(rows, filename, contentType, savedPath, text, today);
            Get(res.0, res.1.id) == Some(res.1)
  {
    CreateThenGet(rows, filename, contentType, savedPath, ParseReceiptTextFixed(text), today);
  }
}

=== FILE: query.dfy ===
/**
 * `search_receipts` and `sort_receipts`: the filtered and the ordered views
 * of the table, each cut to a page with `OFFSET`/`LIMIT`.
 */
module Query {
  import opened Common
  import opened Text
  import opened Dates
  import opened Sql
  import opened Sorting
  import opened Store

  // ---------------------------------------------------------------------------
  // search_receipts

  /**
   * The optional arguments of a search. A keyword or vendor pattern that is
   * absent or empty filters nothing; an amount bound filters whenever it is
   * present, even when it is zero; a date bound filters whenever present.
   */
  datatype Criteria = Criteria(
    keyword: Option<string>,
    minAmount: Option<real>,
    maxAmount: Option<real>,
    startDate: Option<Date>,
    endDate: Option<Date>,
    vendorPattern: Option<string>)

  const NoCriteria := Criteria(None, None, None, None, None, None)

  /** Python truthiness of an optional string argument. */
  predicate Given(s: Option<string>) {
    s.Some? && |s.value| > 0
  }

  /** The `%kw%` pattern the code builds from a lower-cased keyword. */
  function Surround(kw: string): string {
    "%" + Lower(kw) + "%"
  }

  /** `lower(col) LIKE pattern`, where a NULL column never matches. */
  predicate ColumnLike(col: Option<string>, pattern: string) {
    col.Some? && Like(Lower(col.value), pattern)
  }

  /** The keyword filter: filename, vendor or category contains the keyword. */
  predicate KeywordMatch(r: Receipt, kw: string) {
    || ColumnLike(Some(r.filename), Surround(kw))
    || ColumnLike(r.vendor, Surround(kw))
    || ColumnLike(r.category, Surround(kw))
  }

  /** `amount >= lo`; a NULL amount compares to nothing. */
  predicate AmountAtLeast(r: Receipt, lo: real) {
    r.amount.Some? && r.amount.value >= lo
  }

  predicate AmountAtMost(r: Receipt, hi: real) {
    r.amount.Some? && r.amount.value <= hi
  }

  predicate DateFrom(r: Receipt, start: Date) {
    r.transactionDate.Some? && DateLe(start, r.transactionDate.value)
  }

  predicate DateUntil(r: Receipt, end: Date) {
    r.transactionDate.Some? && DateLe(r.transactionDate.value, end)
  }

  /** A row passes every filter the criteria switch on. */
  predicate Matches(c: Criteria, r: Receipt) {
    && (Given(c.keyword) ==> KeywordMatch(r, c.keyword.value))
    && (c.minAmount.Some? ==> AmountAtLeast(r, c.minAmount.value))
    && (c.maxAmount.Some? ==> AmountAtMost(r, c.maxAmount.value))
    && (c.startDate.Some? ==> DateFrom(r, c.startDate.value))
    && (c.endDate.Some? ==> DateUntil(r, c.endDate.value))
    && (Given(c.vendorPattern) ==> ColumnLike(r.vendor, Surround(c.vendorPattern.value)))
  }

  /** The first row of a valid table comes before any selection of the others. */
  lemma HeadKeepsValid(rows: Table, rest: Table)
    requires |rows| > 0 && forall x :: x in rest ==> x in rows[1..]
    requires ValidTable(rows) ==> ValidTable(rest)
    ensures ValidTable(rows) ==> ValidTable([rows[0]] + rest)
  {
    if ValidTable(rows) {
      forall k | 0 <= k < |rest| ensures rows[0].id < rest[k].id {
        assert rest[k] in rows[1..];
        var m :| 0 <= m < |rows[1..]| && rows[1..][m] == rest[k];
        assert rows[m + 1] == rest[k];
      }
      var t := [rows[0]] + rest;
      forall i, j | 0 <= i < j < |t| ensures t[i].id < t[j].id {
        if i > 0 {
          assert t[i] == rest[i - 1] && t[j] == rest[j - 1];
        }
      }
    }
  }

  /** The matching rows in table order. */
  function Select(rows: Table, c: Criteria): (r: Table)
    ensures |r| <= |rows|
    ensures forall x :: x in r <==> x in rows && Matches(c, x)
    ensures ValidTable(rows) ==> ValidTable(r)
  {
    if |rows| == 0 then []
    else
      var rest := Select(rows[1..], c);
      assert forall x :: x in rows <==> x == rows[0] || x in rows[1..] by {
        assert rows == [rows[0]] + rows[1..];
      }
      if Matches(c, rows[0]) then
        HeadKeepsValid(rows, rest);
        [rows[0]] + rest
      else rest
  }

  /**
   * `search_receipts`: a page of the matching rows, in table order, cut out
   * of them as `OFFSET skip LIMIT limit` cuts.
   */
  function Search(rows: Table, c: Criteria, skip: int, limit: int): (r: Table)
    ensures |r| == PageLength(|Select(rows, c)|, skip, limit)
    ensures forall k :: 0 <= k < |r| ==>
              Max0(skip) + k < |Select(rows, c)| && r[k] == Select(rows, c)[Max0(skip) + k]
    ensures |r| <= |rows| && (limit >= 0 ==> |r| <= limit)
    ensures forall x :: x in r ==> x in rows && Matches(c, x)
    ensures skip <= 0 && limit < 0 ==> forall x :: x in r <==> x in rows && Matches(c, x)
    ensures ValidTable(rows) ==> ValidTable(r)
  {
    var s := Select(rows, c);
    var r := Window(s, skip, limit);
    assert forall k :: 0 <= k < |r| ==> r[k] == s[Max0(skip) + k];
    r
  }

  /** Without criteria the search is the plain listing. */
  lemma {:induction false} SelectNothing(rows: Table)
    ensures Select(rows, NoCriteria) == rows
  {
    if |rows| > 0 {
      SelectNothing(rows[1..]);
      assert rows == [rows[0]] + rows[1..];
    }
  }

  /** Reading one page of results and then the next gives the results of the combined page. */
  lemma SearchPages(rows: Table, c: Criteria, skip: nat, n: nat, m: int)
    ensures Search(rows, c, skip, n) + Search(rows, c, skip + n, m)
         == Search(rows, c, skip, if m < 0 then -1 else n + m)
  {
    WindowPages(Select(rows, c), skip, n, m);
  }

  lemma SearchNoCriteria(rows: Table, skip: int, limit: int)
    ensures Search(rows, NoCriteria, skip, limit) == List(rows, skip, limit)
  {
    SelectNothing(rows);
  }

  lemma LowerLower(s: string)
    ensures Lower(Lower(s)) == Lower(s)
  {
  }

  /**
   * A keyword without `%` or `_` matches a column exactly when the column
   * contains it, ignoring ASCII case.
   */
  lemma ColumnLikeContains(col: Option<string>, kw: string)
    requires NoWildcards(kw)
    ensures ColumnLike(col, Surround(kw)) <==> col.Some? && Contains(Lower(col.value), Lower(kw))
  {
    if col.Some? {
      assert NoWildcards(Lower(kw));
      LikeContains(Lower(col.value), Lower(kw));
      LowerLower(col.value);
      LowerLower(kw);
      assert Surround(kw) == "%" + Lower(kw) + "%";
    }
  }

  /** The keyword filter is a case-insensitive substring test on the three text columns. */
  lemma KeywordMatchContains(r: Receipt, kw: string)
    requires NoWildcards(kw)
    ensures KeywordMatch(r, kw) <==>
              || Contains(Lower(r.filename), Lower(kw))
              || (r.vendor.Some? && Contains(Lower(r.vendor.value), Lower(kw)))
              || (r.category.Some? && Contains(Lower(r.category.value), Lower(kw)))
  {
    ColumnLikeContains(Some(r.filename), kw);
    ColumnLikeContains(r.vendor, kw);
    ColumnLikeContains(r.category, kw);
  }

  /**
   * Wildcards in the keyword are not escaped: the keyword `_` matches every
   * row, since the filename column is never empty in practice and at least
   * one character long here.
   */
  lemma UnderscoreKeywordMatchesAll(r: Receipt)
    requires |r.filename| > 0
    ensures KeywordMatch(r, "_")
  {
    assert Lower("_") == "_";
    assert Surround("_") == "%_%";
    UnderscoreMatchesAnyText(Lower(r.filename));
  }

  // ---------------------------------------------------------------------------
  // sort_receipts

  /** The column `sort_by` selects; every other value falls back to the id. */
  datatype SortKey = ByAmount | ByDate | ByVendor | ById

  function SortKeyOf(sortBy: string): SortKey {
    if sortBy == "amount" then ByAmount
    else if sortBy == "date" then ByDate
    else if sortBy == "vendor" then ByVendor
    else ById
  }

  /** A NULL sorts before every value, as in SQLite. */
  predicate NullFirstLe<T>(a: Option<T>, b: Option<T>, le: (T, T) -> bool) {
    a.None? || (b.Some? && le(a.value, b.value))
  }

  /** Ascending order on the chosen column. */
  predicate AscLe(key: SortKey, a: Receipt, b: Receipt) {
    match key
    case ByAmount => NullFirstLe(a.amount, b.amount, RealLe)
    case ByDate => NullFirstLe(a.transactionDate, b.transactionDate, DateLe)
    case ByVendor => NullFirstLe(a.vendor, b.vendor, LexLe)
    case ById => a.id <= b.id
  }

  /**
   * The `ORDER BY` the code issues: `desc` reverses the three named columns;
   * the id fallback is always ascending, whatever the order argument says.
   */
  function OrderOf(key: SortKey, descending: bool): (Receipt, Receipt) -> bool {
    if descending && key != ById then (a: Receipt, b: Receipt) => AscLe(key, b, a)
    else (a: Receipt, b: Receipt) => AscLe(key, a, b)
  }

  lemma AscLeTotal(key: SortKey, a: Receipt, b: Receipt, c: Receipt)
    ensures AscLe(key, a, b) || AscLe(key, b, a)
    ensures AscLe(key, a, b) && AscLe(key, b, c) ==> AscLe(key, a, c)
  {
    if key == ByVendor && a.vendor.Some? && b.vendor.Some? {
      LexLeTotal(a.vendor.value, b.vendor.value);
      if c.vendor.Some? && AscLe(key, a, b) && AscLe(key, b, c) {
        LexLeTransitive(a.vendor.value, b.vendor.value, c.vendor.value);
      }
    }
  }

  lemma OrderIsPreorder(key: SortKey, descending: bool)
    ensures TotalPreorder(OrderOf(key, descending))
  {
    var le := OrderOf(key, descending);
    forall a, b ensures le(a, b) || le(b, a) {
      AscLeTotal(key, a, b, a);
    }
    forall a, b, c | le(a, b) && le(b, c) ensures le(a, c) {
      if descending && key != ById {
        AscLeTotal(key, c, b, a);
      } else {
        AscLeTotal(key, a, b, c);
      }
    }
  }

  /** Every row, in the order the chosen column and direction ask for. */
  function SortedRows(rows: Table, key: SortKey, descending: bool): (s: Table)
    ensures SortedBy(s, OrderOf(key, descending))
    ensures multiset(s) == multiset(rows) && |s| == |rows|
  {
    OrderIsPreorder(key, descending);
    SortBy(rows, OrderOf(key, descending))
  }

  /**
   * `sort_receipts`: every row ordered by the chosen column, then the page
   * `OFFSET skip LIMIT limit` of that order.
   */
  function Sort(rows: Table, sortBy: string, sortOrder: string, skip: int, limit: int): (r: Table)
    ensures var s := SortedRows(rows, SortKeyOf(sortBy), sortOrder == "desc");
            && |r| == PageLength(|s|, skip, limit)
            && forall k :: 0 <= k < |r| ==> Max0(skip) + k < |s| && r[k] == s[Max0(skip) + k]
    ensures |r| <= |rows| && (limit >= 0 ==> |r| <= limit)
    ensures SortedBy(r, OrderOf(SortKeyOf(sortBy), sortOrder == "desc"))
    ensures forall x :: x in r ==> x in rows
    ensures skip <= 0 && limit < 0 ==> multiset(r) == multiset(rows)
  {
    var s := SortedRows(rows, SortKeyOf(sortBy), sortOrder == "desc");
    PageOfSorted(rows, s, OrderOf(SortKeyOf(sortBy), sortOrder == "desc"), skip, limit);
    Window(s, skip, limit)
  }

  /** A page of a sorted rearrangement of the rows is sorted and holds only rows. */
  lemma PageOfSorted(rows: Table, s: Table, le: (Receipt, Receipt) -> bool, skip: int, limit: int)
    requires SortedBy(s, le) && multiset(s) == multiset(rows)
    ensures SortedBy(Window(s, skip, limit), le)
    ensures forall x :: x in Window(s, skip, limit) ==> x in rows
    ensures skip <= 0 && limit < 0 ==> multiset(Window(s, skip, limit)) == multiset(rows)
  {
    WindowOfSorted(s, le, skip, limit);
    assert forall x :: x in s ==> x in multiset(rows);
  }

  /** A page of a sorted sequence is sorted and holds only its elements. */
  lemma WindowOfSorted<T>(s: seq<T>, le: (T, T) -> bool, skip: int, limit: int)
    requires SortedBy(s, le)
    ensures SortedBy(Window(s, skip, limit), le)
    ensures forall x :: x in Window(s, skip, limit) ==> x in s
    ensures skip <= 0 && limit < 0 ==> Window(s, skip, limit) == s
  {
    var r := Window(s, skip, limit);
    assert forall k :: 0 <= k < |r| ==> r[k] == s[Max0(skip) + k];
  }

  /** Whether the chosen column of the row is NULL. */
  predicate KeyIsNull(key: SortKey, r: Receipt) {
    match key
    case ByAmount => r.amount.None?
    case ByDate => r.transactionDate.None?
    case ByVendor => r.vendor.None?
    case ById => false
  }

  /** Ascending: rows with a NULL in the column come first. */
  lemma SortAscNullsFirst(rows: Table, sortBy: string, sortOrder: string, skip: int, limit: int)
    requires sortOrder != "desc"
    ensures var r := Sort(rows, sortBy, sortOrder, skip, limit);
            forall i, j :: 0 <= i < j < |r| && KeyIsNull(SortKeyOf(sortBy), r[j]) ==> KeyIsNull(SortKeyOf(sortBy), r[i])
  {
  }

  /** Descending: rows with a NULL in the column come last. */
  lemma SortDescNullsLast(rows: Table, sortBy: string, skip: int, limit: int)
    ensures var r := Sort(rows, sortBy, "desc", skip, limit);
            forall i, j :: 0 <= i < j < |r| && KeyIsNull(SortKeyOf(sortBy), r[i]) ==> KeyIsNull(SortKeyOf(sortBy), r[j])
  {
  }

  /** Sorting by amount puts the present amounts in non-decreasing (or, with `desc`, non-increasing) order. */
  lemma SortByAmountOrdersAmounts(rows: Table, sortOrder: string, skip: int, limit: int)
    ensures var r := Sort(rows, "amount", sortOrder, skip, limit);
            forall i, j :: 0 <= i < j < |r| && r[i].amount.Some? && r[j].amount.Some? ==>
              if sortOrder == "desc" then r[i].amount.value >= r[j].amount.value
              else r[i].amount.value <= r[j].amount.value
  {
  }

  /**
   * An unrecognised `sort_by` orders by id, ascending whatever the order
   * argument, which in a valid table is the plain listing.
   */
  lemma SortFallbackIsListing(rows: Table, sortBy: string, sortOrder: string, skip: int, limit: int)
    requires ValidTable(rows)
    requires SortKeyOf(sortBy) == ById
    ensures Sort(rows, sortBy, sortOrder, skip, limit) == List(rows, skip, limit)
  {
    var le := OrderOf(ById, sortOrder == "desc");
    OrderIsPreorder(ById, sortOrder == "desc");
    assert SortedBy(rows, le);
    SortBySorted(rows, le);
  }
}

=== FILE: samples.dfy ===
/**
 * Worked examples, each computed against the model: date normalisation, the
 * extraction of one receipt text, a total, the statistics of four amounts,
 * and an amount-range search.
 */
module Samples {
  import opened Common
  import opened Text
  import opened Dates
  import opened Sorting
  import opened Grouping
  import opened Extract
  import opened Store
  import opened Query
  import opened Aggregate

  // ---------------------------------------------------------------------------
  // Date normalisation

  lemma TwoDigits(s: string)
    requires |s| == 2 && AllDigits(s)
    ensures DigitsValue(s) == DigitValue(s[0]) * 10 + DigitValue(s[1])
  {
    assert s[..1][..0] == [];
    assert DigitsValue(s[..1]) == DigitValue(s[0]);
  }

  lemma FourDigits(s: string)
    requires |s| == 4 && AllDigits(s)
    ensures DigitsValue(s) == DigitsValue(s[..2]) * 100 + DigitValue(s[2]) * 10 + DigitValue(s[3])
  {
    assert s[..3][..2] == s[..2];
    assert DigitsValue(s[..3]) == DigitsValue(s[..2]) * 10 + DigitValue(s[2]);
  }

  lemma Digits2024()
    ensures PadDigits(2024, 4) == "2024"
  {
    var s := "2024";
    assert AllDigits(s);
    FourDigits(s);
    assert s[..2] == "20";
    TwoDigits("20");
    assert DigitsValue(s) == 2024;
    PadDigitsValue(s);
  }

  lemma DigitsPair(s: string, v: nat)
    requires |s| == 2 && AllDigits(s) && v == DigitValue(s[0]) * 10 + DigitValue(s[1])
    ensures PadDigits(v, 2) == s
  {
    TwoDigits(s);
    PadDigitsValue(s);
  }

  lemma DatePieces()
    ensures PadDigits(3, 2) == "03" && PadDigits(5, 2) == "05" && PadDigits(2024, 4) == "2024"
  {
    Digits2024();
    DigitsPair("03", 3);
    DigitsPair("05", 5);
  }

  lemma IsoLiteral()
    ensures "2024-03-05" == "2024" + "-" + "03" + "-" + "05"
  {
  }

  lemma UsLiteral()
    ensures "03/05/2024" == "03" + "/" + "05" + "/" + "2024"
  {
  }

  lemma IsoText()
    ensures FormatIso(Date(2024, 3, 5)) == "2024-03-05"
  {
    DatePieces();
    IsoLiteral();
  }

  /** "2024-03-05" is March 5, 2024. */
  lemma NormalizeIsoSample()
    ensures NormalizeDate(Some("2024-03-05")) == Some(Date(2024, 3, 5))
  {
    IsoText();
    NormalizeIsoRoundTrip(Date(2024, 3, 5));
  }

  lemma UsText()
    ensures FormatUs(Date(2024, 3, 5)) == "03/05/2024"
  {
    DatePieces();
    UsLiteral();
  }

  /** "03/05/2024" is read month first: March 5, 2024. */
  lemma NormalizeUsSample()
    ensures NormalizeDate(Some("03/05/2024")) == Some(Date(2024, 3, 5))
  {
    UsText();
    NormalizeUsRoundTrip(Date(2024, 3, 5));
  }

  lemma BadIsoLiteral()
    ensures "2024-13-40" == "2024" + ['-'] + "13" + ['-'] + "40"
  {
  }

  lemma Split2024()
    ensures SplitOn("2024-13-40", '-') == ["2024", "13", "40"]
  {
    BadIsoLiteral();
    SplitThree("2024", "13", "40", '-');
  }

  lemma Month13()
    ensures MonthField("13") == None
  {
    var f := "13";
    assert AllDigits(f);
    TwoDigits(f);
    assert DigitsValue(f) == 13;
  }

  lemma Month13Rejected()
    ensures StrptimeYmd("2024-13-40") == None
  {
    var ps := SplitOn("2024-13-40", '-');
    Split2024();
    assert |ps| == 3 && ps[1] == "13";
    Month13();
    assert MonthField(ps[1]) == None;
  }

  lemma ShortUsLiteral()
    ensures "1/5/2024" == "1" + "/" + "5" + "/" + "2024"
  {
  }

  lemma OneDigitPrints()
    ensures PadDigits(1, 1) == "1" && PadDigits(5, 1) == "5"
  {
    assert PadDigits(1, 1) == [DigitChar(1)];
    assert PadDigits(5, 1) == [DigitChar(5)];
  }

  /** "1/5/2024", without zero padding, is January 5, 2024. */
  lemma NormalizeShortUsSample()
    ensures NormalizeDate(Some("1/5/2024")) == Some(Date(2024, 1, 5))
  {
    ShortUsLiteral();
    OneDigitPrints();
    Digits2024();
    NormalizeAcceptsMdy(Date(2024, 1, 5), "2024", "1", "5");
  }

  lemma SlashYearFirstLiteral()
    ensures "2024/03/05" == "2024" + ['/'] + "03" + ['/'] + "05"
  {
  }

  lemma SlashYearFirstFields()
    ensures SplitOn("2024/03/05", '/') == ["2024", "03", "05"]
  {
    SlashYearFirstLiteral();
    SplitThree("2024", "03", "05", '/');
  }

  /** With slashes the month comes first, so "2024/03/05" is no date. */
  lemma NormalizeRejectsYearFirstSlashes()
    ensures NormalizeDate(Some("2024/03/05")) == None
  {
    YearFirstSlashesUnread();
    YearFirstSlashesSeparators();
  }

  lemma YearFirstSlashesUnread()
    ensures StrptimeMdy("2024/03/05") == None
  {
    SlashYearFirstFields();
    assert MonthField("2024") == None;
  }

  lemma YearFirstSlashesSeparators()
    ensures '-' !in "2024/03/05" && '/' in "2024/03/05"
  {
    var t := "2024/03/05";
    assert t[4] == '/';
    assert forall k :: 0 <= k < |t| ==> t[k] != '-';
  }

  /** A month of 13 is rejected, not carried over into the next year. */
  lemma NormalizeRejectsMonth13()
    ensures NormalizeDate(Some("2024-13-40")) == None
  {
    Month13Rejected();
    assert "2024-13-40"[4] == '-';
  }

  /** A token with neither separator gives no date. */
  lemma NormalizeRejectsGarbage()
    ensures NormalizeDate(Some("garbage")) == None
  {
    var t := "garbage";
    assert '-' !in t && '/' !in t;
  }

  // ---------------------------------------------------------------------------
  // Extraction of one receipt text

  /** Three lines: a vendor label, a dollar total and an ISO date. */
  const T: string := "Vendor: Walmart\nTotal: $45.67\n2024-01-15"

  lemma LengthOfT()
    ensures |T| == 40
  {
  }

  lemma WorkedCategory()
    ensures CategoryOf(Some("Walmart")) == Some("Groceries")
  {
    var v := "walmart";
    assert Lower("Walmart") == v;
    assert OccursAt(v, "mart", 3);
    assert "mart" in GroceryWords && Contains(v, "mart");
    assert !MentionsAny(v, UtilityWords) by {
      forall w | w in UtilityWords ensures !Contains(v, w) {
        if w == "power" {
          forall i: nat ensures !OccursAt(v, w, i) {
            if i + 5 <= 7 { assert v[i..i + 5][0] == v[i] != 'p'; }
          }
        } else if w == "energy" {
          forall i: nat ensures !OccursAt(v, w, i) {
            if i + 6 <= 7 { assert v[i..i + 6][0] == v[i] != 'e'; }
          }
        }
      }
    }
  }

  lemma NoDateBefore30(j: nat)
    requires j < 30
    ensures !DateShapeAt(T, j)
  {
    assert !IsDigit(T[j]) || !IsDigit(T[j + 1]) || (!IsDigit(T[j + 2]) && !IsDateSep(T[j + 2]));
  }

  lemma DateSlice()
    ensures T[30..40] == "2024-01-15"
  {
    LengthOfT();
    assert T[30] == '2' && T[31] == '0' && T[32] == '2' && T[33] == '4' && T[34] == '-';
    assert T[35] == '0' && T[36] == '1' && T[37] == '-' && T[38] == '1' && T[39] == '5';
    var d := T[30..40];
    assert d[0] == '2' && d[1] == '0' && d[2] == '2' && d[3] == '4' && d[4] == '-';
    assert d[5] == '0' && d[6] == '1' && d[7] == '-' && d[8] == '1' && d[9] == '5';
  }

  lemma DateAt30()
    ensures DateShapeAt(T, 30) && T[30..40] == "2024-01-15"
  {
    LengthOfT();
    assert DigitsIn(T, 30, 34) && IsDateSep(T[34]) && DigitsIn(T, 35, 37);
    assert IsDateSep(T[37]) && DigitsIn(T, 38, 40);
    DateSlice();
  }

  lemma WorkedDate()
    ensures DateToken(T) == Some("2024-01-15")
  {
    forall j: nat | j < 30 ensures !DateShapeAt(T, j) {
      NoDateBefore30(j);
    }
    DateAt30();
    var r := DateToken(T);
    var i: nat :| DateShapeAt(T, i) && r.value == T[i..i + 10] && forall j: nat :: j < i ==> !DateShapeAt(T, j);
    assert i == 30;
  }

  lemma VendorWord()
    ensures LabelWordAt(T, 0) == Some("vendor")
  {
    assert T[0] == 'V' && T[1] == 'e' && T[2] == 'n' && T[3] == 'd' && T[4] == 'o' && T[5] == 'r';
    var w := T[0..6];
    assert w[0] == 'V' && w[1] == 'e' && w[2] == 'n' && w[3] == 'd' && w[4] == 'o' && w[5] == 'r';
    assert Lower(w) == "vendor";
  }

  lemma ColonThenSpace()
    ensures SpaceEnd(T, 6) == 6 && T[6] == ':' && SpaceEnd(T, 7) == 8
  {
    assert !IsSpace(T[6]) && IsSpace(T[7]) && !IsSpace(T[8]);
  }

  lemma WalmartLineEnd()
    ensures LineEnd(T, 8) == 15
  {
    assert T[15] == '\n';
    assert LineEnd(T, 14) == 15;
    assert LineEnd(T, 12) == 15;
    assert LineEnd(T, 10) == 15;
  }

  lemma LabelSpan()
    ensures LabelAt(T, 0) == Some(Span(8, 15))
  {
    VendorWord();
    ColonThenSpace();
    WalmartLineEnd();
  }

  lemma StripWalmart()
    ensures Strip("Walmart") == "Walmart"
  {
    var s := "Walmart";
    assert !IsSpace(s[0]);
    assert TrimStart(s) == s;
    assert !IsSpace(s[6]);
    assert TrimEnd(s) == s;
  }

  lemma LabelAtZero()
    ensures FindLabel(T) == Some(0)
  {
    LabelSpan();
  }

  lemma WalmartText()
    ensures T[8..15] == "Walmart"
  {
    assert T[8] == 'W' && T[9] == 'a' && T[10] == 'l' && T[11] == 'm' && T[12] == 'a' && T[13] == 'r' && T[14] == 't';
    var w := T[8..15];
    assert w[0] == 'W' && w[1] == 'a' && w[2] == 'l' && w[3] == 'm' && w[4] == 'a' && w[5] == 'r' && w[6] == 't';
  }

  lemma WorkedLabel()
    ensures LabelledVendor(T) == Some("Walmart")
  {
    LabelSpan();
    LabelAtZero();
    WalmartText();
    StripWalmart();
  }

  lemma AmountDigits()
    ensures DigitEnd(T, 24) == 26 && IsNumberSep(T[26]) && DigitEnd(T, 27) == 29
  {
    LengthOfT();
    assert IsDigit(T[24]) && IsDigit(T[25]) && !IsDigit(T[26]) && IsNumberSep(T[26]);
    assert IsDigit(T[27]) && IsDigit(T[28]) && !IsDigit(T[29]);
  }

  lemma AmountSpan()
    ensures AmountAt(T, 23) == Some(Span(24, 29))
  {
    LengthOfT();
    assert IsCurrencySymbol(T[23]) && !IsSpace(T[24]);
    AmountDigits();
  }

  lemma AmountAtPosition()
    ensures FindAmount(T) == Some(23)
  {
    AmountSpan();
    forall j: nat | j < 23 ensures AmountAt(T, j).None? {
      NoSymbolBefore23(j);
    }
  }

  lemma NoSymbolBefore23(j: nat)
    requires j < 23
    ensures !IsCurrencySymbol(T[j])
  {
    LengthOfT();
  }

  lemma ParseAmountText()
    ensures ParseDecimal("45.67") == Some(45.67)
  {
    var s := "45.67";
    assert s == "45" + ['.'] + "67";
    SplitOnCons("45", '.', "67");
    SplitOnNone("67", '.');
    TwoDigits("45");
    TwoDigits("67");
    assert Pow10(2) == 100;
  }

  lemma AmountSlice()
    ensures T[24..29] == "45.67" && T[23] == '$'
  {
    assert T[23] == '$' && T[24] == '4' && T[25] == '5' && T[26] == '.' && T[27] == '6' && T[28] == '7';
    var a := T[24..29];
    assert a[0] == '4' && a[1] == '5' && a[2] == '.' && a[3] == '6' && a[4] == '7';
  }

  lemma AmountTexts()
    ensures NumberText(T, 24) == "45.67" && T[23] == '$'
  {
    AmountSpan();
    AmountSlice();
  }

  lemma KeepAmountText()
    ensures KeepDigitsAndDots("45.67") == "45.67"
  {
    FilterAll("45.67", IsDigitOrDot);
  }

  lemma AmountFieldsValue()
    ensures CurrencyMatchFields(T, 23) == (Some(45.67), Some("$"))
  {
    AmountSpan();
    AmountTexts();
    KeepAmountText();
    ParseAmountText();
  }

  /** The worked example: a labelled grocery receipt with a dollar total and an ISO date. */
  lemma WorkedExample()
    ensures ParseReceiptText(T)
         == Success(Parsed(Some("Walmart"), Some("2024-01-15"), Some(45.67), Some("Groceries"), Some("$")))
  {
    WorkedLabel();
    AmountAtPosition();
    AmountFieldsValue();
    WorkedDate();
    WorkedCategory();
  }

  /** A text of one blank line yields no field at all. */
  lemma BlankLineSample()
    ensures ParseReceiptText("   \n") == Success(Parsed(None, None, None, None, None))
  {
    BlankTextParsesToNothing("   \n");
  }

  // ---------------------------------------------------------------------------
  // Queries and aggregates

  function Row(id: nat, amount: Option<real>): Receipt {
    Receipt(id, "r.png", "image/png", "uploads/r.png", None, None, amount, None, None, None)
  }

  /** Missing amounts count as nothing in the total. */
  lemma TotalSpendSample()
    ensures TotalSpend([Row(1, Some(10.0)), Row(2, None), Row(3, Some(20.0)), Row(4, Some(30.0))]) == 60.0
  {
  }

  const Four: seq<real> := [10.0, 20.0, 30.0, 30.0]

  lemma MeanSample()
    ensures Mean(Four) == 22.5
  {
    assert SumOf(Four, Value) == 90.0;
  }

  lemma FourSorted()
    ensures SortBy(Four, RealLe) == Four
  {
    forall i, j | 0 <= i < j < |Four| ensures RealLe(Four[i], Four[j]) {
    }
    SortBySorted(Four, RealLe);
  }

  lemma MedianSample()
    ensures Median(Four) == 25.0
  {
    FourSorted();
  }

  lemma FourCounts()
    ensures CountOf(Four, 30.0) == 2
    ensures CountOf(Four, 10.0) == 1 && CountOf(Four, 20.0) == 1
  {
    assert multiset(Four) == multiset{10.0, 20.0, 30.0, 30.0};
  }

  lemma ModeSample()
    ensures Mode(Four) == 30.0
  {
    var m := Mode(Four);
    assert m in Four;
    FourCounts();
    assert CountOf(Four, m) >= 2;
  }

  /** Four rows holding the amounts 10, 20, 30 and 30. */
  const StatRows: Table := [Row(1, Some(10.0)), Row(2, Some(20.0)), Row(3, Some(30.0)), Row(4, Some(30.0))]

  lemma StatAmounts()
    ensures Amounts(StatRows) == Four
  {
  }

  /** Mean, median and mode of 10, 20, 30, 30. */
  lemma StatisticsSample()
    ensures SpendStatistics(StatRows) == Stats(Some(22.5), Some(25.0), Some(30.0))
  {
    StatAmounts();
    MeanSample();
    MedianSample();
    ModeSample();
  }

  /** Four rows holding the amounts 10, 25, 35 and 50. */
  const RangeRows: Table := [Row(1, Some(10.0)), Row(2, Some(25.0)), Row(3, Some(35.0)), Row(4, Some(50.0))]

  /** Amounts from 20 to 40. */
  const InRange: Criteria := NoCriteria.(minAmount := Some(20.0), maxAmount := Some(40.0))

  lemma RangeSelect()
    ensures Select(RangeRows, InRange) == [Row(2, Some(25.0)), Row(3, Some(35.0))]
  {
    assert !Matches(InRange, RangeRows[0]) && Matches(InRange, RangeRows[1]);
    assert Matches(InRange, RangeRows[2]) && !Matches(InRange, RangeRows[3]);
  }

  /** An amount range keeps exactly the rows inside it, in table order. */
  lemma SearchAmountRangeSample()
    ensures Search(RangeRows, InRange, 0, 100) == [Row(2, Some(25.0)), Row(3, Some(35.0))]
  {
    RangeSelect();
  }
}

=== FILE: sorting.dfy ===
/**
 * Stable sorting of a sequence by a total preorder, the way `ORDER BY` and
 * `sorted` arrange rows and values.
 */
module Sorting {

  /** `le` is total and transitive: a sort key order, possibly with ties. */
  ghost predicate TotalPreorder<T(!new)>(le: (T, T) -> bool) {
    && (forall a, b :: le(a, b) || le(b, a))
    && (forall a, b, c :: le(a, b) && le(b, c) ==> le(a, c))
  }

  predicate SortedBy<T>(s: seq<T>, le: (T, T) -> bool) {
    forall i, j :: 0 <= i < j < |s| ==> le(s[i], s[j])
  }

  /** `x` placed before the first element it does not follow. */
  function Insert<T(!new)>(x: T, s: seq<T>, le: (T, T) -> bool): (r: seq<T>)
    requires TotalPreorder(le) && SortedBy(s, le)
    ensures SortedBy(r, le)
    ensures multiset(r) == multiset(s) + multiset{x}
    ensures |r| == |s| + 1
  {
    if |s| == 0 then [x]
    else if le(x, s[0]) then [x] + s
    else
      var rest := Insert(x, s[1..], le);
      assert s == [s[0]] + s[1..];
      assert forall k :: 0 <= k < |rest| ==> le(s[0], rest[k]) by {
        forall k | 0 <= k < |rest| ensures le(s[0], rest[k]) {
          assert rest[k] in multiset(rest);
          if rest[k] != x {
            assert rest[k] in multiset(s[1..]);
            var m :| 0 <= m < |s[1..]| && s[1..][m] == rest[k];
            assert s[m + 1] == rest[k];
          }
        }
      }
      [s[0]] + rest
  }

  /** The order `sorted` and `ORDER BY` use on numbers. */
  predicate RealLe(a: real, b: real) {
    a <= b
  }

  /** Insertion sort. */
  function SortBy<T(!new)>(s: seq<T>, le: (T, T) -> bool): (r: seq<T>)
    requires TotalPreorder(le)
    ensures SortedBy(r, le)
    ensures multiset(r) == multiset(s)
    ensures |r| == |s|
  {
    if |s| == 0 then []
    else
      assert s == [s[0]] + s[1..];
      Insert(s[0], SortBy(s[1..], le), le)
  }

  /** Sorting what is already sorted changes nothing; ties stay in input order. */
  lemma {:induction false} SortBySorted<T(!new)>(s: seq<T>, le: (T, T) -> bool)
    requires TotalPreorder(le) && SortedBy(s, le)
    ensures SortBy(s, le) == s
    decreases |s|
  {
    if |s| > 0 {
      assert SortedBy(s[1..], le);
      SortBySorted(s[1..], le);
      assert s == [s[0]] + s[1..];
    }
  }
}

=== FILE: sql.dfy ===
/**
 * The pieces of SQLite's query semantics the record store relies on:
 * `LIMIT`/`OFFSET` paging and the `LIKE` operator with its default ASCII
 * case folding.
 */
module Sql {
  import opened Text

  function Max0(n: int): nat {
    if n < 0 then 0 else n
  }

  /**
   * How many of `n` rows `OFFSET offset LIMIT limit` returns: the rows left
   * after the offset, cut at the limit unless it is negative.
   */
  function PageLength(n: nat, offset: int, limit: int): nat {
    var left := Max0(n - Max0(offset));
    if limit < 0 || limit > left then left else limit
  }

  /**
   * `OFFSET offset LIMIT limit` over rows in result order: a negative offset
   * counts as zero and a negative limit means no limit.
   */
  function Window<T>(rows: seq<T>, offset: int, limit: int): (r: seq<T>)
    ensures |r| == PageLength(|rows|, offset, limit)
    ensures |r| <= |rows|
    ensures limit >= 0 ==> |r| <= limit
    ensures forall k :: 0 <= k < |r| ==> Max0(offset) + k < |rows| && r[k] == rows[Max0(offset) + k]
    ensures Max0(offset) + (if limit < 0 then |rows| else limit) <= |rows| ==>
              |r| == (if limit < 0 then |rows| - Max0(offset) else limit)
    ensures Max0(offset) + (if limit < 0 then |rows| else limit) > |rows| ==>
              |r| == Max0(|rows| - Max0(offset))
  {
    var start := Max0(offset);
    if start >= |rows| then []
    else
      var end := if limit < 0 || start + limit > |rows| then |rows| else start + limit;
      rows[start..end]
  }

  /** Reading page after page returns the rows of one larger page, in order. */
  lemma WindowPages<T>(rows: seq<T>, offset: nat, n: nat, m: int)
    ensures Window(rows, offset, n) + Window(rows, offset + n, m)
         == Window(rows, offset, if m < 0 then -1 else n + m)
  {
  }

  /** No offset and no limit: every row. */
  lemma WindowAll<T>(rows: seq<T>)
    ensures Window(rows, 0, -1) == rows
  {
  }

  // ---------------------------------------------------------------------------
  // LIKE

  /**
   * `s LIKE p` with SQLite's defaults: `%` matches any run of characters,
   * `_` any one character, every other character itself up to ASCII case,
   * and there is no escape character.
   */
  predicate Like(s: string, p: string)
    decreases |p|, |s|
  {
    if |p| == 0 then |s| == 0
    else if p[0] == '%' then Like(s, p[1..]) || (|s| > 0 && Like(s[1..], p))
    else |s| > 0 && (p[0] == '_' || AsciiLower(s[0]) == AsciiLower(p[0])) && Like(s[1..], p[1..])
  }

  predicate NoWildcards(p: string) {
    forall k :: 0 <= k < |p| ==> p[k] != '%' && p[k] != '_'
  }

  lemma {:induction false} LikePercentAny(s: string)
    ensures Like(s, "%")
    decreases |s|
  {
    if |s| > 0 {
      LikePercentAny(s[1..]);
    }
  }

  /** A wildcard-free pattern followed by `%` matches exactly the texts it begins, ignoring ASCII case. */
  lemma {:induction false} LikePrefix(s: string, p: string)
    requires NoWildcards(p)
    ensures Like(s, p + "%") <==> |p| <= |s| && Lower(s[..|p|]) == Lower(p)
    decreases |p|
  {
    if |p| == 0 {
      assert p + "%" == "%";
      LikePercentAny(s);
      assert Lower(s[..0]) == Lower(p);
    } else {
      assert (p + "%")[0] == p[0];
      assert (p + "%")[1..] == p[1..] + "%";
      if |s| > 0 {
        LikePrefix(s[1..], p[1..]);
        if |p| <= |s| {
          assert s[..|p|] == [s[0]] + s[1..][..|p| - 1];
          assert p == [p[0]] + p[1..];
          LowerCons(s[0], s[1..][..|p| - 1]);
          LowerCons(p[0], p[1..]);
        }
      }
    }
  }

  lemma LowerCons(c: char, s: string)
    ensures Lower([c] + s) == [AsciiLower(c)] + Lower(s)
  {
  }

  /** A leading `%` lets the rest of the pattern match any suffix. */
  lemma {:induction false} LikeLeadingPercent(s: string, q: string)
    ensures Like(s, "%" + q) <==> exists i :: 0 <= i <= |s| && Like(s[i..], q)
    decreases |s|
  {
    var p := "%" + q;
    assert p[0] == '%' && p[1..] == q;
    assert s[0..] == s;
    if |s| > 0 {
      LikeLeadingPercent(s[1..], q);
      if exists i :: 0 <= i <= |s| && Like(s[i..], q) {
        var i :| 0 <= i <= |s| && Like(s[i..], q);
        if i > 0 {
          assert s[1..][i - 1..] == s[i..];
        }
      }
      if exists i :: 0 <= i <= |s[1..]| && Like(s[1..][i..], q) {
        var i :| 0 <= i <= |s[1..]| && Like(s[1..][i..], q);
        assert s[1..][i..] == s[i + 1..];
      }
    }
  }

  lemma MatchAtIsOccurrence(s: string, kw: string, i: nat)
    requires NoWildcards(kw) && i <= |s| && Like(s[i..], kw + "%")
    ensures OccursAt(Lower(s), Lower(kw), i)
  {
    LikePrefix(s[i..], kw);
    LowerSlice(s, i, i + |kw|);
    assert s[i..][..|kw|] == s[i..i + |kw|];
  }

  lemma OccurrenceIsMatchAt(s: string, kw: string, i: nat)
    requires NoWildcards(kw) && OccursAt(Lower(s), Lower(kw), i)
    ensures i <= |s| && Like(s[i..], kw + "%")
  {
    LowerSlice(s, i, i + |kw|);
    assert s[i..][..|kw|] == s[i..i + |kw|];
    LikePrefix(s[i..], kw);
  }

  /**
   * The search filters' `lower(col) LIKE '%' || kw || '%'` is a
   * case-insensitive substring test when the keyword holds no wildcard.
   */
  lemma LikeContains(s: string, kw: string)
    requires NoWildcards(kw)
    ensures Like(s, "%" + kw + "%") <==> Contains(Lower(s), Lower(kw))
  {
    assert "%" + kw + "%" == "%" + (kw + "%");
    LikeLeadingPercent(s, kw + "%");
    if Like(s, "%" + kw + "%") {
      var i :| 0 <= i <= |s| && Like(s[i..], kw + "%");
      MatchAtIsOccurrence(s, kw, i);
    }
    if Contains(Lower(s), Lower(kw)) {
      var i: nat :| OccursAt(Lower(s), Lower(kw), i);
      OccurrenceIsMatchAt(s, kw, i);
    }
  }

  lemma LowerSlice(s: string, i: nat, j: nat)
    requires i <= j <= |s|
    ensures Lower(s)[i..j] == Lower(s[i..j])
  {
  }

  /** A lone `_` keyword is not a literal underscore: it matches every non-empty text. */
  lemma UnderscoreMatchesAnyText(s: string)
    requires |s| > 0
    ensures Like(s, "%_%")
  {
    LikeLeadingPercent(s, "_%");
    assert "%_%"[1..] == "_%";
    assert "%" + "_%" == "%_%";
    LikePercentAny(s[1..]);
    assert s[0..] == s;
  }
}

=== FILE: store.dfy ===
/**
 * The `receipts` table and the record operations on it: create (with the
 * date normalisation), get, list, update and delete. The table is the
 * sequence of its rows in rowid order, which is also the order of a plain
 * table scan.
 */
module Store {
  import opened Common
  import opened Dates
  import opened Sql
  import Extract

  /** One row of `receipts`; the nullable columns are `Option`s. */
  datatype Receipt = Receipt(
    id: nat,
    filename: string,
    contentType: string,
    savedPath: string,
    vendor: Option<string>,
    transactionDate: Option<Date>,
    amount: Option<real>,
    category: Option<string>,
    currency: Option<string>,
    createdAt: Option<Date>)

  type Table = seq<Receipt>

  /** Rows appear in strictly increasing id order, and ids are positive. */
  predicate ValidTable(rows: Table) {
    && (forall i :: 0 <= i < |rows| ==> rows[i].id >= 1)
    && (forall i, j :: 0 <= i < j < |rows| ==> rows[i].id < rows[j].id)
  }

  predicate HasId(rows: Table, id: int) {
    exists k :: 0 <= k < |rows| && rows[k].id == id
  }

  /** The largest id in the table, 0 when it is empty. */
  function MaxId(rows: Table): (m: nat)
    ensures forall k :: 0 <= k < |rows| ==> rows[k].id <= m
    ensures |rows| > 0 ==> HasId(rows, m)
    ensures |rows| == 0 ==> m == 0
  {
    if |rows| == 0 then 0
    else
      var m := MaxId(rows[..|rows| - 1]);
      var last := rows[|rows| - 1].id;
      assert forall k :: 0 <= k < |rows| - 1 ==> rows[..|rows| - 1][k] == rows[k];
      if last >= m then last else m
  }

  /**
   * The id the table assigns to an inserted row: the primary key is a plain
   * `INTEGER PRIMARY KEY` (no `AUTOINCREMENT` keyword is emitted for it),
   * so SQLite takes one more than the largest id present.
   */
  function NextId(rows: Table): (n: nat)
    ensures n >= 1 && !HasId(rows, n)
    ensures forall k :: 0 <= k < |rows| ==> rows[k].id < n
    ensures |rows| > 0 ==> HasId(rows, n - 1)
  {
    MaxId(rows) + 1
  }

  /** `create_receipt`: the extracted fields stored as a new row. */
  function Create(rows: Table, filename: string, contentType: string, savedPath: string,
                  parsed: Extract.Parsed, today: Date): (res: (Table, Receipt))
    ensures res.0 == rows + [res.1]
    ensures res.1.id == NextId(rows) && !HasId(rows, res.1.id)
    ensures ValidTable(rows) ==> ValidTable(res.0)
    ensures res.1.transactionDate == NormalizeDate(parsed.date)
    ensures res.1.vendor == parsed.vendor && res.1.amount == parsed.amount
    ensures res.1.category == parsed.category && res.1.currency == parsed.currency
    ensures res.1.filename == filename && res.1.contentType == contentType && res.1.savedPath == savedPath
    ensures res.1.createdAt == Some(today)
  {
    var r := Receipt(NextId(rows), filename, contentType, savedPath, parsed.vendor,
                     NormalizeDate(parsed.date), parsed.amount, parsed.category, parsed.currency, Some(today));
    (rows + [r], r)
  }

  /** Position of the first row with the id: the row `filter(id == ...).first()` returns. */
  function IndexOfId(rows: Table, id: int): (r: Option<nat>)
    ensures r.Some? ==> r.value < |rows| && rows[r.value].id == id
    ensures r.Some? ==> forall j :: 0 <= j < r.value ==> rows[j].id != id
    ensures r.None? <==> !HasId(rows, id)
  {
    var p := (k: nat) => k < |rows| && rows[k].id == id;
    assert forall k: nat :: p(k) == (k < |rows| && rows[k].id == id);
    FirstWhere(p, 0, |rows|)
  }

  /** `get_receipt`: the first row with the id, or none. */
  function Get(rows: Table, id: int): (r: Option<Receipt>)
    ensures r.Some? ==> r.value in rows && r.value.id == id
    ensures r.None? <==> !HasId(rows, id)
    ensures r.Some? ==> r.value == rows[IndexOfId(rows, id).value]
  {
    match IndexOfId(rows, id)
    case None => None
    case Some(k) => Some(rows[k])
  }

  /** In a valid table the row with an id is unique, so `Get` returns every row carrying it. */
  lemma GetUnique(rows: Table, k: nat)
    requires ValidTable(rows) && k < |rows|
    ensures Get(rows, rows[k].id) == Some(rows[k])
  {
    var m := IndexOfId(rows, rows[k].id).value;
    assert m == k;
  }

  /**
   * `get_receipts`: a page of rows in table order, the rows from position
   * `skip` on (none skipped when it is negative), as many as remain or
   * `limit` of them, whichever is fewer (all that remain when it is negative).
   */
  function List(rows: Table, skip: int, limit: int): (r: Table)
    ensures |r| == PageLength(|rows|, skip, limit)
    ensures forall k :: 0 <= k < |r| ==> Max0(skip) + k < |rows| && r[k] == rows[Max0(skip) + k]
    ensures |r| <= |rows| && (limit >= 0 ==> |r| <= limit)
    ensures forall k :: 0 <= k < |r| ==> r[k] in rows
    ensures ValidTable(rows) ==> ValidTable(r)
    ensures skip <= 0 && limit < 0 ==> r == rows
  {
    var r := Window(rows, skip, limit);
    assert forall k :: 0 <= k < |r| ==> r[k] == rows[Max0(skip) + k];
    r
  }

  /** Reading one page and then the next gives the rows of the combined page. */
  lemma ListPages(rows: Table, skip: nat, n: nat, m: int)
    ensures List(rows, skip, n) + List(rows, skip + n, m) == List(rows, skip, if m < 0 then -1 else n + m)
  {
    WindowPages(rows, skip, n, m);
  }

  // ---------------------------------------------------------------------------
  // update_receipt

  /** One key of the update dictionary: absent, or present with a value. */
  datatype Assign<T> = Keep | Put(value: T)

  /**
   * The `transaction_date` key: absent, a date or `None` assigned as is, or a
   * string, which is read with `date.fromisoformat` and ignored if that fails.
   */
  datatype DateAssign = KeepDate | PutDate(date: Option<Date>) | PutDateText(text: string)

  /** The update dictionary, one entry per writable column. */
  datatype Patch = Patch(
    filename: Assign<string>,
    contentType: Assign<string>,
    savedPath: Assign<string>,
    vendor: Assign<Option<string>>,
    transactionDate: DateAssign,
    amount: Assign<Option<real>>,
    category: Assign<Option<string>>,
    currency: Assign<Option<string>>,
    createdAt: Assign<Option<Date>>)

  const EmptyPatch := Patch(Keep, Keep, Keep, Keep, KeepDate, Keep, Keep, Keep, Keep)

  /** The column's value after the key is applied: the given value, or the old one when the key is absent. */
  function Apply<T>(a: Assign<T>, current: T): (r: T)
    ensures a.Keep? ==> r == current
    ensures a.Put? ==> r == a.value
  {
    match a
    case Keep => current
    case Put(v) => v
  }

  function ApplyDate(a: DateAssign, current: Option<Date>): (r: Option<Date>)
    ensures a.KeepDate? ==> r == current
    ensures a.PutDate? ==> r == a.date
    ensures a.PutDateText? ==> r == (if FromIsoFormat(a.text).Some? then FromIsoFormat(a.text) else current)
  {
    match a
    case KeepDate => current
    case PutDate(d) => d
    case PutDateText(t) =>
      match FromIsoFormat(t)
      case Some(d) => Some(d)
      case None => current
  }

  /** The row after `setattr` of every present key; the id is not writable here. */
  function Patched(r: Receipt, p: Patch): (r': Receipt)
    ensures r'.id == r.id
    ensures p.vendor.Keep? ==> r'.vendor == r.vendor
    ensures p.vendor.Put? ==> r'.vendor == p.vendor.value
    ensures p.amount.Keep? ==> r'.amount == r.amount
    ensures p.amount.Put? ==> r'.amount == p.amount.value
    ensures p.category.Keep? ==> r'.category == r.category
    ensures p.category.Put? ==> r'.category == p.category.value
    ensures p.filename.Keep? ==> r'.filename == r.filename
    ensures p.filename.Put? ==> r'.filename == p.filename.value
    ensures p.contentType.Keep? ==> r'.contentType == r.contentType
    ensures p.contentType.Put? ==> r'.contentType == p.contentType.value
    ensures p.savedPath.Keep? ==> r'.savedPath == r.savedPath
    ensures p.savedPath.Put? ==> r'.savedPath == p.savedPath.value
    ensures p.currency.Keep? ==> r'.currency == r.currency
    ensures p.currency.Put? ==> r'.currency == p.currency.value
    ensures p.createdAt.Keep? ==> r'.createdAt == r.createdAt
    ensures p.createdAt.Put? ==> r'.createdAt == p.createdAt.value
    ensures r'.transactionDate == ApplyDate(p.transactionDate, r.transactionDate)
    ensures p.transactionDate.KeepDate? ==> r'.transactionDate == r.transactionDate
  {
    r.(filename := Apply(p.filename, r.filename),
       contentType := Apply(p.contentType, r.contentType),
       savedPath := Apply(p.savedPath, r.savedPath),
       vendor := Apply(p.vendor, r.vendor),
       transactionDate := ApplyDate(p.transactionDate, r.transactionDate),
       amount := Apply(p.amount, r.amount),
       category := Apply(p.category, r.category),
       currency := Apply(p.currency, r.currency),
       createdAt := Apply(p.createdAt, r.createdAt))
  }

  /** Applying the same patch twice is applying it once. */
  lemma PatchedIdempotent(r: Receipt, p: Patch)
    ensures Patched(Patched(r, p), p) == Patched(r, p)
  {
  }

  /** A patch without keys leaves a row as it was. */
  lemma EmptyPatchKeeps(r: Receipt)
    ensures Patched(r, EmptyPatch) == r
  {
  }

  /**
   * A `transaction_date` string that is not an ISO date leaves the stored
   * date as it was, while the other keys of the same update still apply.
   */
  lemma UpdateKeepsDateOnBadText(rows: Table, id: int, p: Patch)
    requires HasId(rows, id)
    requires p.transactionDate.PutDateText? && FromIsoFormat(p.transactionDate.text).None?
    ensures var before := Get(rows, id).value;
            var after := Update(rows, id, p).1.value;
            && after.transactionDate == before.transactionDate
            && after == Patched(before, p.(transactionDate := KeepDate))
  {
  }

  /** An update that gives only `amount` changes the amount and nothing else. */
  lemma UpdateOnlyAmount(rows: Table, id: int, a: Option<real>)
    requires HasId(rows, id)
    ensures Update(rows, id, EmptyPatch.(amount := Put(a))).1 == Some(Get(rows, id).value.(amount := a))
  {
  }

  /** Every row with the id patched, all others as they were. */
  function PatchRows(rows: Table, id: int, p: Patch): (r: Table)
    ensures |r| == |rows|
    ensures forall k :: 0 <= k < |rows| ==> r[k] == if rows[k].id == id then Patched(rows[k], p) else rows[k]
  {
    seq(|rows|, k requires 0 <= k < |rows| => if rows[k].id == id then Patched(rows[k], p) else rows[k])
  }

  /**
   * `update_receipt`: the patched row, or none when no row has the id (and
   * then the table is unchanged).
   */
  function Update(rows: Table, id: int, p: Patch): (res: (Table, Option<Receipt>))
    ensures res.1.None? <==> !HasId(rows, id)
    ensures res.1.None? ==> res.0 == rows
    ensures res.1.Some? ==> res.1.value == Patched(Get(rows, id).value, p)
    ensures |res.0| == |rows|
    ensures forall k :: 0 <= k < |rows| ==> res.0[k].id == rows[k].id
    ensures forall k :: 0 <= k < |rows| && rows[k].id != id ==> res.0[k] == rows[k]
    ensures ValidTable(rows) ==> ValidTable(res.0)
  {
    match Get(rows, id)
    case None =>
      assert forall k :: 0 <= k < |rows| ==> rows[k].id != id;
      (rows, None)
    case Some(r) => (PatchRows(rows, id, p), Some(Patched(r, p)))
  }

  /** After an update, reading the row back returns what the update returned. */
  lemma UpdateThenGet(rows: Table, id: int, p: Patch)
    requires ValidTable(rows)
    ensures Get(Update(rows, id, p).0, id) == Update(rows, id, p).1
  {
    var res := Update(rows, id, p);
    if res.1.Some? {
      GetUnique(res.0, IndexOfId(rows, id).value);
    } else {
      assert !HasId(res.0, id);
    }
  }

  lemma PatchRowsIdempotent(rows: Table, id: int, p: Patch)
    ensures PatchRows(PatchRows(rows, id, p), id, p) == PatchRows(rows, id, p)
  {
    var once := PatchRows(rows, id, p);
    forall k | 0 <= k < |rows| ensures PatchRows(once, id, p)[k] == once[k] {
      PatchedIdempotent(rows[k], p);
    }
  }

  /** Updating twice with the same patch is updating once. */
  lemma UpdateIdempotent(rows: Table, id: int, p: Patch)
    requires ValidTable(rows)
    ensures Update(Update(rows, id, p).0, id, p) == Update(rows, id, p)
  {
    var once := Update(rows, id, p);
    UpdateThenGet(rows, id, p);
    if once.1.Some? {
      PatchedIdempotent(Get(rows, id).value, p);
      PatchRowsIdempotent(rows, id, p);
    }
  }

  // ---------------------------------------------------------------------------
  // delete_receipt

  /** The table without its `k`-th row. */
  function RemoveAt(rows: Table, k: nat): (r: Table)
    requires k < |rows|
    ensures |r| == |rows| - 1
    ensures forall i :: 0 <= i < |r| ==> r[i] == if i < k then rows[i] else rows[i + 1]
  {
    rows[..k] + rows[k + 1..]
  }

  lemma RemoveAtOnlyDrops(rows: Table, k: nat)
    requires k < |rows|
    ensures forall x :: x in RemoveAt(rows, k) ==> x in rows
    ensures forall x :: x in rows && x != rows[k] ==> x in RemoveAt(rows, k)
  {
    var r := RemoveAt(rows, k);
    forall x | x in r ensures x in rows {
      var i :| 0 <= i < |r| && r[i] == x;
      if i < k { assert rows[i] == x; } else { assert rows[i + 1] == x; }
    }
    forall x | x in rows && x != rows[k] ensures x in r {
      var i :| 0 <= i < |rows| && rows[i] == x;
      if i < k { assert r[i] == x; } else { assert r[i - 1] == x; }
    }
  }

  lemma RemoveAtKeepsOrder(rows: Table, k: nat)
    requires k < |rows| && ValidTable(rows)
    ensures ValidTable(RemoveAt(rows, k)) && !HasId(RemoveAt(rows, k), rows[k].id)
  {
    var r := RemoveAt(rows, k);
    forall i, j | 0 <= i < j < |r| ensures r[i].id < r[j].id {
      var i' := if i < k then i else i + 1;
      var j' := if j < k then j else j + 1;
      assert r[i] == rows[i'] && r[j] == rows[j'];
    }
    forall i | 0 <= i < |r| ensures r[i].id != rows[k].id {
      var i' := if i < k then i else i + 1;
      assert r[i] == rows[i'];
    }
  }

  /** Removing a row keeps every other row and, in a valid table, the id order. */
  lemma RemoveAtKeeps(rows: Table, k: nat)
    requires k < |rows|
    ensures forall x :: x in RemoveAt(rows, k) ==> x in rows
    ensures forall x :: x in rows && x != rows[k] ==> x in RemoveAt(rows, k)
    ensures ValidTable(rows) ==> ValidTable(RemoveAt(rows, k)) && !HasId(RemoveAt(rows, k), rows[k].id)
  {
    RemoveAtOnlyDrops(rows, k);
    if ValidTable(rows) {
      RemoveAtKeepsOrder(rows, k);
    }
  }


  /** `delete_receipt`: whether a row was deleted, and the table without it. */
  function Delete(rows: Table, id: int): (res: (Table, bool))
    ensures res.1 <==> HasId(rows, id)
    ensures !res.1 ==> res.0 == rows
    ensures res.1 ==> |res.0| == |rows| - 1
    ensures forall x :: x in res.0 ==> x in rows
    ensures forall x :: x in rows && x.id != id ==> x in res.0
    ensures ValidTable(rows) ==> ValidTable(res.0) && !HasId(res.0, id)
  {
    match IndexOfId(rows, id)
    case None => (rows, false)
    case Some(k) =>
      RemoveAtKeeps(rows, k);
      (RemoveAt(rows, k), true)
  }

  // ---------------------------------------------------------------------------
  // Round trips

  /** A row appended under a fresh id is the first row with that id. */
  lemma IndexOfAppended(rows: Table, r: Receipt)
    requires !HasId(rows, r.id)
    ensures IndexOfId(rows + [r], r.id) == Some(|rows|)
  {
    var t := rows + [r];
    assert forall j :: 0 <= j < |rows| ==> t[j] == rows[j] && t[j].id != r.id;
    assert t[|rows|] == r;
    var k := IndexOfId(t, r.id).value;
    assert k == |rows|;
  }

  lemma RemoveAppended(rows: Table, r: Receipt)
    ensures RemoveAt(rows + [r], |rows|) == rows
  {
    assert (rows + [r])[..|rows|] == rows;
  }

  /** A created row is found again by its id. */
  lemma CreateThenGet(rows: Table, filename: string, contentType: string, savedPath: string,
                      parsed: Extract.Parsed, today: Date)
    ensures var res := Create(rows, filename, contentType, savedPath, parsed, today);
            Get(res.0, res.1.id) == Some(res.1)
  {
    var res := Create(rows, filename, contentType, savedPath, parsed, today);
    IndexOfAppended(rows, res.1);
  }

  /** Deleting the row just created restores the table. */
  lemma CreateThenDelete(rows: Table, filename: string, contentType: string, savedPath: string,
                         parsed: Extract.Parsed, today: Date)
    ensures var res := Create(rows, filename, contentType, savedPath, parsed, today);
            Delete(res.0, res.1.id) == (rows, true)
  {
    var res := Create(rows, filename, contentType, savedPath, parsed, today);
    IndexOfAppended(rows, res.1);
    RemoveAppended(rows, res.1);
  }

  /**
   * Ids are not monotonic over the table's life: once the newest row is
   * deleted, the next insert reuses its id.
   */
  lemma NewestIdReused(rows: Table, filename: string, contentType: string, savedPath: string,
                       parsed: Extract.Parsed, today: Date)
    ensures var res := Create(rows, filename, contentType, savedPath, parsed, today);
            NextId(Delete(res.0, res.1.id).0) == res.1.id
  {
    CreateThenDelete(rows, filename, contentType, savedPath, parsed, today);
  }
}

=== FILE: text.dfy ===
/**
 * Python string primitives the extractor and the store rely on: the character
 * classes of `str.isspace`, `str.splitlines` and the regular-expression classes
 * `\s`, `\d`, `\w`; `str.strip`, `str.splitlines`, `str.lower` (ASCII part),
 * substring containment `x in s`, decimal digit strings, and the code-point
 * ordering SQLite's BINARY collation induces on text.
 */
module Text {
  import opened Common

  /** Python's whitespace (`str.isspace`, `str.strip` and the regex class `\s`). */
  predicate IsSpace(c: char) {
    || ('\t' <= c <= '\r')
    || ('\U{1C}' <= c <= '\U{1F}')
    || c == ' ' || c == '\U{85}' || c == '\U{A0}' || c == '\U{1680}'
    || ('\U{2000}' <= c <= '\U{200A}')
    || c == '\U{2028}' || c == '\U{2029}' || c == '\U{202F}' || c == '\U{205F}' || c == '\U{3000}'
  }

  /** The characters at which `str.splitlines` breaks a line. */
  predicate IsLineBreak(c: char) {
    || c == '\n' || c == '\r' || c == '\U{0B}' || c == '\U{0C}'
    || c == '\U{1C}' || c == '\U{1D}' || c == '\U{1E}' || c == '\U{85}'
    || c == '\U{2028}' || c == '\U{2029}'
  }

  predicate IsDigit(c: char) {
    '0' <= c <= '9'
  }

  predicate IsAsciiLetter(c: char) {
    ('a' <= c <= 'z') || ('A' <= c <= 'Z')
  }

  /** The regex class `\w`, restricted to ASCII. */
  predicate IsWordChar(c: char) {
    IsAsciiLetter(c) || IsDigit(c) || c == '_'
  }

  function AsciiLower(c: char): char {
    if 'A' <= c <= 'Z' then (c as int + 32) as char else c
  }

  /** `s.lower()` on the ASCII letters; every other character is kept. */
  function Lower(s: string): (r: string)
    ensures |r| == |s|
    ensures forall k :: 0 <= k < |s| ==> r[k] == AsciiLower(s[k])
  {
    seq(|s|, k requires 0 <= k < |s| => AsciiLower(s[k]))
  }

  predicate AllSpace(s: string) {
    forall k :: 0 <= k < |s| ==> IsSpace(s[k])
  }

  predicate AllDigits(s: string) {
    forall k :: 0 <= k < |s| ==> IsDigit(s[k])
  }

  // ---------------------------------------------------------------------------
  // str.strip()

  /** `s.lstrip()`: drops the leading whitespace and nothing else. */
  function TrimStart(s: string): (r: string)
    ensures |r| <= |s| && r == s[|s| - |r|..]
    ensures |r| > 0 ==> !IsSpace(r[0])
    ensures AllSpace(s[..|s| - |r|])
  {
    if |s| > 0 && IsSpace(s[0]) then TrimStart(s[1..]) else s
  }

  /** `s.rstrip()`: drops the trailing whitespace and nothing else. */
  function TrimEnd(s: string): (r: string)
    ensures |r| <= |s| && r == s[..|r|]
    ensures |r| > 0 ==> !IsSpace(r[|r| - 1])
    ensures AllSpace(s[|r|..])
  {
    if |s| > 0 && IsSpace(s[|s| - 1]) then TrimEnd(s[..|s| - 1]) else s
  }

  /** `s` is `r` with whitespace added only before it and after it, starting at `i`. */
  ghost predicate PaddedAt(s: string, r: string, i: nat) {
    && i + |r| <= |s|
    && s[i..i + |r|] == r
    && AllSpace(s[..i])
    && AllSpace(s[i + |r|..])
  }

  /** `s.strip()`: the longest piece of `s` that neither starts nor ends with whitespace. */
  function Strip(s: string): (r: string)
    ensures |r| > 0 ==> !IsSpace(r[0]) && !IsSpace(r[|r| - 1])
    ensures exists i :: PaddedAt(s, r, i)
    ensures |r| == 0 <==> AllSpace(s)
  {
    StripShape(s, TrimStart(s), TrimEnd(TrimStart(s)));
    TrimEnd(TrimStart(s))
  }

  lemma StripShape(s: string, a: string, r: string)
    requires |a| <= |s| && a == s[|s| - |a|..] && AllSpace(s[..|s| - |a|])
    requires |r| <= |a| && r == a[..|r|] && AllSpace(a[|r|..])
    requires |a| > 0 ==> !IsSpace(a[0])
    requires |r| > 0 ==> !IsSpace(r[|r| - 1])
    ensures |r| > 0 ==> !IsSpace(r[0]) && !IsSpace(r[|r| - 1])
    ensures PaddedAt(s, r, |s| - |a|)
    ensures |r| == 0 <==> AllSpace(s)
  {
    var i := |s| - |a|;
    assert s[i..i + |r|] == r;
    assert s[i + |r|..] == a[|r|..];
    if |r| == 0 {
      assert a[|r|..] == a;
      AllSpaceConcat(s[..i], a);
      assert s == s[..i] + a;
    } else {
      assert r[0] == a[0] == s[i];
    }
  }

  lemma AllSpaceConcat(x: string, y: string)
    requires AllSpace(x) && AllSpace(y)
    ensures AllSpace(x + y)
  {
    forall k | 0 <= k < |x + y| ensures IsSpace((x + y)[k]) {
      if k < |x| { assert (x + y)[k] == x[k]; } else { assert (x + y)[k] == y[k - |x|]; }
    }
  }

  // ---------------------------------------------------------------------------
  // str.splitlines()

  predicate NoLineBreak(s: string) {
    forall k :: 0 <= k < |s| ==> !IsLineBreak(s[k])
  }

  /** Index of the first line break at or after `i`, or `|s|` when there is none. */
  function NextBreak(s: string, i: nat): (e: nat)
    requires i <= |s|
    ensures i <= e <= |s|
    ensures NoLineBreak(s[i..e])
    ensures e < |s| ==> IsLineBreak(s[e])
    decreases |s| - i
  {
    if i == |s| || IsLineBreak(s[i]) then i else NextBreak(s, i + 1)
  }

  /** Width of the break at `e`: `\r\n` counts as one break of two characters. */
  function BreakWidth(s: string, e: nat): nat
    requires e < |s|
  {
    if s[e] == '\r' && e + 1 < |s| && s[e + 1] == '\n' then 2 else 1
  }

  /** The lines of `s[i..]`, each taken as a stretch of `s` itself. */
  function LinesFrom(s: string, i: nat): (ls: seq<string>)
    requires i <= |s|
    ensures forall k :: 0 <= k < |ls| ==> NoLineBreak(ls[k])
    ensures |ls| == 0 <==> i == |s|
    decreases |s| - i
  {
    if i == |s| then []
    else
      var e := NextBreak(s, i);
      if e == |s| then [s[i..]]
      else [s[i..e]] + LinesFrom(s, e + BreakWidth(s, e))
  }

  /**
   * `s.splitlines()`: the lines of `s` without their breaks; a final break does
   * not start an extra empty line, and the empty text has no lines.
   */
  function SplitLines(s: string): (ls: seq<string>)
    ensures forall k :: 0 <= k < |ls| ==> NoLineBreak(ls[k])
    ensures |ls| == 0 <==> |s| == 0
  {
    LinesFrom(s, 0)
  }

  /**
   * Where the lines `ls` of `s[i..]` sit in `s`: line `k` is `s[sp[k].0..sp[k].1]`
   * and holds no break; the first line starts at `i`; every line ends at a
   * break and the next one starts just past it (`\r\n` being one break);
   * the last line ends at the end of the text or at a final break; and no
   * line starts at the very end, so a text that ends in a break has no empty
   * last line.
   */
  ghost predicate LineLayout(s: string, i: nat, ls: seq<string>, sp: seq<(nat, nat)>) {
    && LinesInPlace(s, ls, sp)
    && LinesChained(s, sp)
    && (|ls| == 0 ==> i == |s|)
    && (|ls| > 0 ==> sp[0].0 == i && FinalLineEnd(s, sp[|ls| - 1].1))
  }

  /** Line `l` is the break-free stretch `s[p.0..p.1]`, starting before the end of `s`. */
  predicate LineInPlace(s: string, l: string, p: (nat, nat)) {
    p.0 < |s| && p.0 <= p.1 <= |s| && l == s[p.0..p.1] && NoLineBreak(l)
  }

  ghost predicate LinesInPlace(s: string, ls: seq<string>, sp: seq<(nat, nat)>) {
    |sp| == |ls| && forall k :: 0 <= k < |ls| ==> LineInPlace(s, ls[k], sp[k])
  }

  /** A break sits at `e`, and the next line starts at `next`, just past it. */
  predicate BreakBefore(s: string, e: nat, next: nat) {
    e < |s| && IsLineBreak(s[e]) && next == e + BreakWidth(s, e)
  }

  ghost predicate LinesChained(s: string, sp: seq<(nat, nat)>) {
    forall k :: 0 <= k < |sp| - 1 ==> BreakBefore(s, sp[k].1, sp[k + 1].0)
  }

  /** The last line ends at the end of the text or at a break that ends the text. */
  predicate FinalLineEnd(s: string, e: nat) {
    e == |s| || (e < |s| && IsLineBreak(s[e]) && e + BreakWidth(s, e) == |s|)
  }

  /** The first break at or after `i` is the one that ends a break-free stretch. */
  lemma NextBreakAt(s: string, i: nat, e: nat)
    requires i <= e <= |s| && NoLineBreak(s[i..e])
    requires e < |s| ==> IsLineBreak(s[e])
    ensures NextBreak(s, i) == e
    decreases e - i
  {
    if i < e {
      assert s[i..e][0] == s[i];
      var u, t := s[i..e], s[i + 1..e];
      forall k | 0 <= k < |t| ensures !IsLineBreak(t[k]) {
        assert t[k] == u[k + 1];
      }
      NextBreakAt(s, i + 1, e);
    }
  }

  /** A break-free line ending at a break, put before the lines laid out after it. */
  lemma LayoutCons(s: string, i: nat, e: nat, tail: seq<string>, rest: seq<(nat, nat)>)
    requires i < e + 1 && e < |s| && IsLineBreak(s[e]) && NoLineBreak(s[i..e])
    requires e + BreakWidth(s, e) <= |s| && LineLayout(s, e + BreakWidth(s, e), tail, rest)
    ensures LineLayout(s, i, [s[i..e]] + tail, [(i, e)] + rest)
  {
    InPlaceCons(s, s[i..e], (i, e), tail, rest);
    ChainedCons(s, (i, e), rest);
    if |tail| > 0 {
      assert ([(i, e)] + rest)[|tail|] == rest[|tail| - 1];
    }
  }

  /** A break-free stretch running to the end of the text, or to a final break, is its only line. */
  lemma LayoutSingle(s: string, i: nat, e: nat)
    requires i < |s| && i <= e <= |s| && LineInPlace(s, s[i..e], (i, e)) && FinalLineEnd(s, e)
    ensures LineLayout(s, i, [s[i..e]], [(i, e)])
  {
  }

  lemma InPlaceCons(s: string, l: string, p: (nat, nat), ls: seq<string>, sp: seq<(nat, nat)>)
    requires LineInPlace(s, l, p) && LinesInPlace(s, ls, sp)
    ensures LinesInPlace(s, [l] + ls, [p] + sp)
  {
    forall k | 0 <= k < |ls| + 1 ensures LineInPlace(s, ([l] + ls)[k], ([p] + sp)[k]) {
      if k > 0 {
        assert ([l] + ls)[k] == ls[k - 1] && ([p] + sp)[k] == sp[k - 1];
      }
    }
  }

  lemma ChainedCons(s: string, p: (nat, nat), sp: seq<(nat, nat)>)
    requires LinesChained(s, sp) && (|sp| > 0 ==> BreakBefore(s, p.1, sp[0].0))
    ensures LinesChained(s, [p] + sp)
  {
    var t := [p] + sp;
    forall k | 0 <= k < |t| - 1 ensures BreakBefore(s, t[k].1, t[k + 1].0) {
      if k > 0 {
        assert t[k] == sp[k - 1] && t[k + 1] == sp[k];
      }
    }
  }

  /** The lines after the first of a layout are laid out from where the second starts. */
  lemma LayoutTail(s: string, i: nat, ls: seq<string>, sp: seq<(nat, nat)>)
    requires LineLayout(s, i, ls, sp) && |ls| > 1
    ensures LineLayout(s, sp[1].0, ls[1..], sp[1..])
  {
    InPlaceTail(s, ls, sp);
    ChainedTail(s, sp);
    assert sp[1..][|ls| - 2] == sp[|ls| - 1];
  }

  lemma InPlaceTail(s: string, ls: seq<string>, sp: seq<(nat, nat)>)
    requires LinesInPlace(s, ls, sp) && |ls| > 0
    ensures LinesInPlace(s, ls[1..], sp[1..])
  {
    forall k | 0 <= k < |ls| - 1 ensures LineInPlace(s, ls[1..][k], sp[1..][k]) {
      assert ls[1..][k] == ls[k + 1] && sp[1..][k] == sp[k + 1];
    }
  }

  lemma ChainedTail(s: string, sp: seq<(nat, nat)>)
    requires LinesChained(s, sp) && |sp| > 0
    ensures LinesChained(s, sp[1..])
  {
    var t := sp[1..];
    forall k | 0 <= k < |t| - 1 ensures BreakBefore(s, t[k].1, t[k + 1].0) {
      assert t[k] == sp[k + 1] && t[k + 1] == sp[k + 2];
    }
  }

  /** The lines `LinesFrom(s, i)` are laid out in `s` in order, each after the last. */
  lemma {:induction false} LinesFromLayout(s: string, i: nat) returns (sp: seq<(nat, nat)>)
    requires i <= |s|
    ensures LineLayout(s, i, LinesFrom(s, i), sp)
    decreases |s| - i
  {
    if i == |s| {
      sp := [];
    } else if NextBreak(s, i) == |s| {
      sp := LastLineLayout(s, i);
    } else {
      var e := NextBreak(s, i);
      var rest := LinesFromLayout(s, e + BreakWidth(s, e));
      sp := FirstLineLayout(s, i, rest);
    }
  }

  /** With no break left, `s[i..]` is the one line there is. */
  lemma LastLineLayout(s: string, i: nat) returns (sp: seq<(nat, nat)>)
    requires i < |s| && NextBreak(s, i) == |s|
    ensures LineLayout(s, i, LinesFrom(s, i), sp)
  {
    assert s[i..|s|] == s[i..];
    LayoutSingle(s, i, |s|);
    sp := [(i, |s|)];
  }

  /** The line up to the next break goes in front of the lines laid out after it. */
  lemma FirstLineLayout(s: string, i: nat, rest: seq<(nat, nat)>) returns (sp: seq<(nat, nat)>)
    requires i < |s| && NextBreak(s, i) < |s|
    requires LineLayout(s, NextBreak(s, i) + BreakWidth(s, NextBreak(s, i)),
                        LinesFrom(s, NextBreak(s, i) + BreakWidth(s, NextBreak(s, i))), rest)
    ensures LineLayout(s, i, LinesFrom(s, i), sp)
  {
    var e := NextBreak(s, i);
    var next := e + BreakWidth(s, e);
    LinesFromStep(s, i);
    LayoutCons(s, i, e, LinesFrom(s, next), rest);
    sp := [(i, e)] + rest;
  }

  lemma LinesFromStep(s: string, i: nat)
    requires i < |s| && NextBreak(s, i) < |s|
    ensures LinesFrom(s, i) == [s[i..NextBreak(s, i)]] + LinesFrom(s, NextBreak(s, i) + BreakWidth(s, NextBreak(s, i)))
  {
  }

  /** Only the lines of `s[i..]` can be laid out in `s` that way. */
  lemma {:induction false} LayoutIsLinesFrom(s: string, i: nat, ls: seq<string>, sp: seq<(nat, nat)>)
    requires i <= |s| && LineLayout(s, i, ls, sp)
    ensures ls == LinesFrom(s, i)
    decreases |s| - i
  {
    if |ls| > 0 {
      var e := sp[0].1;
      assert LineInPlace(s, ls[0], sp[0]);
      if |ls| > 1 {
        assert BreakBefore(s, sp[0].1, sp[1].0);
      }
      NextBreakAt(s, i, e);
      if |ls| == 1 {
        assert ls == [s[i..e]];
        if e < |s| {
          assert LinesFrom(s, e + BreakWidth(s, e)) == [];
          assert LinesFrom(s, i) == [s[i..e]] + [];
        } else {
          assert s[i..e] == s[i..];
        }
      } else {
        LayoutTail(s, i, ls, sp);
        LayoutIsLinesFrom(s, sp[1].0, ls[1..], sp[1..]);
        assert ls == [ls[0]] + ls[1..];
      }
    }
  }

  /**
   * `s.splitlines()` characterised: `ls` is the list of lines of `s` exactly
   * when its lines can be laid out in `s` from the start, in order, each
   * ending at a break and the next starting right after it.
   */
  lemma SplitLinesLayout(s: string, ls: seq<string>)
    ensures ls == SplitLines(s) <==> exists sp :: LineLayout(s, 0, ls, sp)
  {
    if ls == SplitLines(s) {
      var sp := LinesFromLayout(s, 0);
    }
    if exists sp :: LineLayout(s, 0, ls, sp) {
      var sp :| LineLayout(s, 0, ls, sp);
      LayoutIsLinesFrom(s, 0, ls, sp);
    }
  }

  /** A non-empty text without a break is a single line. */
  lemma SplitLinesOneLine(s: string)
    requires NoLineBreak(s) && |s| > 0
    ensures SplitLines(s) == [s]
  {
    assert NextBreak(s, 0) == |s|;
  }

  lemma AllSpaceSlice(s: string, a: nat, b: nat)
    requires AllSpace(s) && a <= b <= |s|
    ensures AllSpace(s[a..b])
  {
    assert forall k :: 0 <= k < b - a ==> s[a..b][k] == s[a + k];
  }

  /** Each line is a stretch of the text after `i`. */
  lemma {:induction false} LineFromIsSlice(s: string, i: nat, k: nat) returns (a: nat, b: nat)
    requires i <= |s| && k < |LinesFrom(s, i)|
    ensures i <= a <= b <= |s| && LinesFrom(s, i)[k] == s[a..b]
    decreases |s| - i
  {
    var e := NextBreak(s, i);
    if e == |s| {
      a, b := i, |s|;
    } else {
      var next := e + BreakWidth(s, e);
      var ls := LinesFrom(s, i);
      assert ls == [s[i..e]] + LinesFrom(s, next);
      if k == 0 {
        a, b := i, e;
      } else {
        assert ls[k] == LinesFrom(s, next)[k - 1];
        a, b := LineFromIsSlice(s, next, k - 1);
      }
    }
  }

  /** Every line of a blank text is blank. */
  lemma BlankLines(s: string)
    requires AllSpace(s)
    ensures forall k :: 0 <= k < |SplitLines(s)| ==> AllSpace(SplitLines(s)[k])
  {
    forall k | 0 <= k < |SplitLines(s)| ensures AllSpace(SplitLines(s)[k]) {
      var a, b := LineFromIsSlice(s, 0, k);
      AllSpaceSlice(s, a, b);
    }
  }

  // ---------------------------------------------------------------------------
  // Substring containment `sub in s`

  predicate OccursAt(s: string, sub: string, i: nat) {
    i + |sub| <= |s| && s[i..i + |sub|] == sub
  }

  /** True iff `sub` occurs in `s` at some position `>= from`. */
  function OccursFrom(s: string, sub: string, from: nat): (b: bool)
    ensures b <==> exists i :: from <= i && OccursAt(s, sub, i)
    decreases |s| - from
  {
    if from + |sub| > |s| then false
    else if s[from..from + |sub|] == sub then
      assert OccursAt(s, sub, from);
      true
    else OccursFrom(s, sub, from + 1)
  }

  /** Python's `sub in s`. */
  function Contains(s: string, sub: string): (b: bool)
    ensures b <==> exists i :: OccursAt(s, sub, i)
  {
    OccursFrom(s, sub, 0)
  }

  // ---------------------------------------------------------------------------
  // Fields between separators

  /** The pieces joined back together with `sep` between them. */
  function Join(ps: seq<string>, sep: char): string
    requires |ps| > 0
  {
    if |ps| == 1 then ps[0] else ps[0] + [sep] + Join(ps[1..], sep)
  }

  /** Index of the first `c` in `s`, if any. */
  function IndexOf(s: string, c: char): (r: Option<nat>)
    ensures r.Some? ==> r.value < |s| && s[r.value] == c && c !in s[..r.value]
    ensures r.None? <==> c !in s
  {
    if |s| == 0 then None
    else if s[0] == c then Some(0)
    else
      var r := IndexOf(s[1..], c);
      if r.None? then
        assert s == [s[0]] + s[1..];
        None
      else
        assert s[..r.value + 1] == [s[0]] + s[1..][..r.value];
        Some(r.value + 1)
  }

  /**
   * The fields `strptime` matches between separators: the maximal pieces of
   * `s` free of `sep`. No `%Y`, `%m` or `%d` field can contain the separator,
   * so this cut is the only one a format with that separator can make.
   * Joining the pieces with `sep` gives `s` back, and there is one more
   * piece than separators.
   */
  function SplitOn(s: string, sep: char): (ps: seq<string>)
    ensures |ps| > 0
    ensures forall k :: 0 <= k < |ps| ==> sep !in ps[k]
    ensures Join(ps, sep) == s
    decreases |s|
  {
    match IndexOf(s, sep)
    case None => [s]
    case Some(i) =>
      var rest := SplitOn(s[i + 1..], sep);
      assert s == s[..i] + [sep] + s[i + 1..];
      [s[..i]] + rest
  }

  lemma SplitOnNone(s: string, sep: char)
    requires sep !in s
    ensures SplitOn(s, sep) == [s]
  {
  }

  lemma SplitOnCons(a: string, sep: char, b: string)
    requires sep !in a
    ensures SplitOn(a + [sep] + b, sep) == [a] + SplitOn(b, sep)
  {
    var s := a + [sep] + b;
    assert s[|a|] == sep;
    assert s[..|a|] == a;
    assert s[|a| + 1..] == b;
  }

  // ---------------------------------------------------------------------------
  // Character filtering (`re.sub` with a character class and an empty replacement)

  /** The characters of `s` that `keep` accepts, in order. */
  function Filter(s: string, keep: char -> bool): (r: string)
    ensures |r| <= |s|
    ensures forall c :: c in r <==> c in s && keep(c)
    decreases |s|
  {
    if |s| == 0 then ""
    else
      var rest := Filter(s[1..], keep);
      assert forall c :: c in s <==> c == s[0] || c in s[1..];
      if keep(s[0]) then [s[0]] + rest else rest
  }

  lemma {:induction false} FilterAppend(a: string, b: string, keep: char -> bool)
    ensures Filter(a + b, keep) == Filter(a, keep) + Filter(b, keep)
    decreases |a|
  {
    if |a| > 0 {
      assert (a + b)[1..] == a[1..] + b;
      FilterAppend(a[1..], b, keep);
    } else {
      assert a + b == b;
    }
  }

  lemma FilterAll(s: string, keep: char -> bool)
    requires forall k :: 0 <= k < |s| ==> keep(s[k])
    ensures Filter(s, keep) == s
    decreases |s|
  {
    if |s| > 0 {
      FilterAll(s[1..], keep);
      assert s == [s[0]] + s[1..];
    }
  }

  lemma FilterNone(s: string, keep: char -> bool)
    requires forall k :: 0 <= k < |s| ==> !keep(s[k])
    ensures Filter(s, keep) == ""
    decreases |s|
  {
    if |s| > 0 {
      FilterNone(s[1..], keep);
    }
  }

  // ---------------------------------------------------------------------------
  // Decimal digit strings

  function Pow10(n: nat): (r: nat)
    ensures r >= 1
  {
    if n == 0 then 1 else 10 * Pow10(n - 1)
  }

  function DigitValue(c: char): nat
    requires IsDigit(c)
  {
    c as int - '0' as int
  }

  /** The value of a string of decimal digits (`int(s)`); the empty string is 0. */
  function DigitsValue(s: string): (v: nat)
    requires AllDigits(s)
    ensures v < Pow10(|s|)
    decreases |s|
  {
    if |s| == 0 then 0 else DigitsValue(s[..|s| - 1]) * 10 + DigitValue(s[|s| - 1])
  }

  function DigitChar(d: nat): (c: char)
    requires d < 10
    ensures IsDigit(c) && DigitValue(c) == d
  {
    ('0' as int + d) as char
  }

  /** The last `w` decimal digits of `n`, zero-padded: what `%0wd` prints for `n < 10^w`. */
  function PadDigits(n: nat, w: nat): (r: string)
    ensures |r| == w && AllDigits(r)
    ensures n < Pow10(w) ==> DigitsValue(r) == n
  {
    if w == 0 then ""
    else
      var r := PadDigits(n / 10, w - 1) + [DigitChar(n % 10)];
      assert r[..|r| - 1] == PadDigits(n / 10, w - 1);
      r
  }

  // ---------------------------------------------------------------------------
  // Code-point order on text (SQLite BINARY collation over UTF-8)

  /** `a` sorts before or equal to `b`, character by character, shorter prefix first. */
  predicate LexLe(a: string, b: string)
    decreases |a|
  {
    |a| == 0 || (|b| > 0 && (a[0] < b[0] || (a[0] == b[0] && LexLe(a[1..], b[1..]))))
  }

  lemma {:induction false} LexLeTotal(a: string, b: string)
    ensures LexLe(a, b) || LexLe(b, a)
    decreases |a|
  {
    if |a| > 0 && |b| > 0 && a[0] == b[0] {
      LexLeTotal(a[1..], b[1..]);
    }
  }

  lemma {:induction false} LexLeTransitive(a: string, b: string, c: string)
    requires LexLe(a, b) && LexLe(b, c)
    ensures LexLe(a, c)
    decreases |a|
  {
    if |a| > 0 && a[0] == b[0] && b[0] == c[0] {
      LexLeTransitive(a[1..], b[1..], c[1..]);
    }
  }

  lemma {:induction false} LexLeAntisymmetric(a: string, b: string)
    requires LexLe(a, b) && LexLe(b, a)
    ensures a == b
    decreases |a|
  {
    if |a| > 0 {
      LexLeAntisymmetric(a[1..], b[1..]);
      assert a == [a[0]] + a[1..];
      assert b == [b[0]] + b[1..];
    }
  }

  /** Comparing two texts that start with equal-length parts: the first parts decide unless they are equal. */
  lemma {:induction false} LexLeConcat(p: string, x: string, q: string, y: string)
    requires |p| == |q|
    ensures LexLe(p + x, q + y) <==> (p != q && LexLe(p, q)) || (p == q && LexLe(x, y))
    decreases |p|
  {
    if |p| > 0 {
      LexLeConcat(p[1..], x, q[1..], y);
      assert (p + x)[0] == p[0] && (q + y)[0] == q[0];
      assert (p + x)[1..] == p[1..] + x && (q + y)[1..] == q[1..] + y;
      assert p == [p[0]] + p[1..] && q == [q[0]] + q[1..];
    } else {
      assert p + x == x && q + y == y;
    }
  }

  /** Zero-padded numbers of one width sort as text in the order of their values. */
  lemma {:induction false} PadDigitsOrder(a: nat, b: nat, w: nat)
    requires a < b < Pow10(w)
    ensures LexLe(PadDigits(a, w), PadDigits(b, w)) && PadDigits(a, w) != PadDigits(b, w)
  {
    assert w > 0;
    var a', b' := a / 10, b / 10;
    PadDigitsStep(a, b, w);
    var pa, pb := PadDigits(a', w - 1), PadDigits(b', w - 1);
    var ca, cb := DigitChar(a % 10), DigitChar(b % 10);
    LexLeConcat(pa, [ca], pb, [cb]);
    if a' < b' {
      PadDigitsOrder(a', b', w - 1);
    } else {
      assert ca < cb && [ca] != [cb];
    }
  }

  /** The last digit comes off the padded text, and the rest stays in order. */
  lemma PadDigitsStep(a: nat, b: nat, w: nat)
    requires a < b < Pow10(w) && w > 0
    ensures a / 10 <= b / 10 < Pow10(w - 1)
    ensures a / 10 == b / 10 ==> a % 10 < b % 10
    ensures PadDigits(a, w) == PadDigits(a / 10, w - 1) + [DigitChar(a % 10)]
    ensures PadDigits(b, w) == PadDigits(b / 10, w - 1) + [DigitChar(b % 10)]
  {
    assert Pow10(w) == 10 * Pow10(w - 1);
  }

  /** For values of one width, text order is value order. */
  lemma PadDigitsLe(a: nat, b: nat, w: nat)
    requires a < Pow10(w) && b < Pow10(w)
    ensures LexLe(PadDigits(a, w), PadDigits(b, w)) <==> a <= b
    ensures PadDigits(a, w) == PadDigits(b, w) <==> a == b
  {
    if a < b {
      PadDigitsOrder(a, b, w);
    } else if b < a {
      PadDigitsOrder(b, a, w);
      if LexLe(PadDigits(a, w), PadDigits(b, w)) {
        LexLeAntisymmetric(PadDigits(a, w), PadDigits(b, w));
      }
    } else {
      LexLeTotal(PadDigits(a, w), PadDigits(a, w));
    }
  }
}
